=== FILE: README.md ===
# fms-server core in Dafny

A model of the core of fms-server, a Django REST backend for a farmers'
marketplace. The project proves properties of that model. It covers three
parts:

- **Users, farms and validation.** Accounts have one of three roles (Farmer,
  Buyer, Admin). A Buyer and a Farmer can switch roles; an Admin cannot.
  Registration refuses a duplicate email and the Admin role. Farms are
  owned by farmers. Every new farm files a pending application. An admin
  approves or rejects the application, and that sets `Farm.is_verified`.
- **Market.** The catalog has categories, plus products of verified farms.
  Each buyer has one basket, with at most one line per product. Checkout
  turns the basket into one pending order per farm: each order item keeps a
  snapshot of the price, and the product's stock is reduced. After
  checkout, the buyer can see and delete their own orders. A farmer can
  change the status of orders placed with their farms.
- **Chat.** A room between two users is addressed by the canonical label
  "min-max" of their two ids. A websocket session authenticates, checks the
  room and joins its broadcast group. Every message is broadcast to the
  group, and each receiving session stores it. The history endpoint lists
  a room's messages in time order, each labelled "me" or "companion".

Every endpoint is a pure function from the stored state and the request to
a `Reply(state, result)`. HTTP statuses are `Error` values: `NotFound` is
404, `Forbidden` is 403, `BadRequest` is 400 and `ServerError` is 500. A
request value is a `Json`:

- missing;
- null;
- an integer;
- a string;
- some other JSON value.

The model follows Python's truthiness, `int()` and `str()` on such values,
and the way DRF's serializer fields read them. Money is exact integer
cents. Ids are naturals handed out by per-table
counters.

Files and modules:

| file | module | what it holds |
|---|---|---|
| `wrappers.dfy` | `Wrappers` | `Option`, `Result`, and the `Error` values |
| `seqs.dfy` | `Seqs` | sequences without duplicates |
| `py_text.dfy` | `PyText` | `str.split`, `strip`, `int()` and `str()` on integers, `Decimal()` of a price |
| `requests.dfy` | `Requests` | request values, truthiness, `int(v)`, and the DRF text, integer and decimal fields |
| `users.dfy` | `Users` | roles, the user serializers, companion records |
| `farms.dfy` | `Farms` | farms, applications, the verification flow |
| `market_models.dfy` | `MarketModels` | the market tables, basket lines, totals |
| `catalog.dfy` | `Catalog` | categories, products, delete cascades |
| `baskets.dfy` | `Baskets` | basket and basket-line endpoints |
| `checkout.dfy` | `Checkout` | `OrderViewSet.create` |
| `orders.dfy` | `Orders` | buyer and farmer order endpoints |
| `room_names.dfy` | `RoomNames` | room labels |
| `channel_layer.dfy` | `ChannelLayer` | the group registry |
| `chat_consumer.dfy` | `ChatModels`, `ChatConsumer` | the websocket session |
| `chat_history.dfy` | `ChatHistory` | `ChatHistoryView` |

Where the code and its documentation disagree, the model follows the code.
Where the market code calls a name that does not exist, the model follows
the evidently intended program; "## Findings" records what the code as
written does instead, each with an as-written member beside the corrected
one. The deepest case is `OrderSerializer`: market/views.py:13-21 imports
it, but market/serializers.py does not define it. As written, the market
views module therefore does not load at all. The market model assumes the
module loads, and it is a model of that intended program.

Points where the model follows the code against its comments:

- **Chat echo.** The comment at chat/consumers.py:86 says the sender does
  not receive its own message. The code sends the message to every session
  in the group, the sender's included (`SenderReceivesOwnMessage`).
- **Chat storage.** `chat_message` calls `save_message` in every receiving
  session. So a message is stored once per live recipient, not once per
  send (`DeliverStoresPerRecipient`).
- **Order status.** No transition rule is enforced. A farmer may set any of
  the four statuses from any status (`AnyStatusTransition`).
- **Owner checks that never fire.** In several places an explicit owner
  check follows `get_object` (market/views.py:226, 296, 393-394, 402-403,
  425-426). `get_object` only searches the caller's own rows, so every
  other row is already 404 and those checks can never refuse.
- **Undefined names in the market views.** `Product.decrease_stock`,
  `Basket.clear` and `Order.farm` are not defined in market/models.py. The
  corrected model gives them their evident meaning:
  - stock minus quantity;
  - deleting the basket's lines;
  - the order records its farm.

  As written, each of them raises. "## Findings" models that for checkout
  (`Checkout.CheckoutAsWritten`), the clear action
  (`Baskets.ClearBasketAsWritten`) and the farmer's order update
  (`Orders.UpdateStatusAsWritten`).
- **`OrderSerializer`.** It is imported at market/views.py:18 but not
  defined. The model leaves out the response body of checkout and the
  update that `OrderViewSet.update` hands to it. Only that update's gate is
  modelled (`Orders.BuyerGate`).
- **`ValidationError` in `FarmerOrderViewSet.update`.** It is raised at
  market/views.py:430 and :435, but market/views.py:1-33 never imports it.
  As written, both refusals are therefore a `NameError`, which is a 500.
  `Orders.UpdateStatus` models the intended 400 that changes nothing.
  `Orders.UpdateStatusAsWritten` gives the 500. That update is in fact
  never reached as written, because the view's queryset already raises
  (see "## Findings").
- **The farms views as written.** farms/views.py:17 imports
  `FarmProductSerializer`, which market/serializers.py does not define, so
  the farms views module does not load either. `FarmSerializer` also lists
  `latitude` and `longitude` (farms/serializers.py:51-52), which `Farm`
  (farms/models.py:14-28) does not have, so building it raises on every
  create and update. The model follows the intended program: the farm
  endpoints exist, and the serializer reads the fields `Farm` has. The
  farms row in "## Findings" is about that intended program too.
- **Serializer validation.** DRF validates the body before
  `perform_create`, so a bad body is 400 even for a caller the view would
  refuse with 403. An update validates after the view's own checks. A PUT
  must carry every required field; a PATCH (`partial`) only the fields it
  sends. The model follows this order for farms, categories and
  products. `ProductViewSet` lists the permission class
  `IsFarmerOrReadOnly` (imported at market/views.py:23), which
  users/permissions.py does not define. Permission classes are not part of
  this model, so a product create checks the role where `perform_create`
  does: after the body is validated.
- **Application routing.** farms/urls.py:10 routes `applications/` without
  a pk. So every `put` through the router answers 400. The model takes the
  pk as an input, which keeps the rest of `put` reachable. A pk of 0 is
  falsy, so it behaves like a missing one.
- **Basket lines.** No database constraint makes a basket's lines unique per
  product. It is an invariant (`MarketModels.Valid`) that the merge in
  `BasketItemViewSet.create` keeps.
- **Channel layer.** The group registry is a sequence of channels in join
  order rather than a set. Broadcast order is therefore fixed.

## Model

| member | source | states |
|---|---|---|
| PyText.Split | chat/consumers.py:117 | `split("-")` gives at least one piece, no piece holds the separator, and joining the pieces gives back the string |
| PyText.SplitJoin | chat/consumers.py:117-118 | splitting undoes joining whenever no piece holds the separator |
| PyText.ParseInt | chat/consumers.py:121 | `int()` of a string without a minus sign never yields a negative number |
| PyText.ParseShow | chat/consumers.py:121-123 | `int(str(n)) == n` for every natural n |
| PyText.ShowInt | chat/consumers.py:123 | `str(i)` of a negative integer is "-" followed by the digits of its magnitude; otherwise it is the digits alone |
| PyText.ParseShowInt | chat/consumers.py:121-123 | `int(str(i)) == i` for every integer |
| PyText.Strip | farms/serializers.py:88-104 | the cleaned text is the piece of the input left after dropping the whitespace at both ends: all dropped characters are whitespace, and the piece neither starts nor ends with whitespace |
| PyText.StripUnique | farms/serializers.py:88-104 | those two conditions determine the result: any such piece of the input is what `strip()` returns |
| PyText.StripIdempotent | farms/serializers.py:88-104 | stripping a stripped text changes nothing |
| PyText.StripBlank | farms/serializers.py:88-104 | a text of whitespace only strips to the empty text |
| PyText.ShowIntStripped | farms/serializers.py:88-104 | the decimal text of an integer has no surrounding whitespace, so stripping keeps it |
| Requests.PyInt | market/views.py:198 | an id sent as a JSON integer or as decimal text is read as that number; null, a list or an object is no id (floats and booleans: see "## Left out") |
| Requests.PyIntOfText | market/views.py:198 | sending an id as its decimal text is the same as sending the number |
| Requests.CharInput | market/serializers.py:8-12 | a required text field is refused (400) when null, blank after trimming, holding a NUL character, or not text or an integer, and when missing outside a partial update; an accepted value is trimmed, never blank and free of NUL |
| Requests.CharInputOfText | market/serializers.py:8-12 | a text field filled with a number's decimal text, padded with whitespace or not, holds the same as one filled with the number |
| PyText.ParseCents | market/models.py:28 | `Decimal()` of a price text, in hundredths: a sign, whole digit groups and at most two fraction digits; a text without a minus sign never gives a negative amount |
| PyText.ParseShowCents | market/models.py:28 | an amount shown with its two decimal places reads back as the same amount |
| PyText.ParseShowIntCents | market/models.py:28 | an integer's decimal text is that many whole units |
| Requests.NatInput | market/models.py:29 | a `PositiveIntegerField` value: an integer as it is, a text through `int()` after a zero fraction is dropped; null, other values, unreadable text and negative numbers are 400; a missing key is skipped only in a partial update |
| Requests.NatOfText | market/models.py:29 | a whole number sent as its decimal text, or with a zero fraction and trailing whitespace ("5.00 "), fills the field as the number does |
| Requests.PriceInput | market/models.py:28 | a `DecimalField(max_digits=10, decimal_places=2)` value in hundredths: within eight whole digits, no third fraction digit; null, other values and unreadable text are 400; a missing key is skipped only in a partial update |
| Requests.PriceOfText | market/models.py:28 | an integer price sent as its decimal text, padded with whitespace or not, is the same price as the number |
| Requests.PriceShown | market/models.py:28 | a price shown with two decimal places is read back as the same amount |
| RoomNames.SplitTwo | chat/consumers.py:117-118 | a label "x-y" whose parts hold no '-' splits into exactly x and y |
| RoomNames.Participants | chat/consumers.py:117-121 | a label names two ids iff `split("-")` gives exactly two pieces and `int()` accepts both (surrounding whitespace, a '+' sign and single underscores between digits included) |
| RoomNames.FormatRoomName | chat/consumers.py:114-125 | a label is refused iff it does not name two ids |
| RoomNames.DecimalRoundTrip | chat/consumers.py:117-123 | the decimal text "x-y" of any two ids splits and reads back as exactly x and y |
| RoomNames.KeyRoundTrip | chat/consumers.py:121-123 | the canonical name of a and b reads back as the pair of ids with the smaller first |
| RoomNames.FormatCommutes | chat/consumers.py:121-123 | "A-B" and "B-A" give the same room name |
| RoomNames.FormatIsSortedPair | chat/consumers.py:121-123 | a formatted name is the decimal "a-b" with a <= b, and names the same two ids as the label |
| RoomNames.FormatIdempotent | chat/consumers.py:114-125 | formatting a formatted name changes nothing |
| RoomNames.NegativeIdRejected | chat/consumers.py:117-119 | "-1-2" splits into three pieces and is refused |
| RoomNames.IsValidRoom | chat/consumers.py:127-147 | a valid room name names two ids |
| RoomNames.ValidRoomIff | chat/consumers.py:130-145 | a formatted room is valid iff both ids are existing users and the caller is one of them |
| ChannelLayer.Remove | chat/consumers.py:53-56 | removing a channel keeps exactly the other members, still without duplicates; an absent channel changes nothing |
| ChannelLayer.RemoveLast | chat/consumers.py:40-56 | removing a channel that was just appended restores the sequence |
| ChannelLayer.GroupAdd | chat/consumers.py:40-43 | after `group_add` the group's members are the old members plus the channel; no other group changes; the registry stays valid |
| ChannelLayer.GroupDiscard | chat/consumers.py:53-56 | after `group_discard` the group's members are the old members minus the channel; no other group changes; the registry stays valid |
| ChannelLayer.DiscardAbsent | chat/consumers.py:53-56 | discarding a channel that is not a member leaves the registry as it was |
| ChannelLayer.AddThenDiscard | chat/consumers.py:40-56 | joining with a fresh channel and then leaving restores the registry |
| ChatConsumer.NewSession | chat/consumers.py:14-16 | a new consumer instance is connecting and has not joined any group |
| ChatConsumer.Connect | chat/consumers.py:16-46 | the session opens iff the token names a user, the label formats, and the room is valid; an open session is in group "chat_<name>"; a closed one leaves the layer unchanged |
| ChatConsumer.Disconnect | chat/consumers.py:48-56 | the session closes; a session with a user and a group leaves that group and no other group changes; a session without them fails before the discard, so the layer is unchanged |
| ChatConsumer.ConnectDisconnectRestores | chat/consumers.py:16-56 | whatever `connect` decided, the following `disconnect` restores the layer |
| ChatConsumer.Receive | chat/consumers.py:58-75 | a payload is broadcast iff it has a "message" key; the event carries that text and the session's own user's email |
| ChatConsumer.SenderIsServerSide | chat/consumers.py:60-73 | payloads that agree on "message" give the same event, so the client cannot choose the sender |
| ChatConsumer.SaveMessage | chat/consumers.py:149-167 | a message is appended iff the room and the sender's email exist; otherwise nothing is stored; users and rooms never change |
| ChatConsumer.Deliver | chat/consumers.py:77-95 | exactly the live members receive the frame (message and sender); users and rooms are unchanged |
| ChatConsumer.DeliverStoresPerRecipient | chat/consumers.py:77-95 | when every live member is in the same room, the message is stored once per recipient if the room and the sender's account exist, and not at all otherwise |
| ChatConsumer.Send | chat/consumers.py:58-95 | a send succeeds iff the payload has "message"; the recipients are exactly the live members of the sender's group |
| ChatConsumer.SenderReceivesOwnMessage | chat/consumers.py:86-95 | the sender's own session is among the recipients, with itself as sender |
| ChatHistory.Insert | chat/views.py:36 | inserting into a time-ordered list keeps it ordered and adds exactly that message |
| ChatHistory.SortByTime | chat/views.py:36 | the result is ordered by timestamp and is a permutation of the input |
| ChatHistory.RoomMessages | chat/views.py:36 | exactly the room's messages are selected, each as often as it is stored |
| ChatHistory.Label | chat/views.py:39-47 | each entry keeps its message's sender, text and time; it is "me" iff the caller sent it |
| ChatHistory.Unlabel | chat/views.py:39-47 | each entry maps back to the stored message it shows |
| ChatHistory.CompanionOf | chat/views.py:20-27 | the companion is the other participant; there is none iff the caller is neither participant |
| ChatHistory.GetHistory | chat/views.py:13-61 | an unknown room is 404; a non-participant is 403; a missing companion account is 404; otherwise the card shows the other participant |
| ChatHistory.UnlabelLabel | chat/views.py:39-47 | labelling a room's messages and mapping the entries back gives the same messages, and an entry is "me" iff the caller sent it |
| ChatHistory.HistoryContents | chat/views.py:36-56 | a successful history shows every message of the room exactly as often as it is stored, in time order, with "me" exactly on the caller's own messages |
| Users.NewUser | users/models.py:14-25 | a new account has the default role Buyer, no phone and no avatar |
| Users.FindById | chat/consumers.py:136-137 | a lookup by id finds a user with that id iff one exists |
| Users.FindByEmail | chat/consumers.py:156 | a lookup by email finds a user with that email iff one exists |
| Users.SwitchRole | users/models.py:33-43 | an Admin cannot switch; Buyer and Farmer swap |
| Users.SwitchTwice | users/models.py:33-43 | switching twice restores a Buyer or a Farmer |
| Users.SwitchUserRole | users/models.py:33-43 | only the role changes; the new role is the other of Farmer and Buyer |
| Users.ValidateRole | users/serializers.py:27-30 | a role is refused iff it is "Admin"; otherwise it passes unchanged |
| Users.ValidateEmail | users/serializers.py:22-25 | an email is refused iff some account already has it |
| Users.ValidateUrl | users/serializers.py:166-169 | a URL is accepted iff it starts with "http" |
| Users.UrlPrefixOnly | users/serializers.py:166-169 | the test is a prefix test, not a scheme test: "httpfoo" passes, "ftp://x" fails |
| Users.GetInfo | users/serializers.py:70-86 | info is present iff the role's own companion record exists: farmer info for a Farmer, buyer info for a Buyer, none for an Admin |
| Users.Represent | users/serializers.py:92-96 | socials are dropped iff the account is a Buyer; the info is `get_info` |
| Users.UpdateProfile | users/serializers.py:151-157 | supplied fields replace the stored ones, absent ones are kept; id, email and role never change |
| Users.UpdateProfileIdempotent | users/serializers.py:151-157 | applying an update twice is applying it once; an empty update changes nothing |
| Users.Provision | users/service.py:5-12 | an Admin raises; a Farmer or Buyer ends up with farmer info, buyer info and a basket, and existing records are kept |
| Users.ProvisionIdempotent | users/service.py:7-10 | a second run creates nothing new |
| Farms.ParseAppStatus | farms/models.py:8-11 | exactly the three stored choices name an application status |
| Farms.NewFarm | farms/models.py:14-28 | a new farm is unverified and owned by its farmer |
| Farms.SaveFarm | farms/models.py:56-59 | the first save of a farm files one pending application without a reason; a re-save files none |
| Farms.FirstSaveFilesOneApplication | farms/models.py:56-59 | after its first save a farm has exactly one application: pending, by its farmer, with no reason |
| Farms.ResaveFilesNothing | farms/models.py:56-59 | saving an existing farm again leaves its applications as they were |
| Farms.VisibleFarms | farms/views.py:29-38 | a Farmer sees the verified farms and their own; everyone else sees the verified farms only |
| Farms.CreateFarm | farms/views.py:40-49 | the body is validated before the role: a missing, null or blank name or address is 400 for anyone; then only a Farmer may create; the farm is theirs, holds the cleaned fields, is unverified, and has one pending application |
| Farms.OwnerGate | farms/views.py:51-67 | a farm passes iff it is the caller's and visible to them; a 403 is only given for a farm the caller can see |
| Farms.UpdateFarm | farms/views.py:51-58 | 404, then 403 for another farmer's farm, then 400 for a bad body; a PUT must carry name and address, a PATCH replaces only the fields it carries; farmer and verification are read-only |
| Farms.PutReplacesEveryField | farms/views.py:51-58 | a successful PUT keeps nothing of the old name and address: two farms with the same owner and flag end up equal |
| Farms.UpdateFarmIdempotent | farms/views.py:51-58 | repeating a farm update changes nothing further |
| Farms.DestroyFarm | farms/views.py:60-67 | only the owner may delete a farm; its applications go with it |
| Farms.IsOwner | farms/serializers.py:61-65 | `is_owner` holds iff there is a request and its user is the farm's farmer |
| Farms.ValidateApplication | farms/serializers.py:106-115 | refused iff the status is "rejected" and the reason is missing or empty; the error is keyed on `rejection_reason` |
| Farms.ListApplications | farms/views.py:96-116 | a status filter naming a choice wins; otherwise a truthy pk selects one application or 404; otherwise all applications are listed |
| Farms.Verification | farms/views.py:142-148 | "approved" verifies the farm, "rejected" unverifies it, anything else leaves the flag |
| Farms.CleanReason | farms/serializers.py:88-104 | a reason string is trimmed, an integer becomes its decimal text, and anything else gives no reason |
| Farms.ApplyPatch | farms/views.py:150-153 | given fields replace the stored ones and absent ones are kept; a patch that sets "rejected" stores a non-empty reason; farmer and farm never change |
| Farms.ReasonOnlyPatchBlanksReason | farms/serializers.py:106-115 | the serializer checks only the fields a patch carries, so a patch with just an empty reason is accepted and leaves a rejected application with the reason "" |
| Farms.PutApplication | farms/views.py:118-155 | 400 without a pk and 404 for an unknown application; "rejected" without a reason changes nothing; otherwise the farm's flag is set before the serializer validates, even when it then answers 400 |
| Farms.UnverifiedDespiteRefusedPatch | farms/views.py:136-155 | rejecting with a reason of one space answers 400 but leaves the farm unverified |
| Farms.VerifiedDespiteRefusedPatch | farms/views.py:142-155 | approving with a reason of the wrong JSON type answers 400 but leaves the farm verified |
| Farms.DecideApplication | farms/views.py:118-155 | a refused request changes nothing; an accepted one is exactly the stored `put`; an approved application's farm is verified and a rejected one's is not |
| MarketModels.ParseStatus | market/models.py:6-10 | a stored value names an order status iff it is one of the four values |
| MarketModels.FourStatusValues | market/models.py:6-10 | exactly four strings are statuses, and distinct statuses have distinct values |
| MarketModels.NewOrder | market/models.py:75-77 | a new order is pending |
| MarketModels.Lines | market/models.py:49-51 | `basket.items.all()` holds exactly the buyer's lines, ascending, each once; it is empty iff the buyer has no lines |
| MarketModels.BasketTotal | market/models.py:49-51 | the basket total is 0 with no lines, and a single line's price times its quantity with one |
| MarketModels.BasketTotalAppend | market/models.py:49-51 | the basket total adds up over any split of the lines |
| Catalog.DropProducts | market/models.py:54-90 | deleting products also deletes their basket lines and the order items naming them; nothing else goes; the invariant holds |
| Catalog.CreateCategory | market/views.py:42-46 | the name is validated before the role (400 for a missing, null or blank name); then a category is created iff the caller is an Admin, with the cleaned name and no description; any error stores nothing |
| Catalog.UpdateCategory | market/views.py:48-54 | 403, then 404, then 400 for a bad name; a PUT must carry the name and a PATCH may leave it out; the description never changes, since the serializer does not write it |
| Catalog.UpdateCategoryIdempotent | market/views.py:48-54 | repeating a category update changes nothing further |
| Catalog.UpdateToSame | market/views.py:48-54 | an update whose cleaned name is the stored one answers the stored category and changes nothing |
| Catalog.DestroyCategory | market/views.py:56-62 | Admin only; the category goes with every product in it, and every product of another category stays |
| Catalog.VisibleProducts | market/views.py:74-75 | products are listed iff their farm is verified |
| Catalog.CreateProduct | market/views.py:77-93 | the body is validated first: a bad name, price or stock is 400 for every caller; then 403 for a non-Farmer, 500 for a missing or unknown farm, 403 for another farmer's farm; for an own farm the answer is 201, and the validated fields are stored exactly when the category reference names a category |
| Catalog.ReadProduct | market/models.py:26-29 | the writable fields are accepted iff name, price and stock each are; a PUT or a create must carry all three |
| Catalog.ProductGate | market/views.py:95-115 | a product passes iff it is listed and its farm is the caller's; otherwise 404 if unlisted, else 403 |
| Catalog.UpdateProduct | market/views.py:95-104 | after the gate, a bad body is 400 with nothing changed; otherwise name, price and stock change as sent (a PATCH keeps what it leaves out); farm and category stay |
| Catalog.UpdateProductIdempotent | market/views.py:95-104 | repeating a product update changes nothing further |
| Catalog.EmptyPatchKeeps | market/views.py:95-104 | a PATCH carrying none of the writable fields changes nothing and answers the stored product |
| Catalog.DestroyProduct | market/views.py:106-115 | after the gate, the product and every basket line on it are gone |
| Catalog.UnverifiedProductsUntouchable | market/views.py:74-115 | a product of an unverified farm cannot be changed or deleted, even by its owner: 404 |
| Baskets.FirstLine | market/views.py:203 | the lookup finds a line on the product iff the basket has one |
| Baskets.FindsOwnLine | market/views.py:203 | the lookup finds the buyer's existing line on a product |
| Baskets.SetQuantity | market/views.py:236-237 | only that line's quantity changes; the invariant holds |
| Baskets.ShowBasket | market/views.py:135-143 | 404 iff the caller has no basket; otherwise the buyer's lines, with a total that is the sum of the line totals |
| Baskets.DestroyBasket | market/views.py:145-149 | deleting a basket is always 403 and changes nothing |
| Baskets.ClearBasket | market/views.py:151-167 | 404 without a basket; otherwise every line of the caller goes, and no other buyer's line does |
| Baskets.ClearBasketAsWritten | market/views.py:151-167 | as written, `basket.clear()` is undefined: 404 without a basket, otherwise 500; the state never changes |
| Baskets.ClearFailsAsWritten | market/views.py:151-167 | a buyer with a non-empty basket keeps every line under the code as written, while the intended clear leaves none |
| Baskets.AddItem | market/views.py:189-222 | the basket is created first; a falsy product or quantity is refused; a line is added, or merged into the existing line for that product, only when the stock covers the added quantity |
| Baskets.AddChecked | market/views.py:203-222 | after the stock check, the quantity is added to the existing line or a new line is created; the basket keeps one line per product; with no line on the product, a non-negative quantity always stores the new line under the next id, and a negative one is 400 |
| Baskets.LookupAgrees | market/views.py:203-205 | the line lookup finds nothing exactly when the buyer has no line on the product, and otherwise finds that line |
| Baskets.AddStoresNewLine | market/views.py:189-222 | a positive quantity within the stock of a product the caller has no line on is stored as a new line, with its id returned |
| Baskets.MergedLine | market/views.py:203-212 | merging keeps one line per product and changes no other line |
| Baskets.NewLine | market/views.py:214-220 | a new line for a product not yet in the basket keeps the invariant |
| Baskets.AddReachesMerge | market/views.py:189-203 | adding with truthy integer ids goes through the basket creation into the stock-checked add |
| Baskets.MergeChecked | market/views.py:203-212 | with a line on the product, an integer quantity whose sum with the line is not negative is merged into that line; otherwise the request fails and changes nothing |
| Baskets.MergeNotRechecked | market/views.py:200-212 | the stock check covers only the added quantity, so a merged line can exceed the stock |
| Baskets.UpdateItem | market/views.py:224-240 | another buyer's line is 404; a falsy quantity changes nothing; a quantity above the stock is 403; a non-integer or negative quantity is 500; an integer from 1 up to the stock is always stored on that line and nothing else; every error changes nothing |
| Baskets.DestroyItem | market/views.py:291-300 | only the caller's own line can be deleted; anything else is 404 |
| Baskets.Step | market/views.py:251-286 | an update without a truthy id or a quantity is 400; an unknown line is 404; another buyer's line is 403; on the caller's own line, an integer quantity above the stock is 400, a negative one 500, and any other integer passes; a success names one of the caller's lines and an integer quantity within its product's stock |
| Baskets.Run | market/views.py:250-289 | the updates touch only quantities of existing lines and keep the invariant; success answers one result per update |
| Baskets.RunSingle | market/views.py:250-286 | a one-update list saves a passing update and lists its line, and answers a failing update's error with nothing changed |
| Baskets.RunSetsLast | market/views.py:250-286 | after a run that passes, every line holds the quantity the last update naming it asked for, and every other line is unchanged |
| Baskets.RunAppend | market/views.py:250-286 | running two lists in a row is running their concatenation |
| Baskets.EarlierUpdatesKept | market/views.py:250-286 | the bulk update is not atomic: updates saved before a bad one stay saved after the error |
| Baskets.BulkUpdate | market/views.py:242-289 | a missing or empty "updates" list is 400; otherwise the updates are applied in order |
| Baskets.RunOwnLines | market/views.py:269-272 | every line a successful run changed is one of the caller's |
| Checkout.LineItem | market/views.py:367-374 | an order item copies the line's product and quantity and the product's current price |
| Checkout.Picks | market/views.py:334-339 | each checked-out line keeps its product's farm and its price snapshot |
| Checkout.SnapshotTotal | market/views.py:355 | the snapshot items cost what the basket's total says |
| Checkout.Shortages | market/views.py:334-337 | the short products are named in line order; there are none iff every line's stock covers its quantity |
| Checkout.ShortagesIff | market/views.py:334-347 | the shortage list is non-empty iff some basket line asks for more than the stock |
| Checkout.FarmsOf | market/views.py:331-339 | the farms of the lines, each once, in order of first appearance |
| Checkout.OrderFor | market/views.py:353-363 | a farm's order is pending, for the buyer, holds that farm's items, and costs their total |
| Checkout.OrdersPartition | market/views.py:353-380 | the orders' items together are a permutation of the basket's items, and the order totals add up to their total |
| Checkout.OrdersCoverFarms | market/views.py:353-363 | each line's farm has an order, each order's farm has a line, and no farm has two orders |
| Checkout.Decrement | market/views.py:375 | each product's stock drops by the quantity bought; only stock changes |
| Checkout.Place | market/views.py:358-363 | the new orders get the next consecutive ids, and existing orders are kept |
| Checkout.CheckoutAsWritten | market/views.py:318-389 | as written, the 404 and 400 answers are as intended, but a basket that passes them gives 500, since `Order` has no `farm`; the transaction leaves the state unchanged |
| Checkout.CheckoutRefusedAsWritten | market/views.py:352-384 | for a non-empty basket with enough stock, the code as written answers 500 and changes nothing, while the intended checkout succeeds |
| Checkout.Checkout | market/views.py:318-389 | 404 without a basket; 400 for an empty basket or any shortage, with the shortage list; any error changes nothing; on success the state is the placed orders, the decremented stock and the emptied basket |
| Checkout.CheckoutStores | market/views.py:349-381 | the new ids were free, the orders are stored under them, and old orders are untouched |
| Checkout.CheckoutOneOrderPerFarm | market/views.py:331-363 | every new order is pending and the buyer's, and no two are for the same farm |
| Checkout.CheckoutFarmsAreLineFarms | market/views.py:331-363 | the orders' farms are exactly the farms of the basket's lines |
| Checkout.LineFarmsCovered | market/views.py:331-363 | every line's farm gets an order, and every order's farm has a line |
| Checkout.CheckoutTotals | market/views.py:353-374 | each order's total is the sum of its items; each item is the snapshot of a line of that farm |
| Checkout.CheckoutItemsAreBasket | market/views.py:353-380 | all new order items are a permutation of the basket's snapshot items, and the totals sum to the basket total |
| Checkout.CheckoutStock | market/views.py:375 | only stock changes; each bought product's stock plus its quantity is the old stock |
| Checkout.CheckoutOtherStock | market/views.py:366-376 | a product not in the basket keeps its stock |
| Checkout.CheckoutEmptiesBasket | market/views.py:384 | the basket remains but has no lines; other buyers' lines are unchanged |
| Checkout.CheckoutValid | market/views.py:318-389 | checkout keeps the state's invariant |
| Orders.BuyerOrders | market/views.py:312-316 | a buyer sees exactly their own orders |
| Orders.BuyerGate | market/views.py:391-398 | an order passes iff it is the caller's; anything else is 404 |
| Orders.DestroyOrder | market/views.py:400-407 | the caller's order is deleted iff it is theirs; anything else is 404 and changes nothing |
| Orders.FarmerOrders | market/views.py:415-416 | a farmer sees exactly the orders placed with their farms |
| Orders.UpdateStatus | market/views.py:418-444 | 404 outside the farmer's orders; 400 unless the body is exactly one "status" key naming a status; otherwise only that order's status changes |
| Orders.UpdateStatusAsWritten | market/views.py:410-444 | as written, every update is a 500 and changes nothing: the queryset filters on the missing `farm__farmer`, and the refusals name the unimported `ValidationError` |
| Orders.StatusRefusedAsWritten | market/views.py:410-444 | a farmer's valid status change succeeds in the intended view, but is a 500 as written |
| Orders.AnyStatusTransition | market/views.py:437-439 | any status can be set from any status |
| Orders.ExtraKeyRefused | market/views.py:428-430 | a body with any key besides "status" is refused and changes nothing |

## Left out

- Authentication: JWT decoding and the permission classes are left out. The
  token's user is an input (`tokenUser`), and the caller is a `User`
  parameter. `is_farmer` and `is_buyer` are not defined in the source.
- Concurrency and `async`: every request and every consumer callback is one
  atomic step. Transactions are not modelled, beyond the fact that the
  checkout is all or nothing.
- `print` calls and logging.
- Database field limits: the `max_length` of text fields and the upper
  bounds of integer ids, quantities and stock are not modelled. This
  includes DRF's 2147483647 maximum for a `PositiveIntegerField`.
  Quantities, stock and ids are unbounded naturals. The price's digit
  limits are modelled (`Requests.PriceInput`).
- Decimal and floating-point amounts: prices are exact integer cents. JSON
  floats and booleans are the `Other` request value.
- AddItem: a JSON float or boolean product id or quantity is `Other`, so it
  is refused with 500. Python's `int()` would truncate it instead
  (`int(2.0)` is 2, `int(True)` is 1), in market/views.py:189-222.
- UpdateItem: a JSON float or boolean quantity is `Other`, so it is refused
  with 500. Python would truncate it (market/views.py:224-240).
- Step: a JSON float or boolean id or quantity in a bulk update is `Other`,
  so it is refused with 500. Python would truncate it (market/views.py:251-286).
- Requests.PyInt: floats and booleans are not read as numbers. It gives no
  id for them where `int()` gives the truncated value.
- Farms.CleanReason: a float or boolean reason is not turned into its
  `str()` text. It is `Other`, so it gives no reason, and any patch that
  carries it is refused with 400.
- ChatConsumer.Receive: the payload is a map from keys to strings. A
  "message" that is not a string, a body that is not a JSON object, and
  text that is not JSON at all are not modelled; the consumer would raise
  on each of them.
- Unicode: `int()` accepts only ASCII digits here. `isspace` covers ASCII and
  Latin-1 whitespace only.
- Response shapes of list and retrieve endpoints, and pagination. The
  `OrderSerializer` output of checkout is left out too, because that
  serializer is not defined in the source.
- `OrderViewSet.update` beyond its gate: it hands the request to the
  undefined `OrderSerializer`.
- Farm deletion does not cascade into the market tables. Farms and products
  are held in two separate states here.
- `Category.description` is read-only here: `CategorySerializer`
  (market/serializers.py:8-12) writes only the name, so a category is
  created without a description and no update changes it. A description
  can only come from outside the API, which the model does not cover.
- Farms.CreateFarm: only the `name` and `address` fields are validated.
  `size`, `crop_types`, `latitude` and `longitude` are not part of the
  farm here, so the 400 a missing or bad value of one of them gives is not
  modelled.
- Farms.UpdateFarm: the same fields are left out. A PUT without `size` or
  `crop_types` answers 400 in the source, but succeeds here when name and
  address are valid.
- Text fields (`Requests.CharInput`): `max_length` is not checked, and a
  JSON float is refused, where DRF would store its `str()` text.
- The `my_farms` and `products` actions of `FarmViewSet`, distance and
  geolocation, and the uploaded image files are left out.
- Products: the optional `description` field is not modelled. The second
  serializer that `perform_create` builds (`ProductCreateSerializer`)
  checks the same name, price and stock again. They have already passed,
  so only its category and farm checks are modelled.
- Requests.PriceInput: `Decimal()` also reads exponent notation ("1e2"),
  underscores in the fraction digits and non-ASCII digits. The model
  refuses those texts with 400. DRF's 1000-character limit on the text is
  not checked.
- Requests.NatInput: a JSON float with a zero fraction (5.0) is `Other` and
  is refused here, where DRF reads it as 5. DRF's 1000-character limit on
  a numeric text is not checked.
- users/views.py HTTP plumbing (login, registration responses,
  token refresh) is left out. The rules it calls are modelled:
  `SwitchUserRole`, `ValidateEmail`, `ValidateRole`, `UpdateProfile`,
  `Provision`.
- The message timestamp is an input (`now`), not the clock.

## Findings

| source | as written | input that shows it | evidently intended | confidence | as-written member | corrected member |
|---|---|---|---|---|---|---|
| farms/views.py:142-155 | `put` saves the farm's new `is_verified` before `serializer.is_valid()`. A patch the serializer refuses answers 400 but keeps the changed flag. This holds once the farms module loads; as written, its import at farms/views.py:17 fails first. | a status of "rejected" with a reason of " " (one space): the view's own check passes, the serializer trims the reason to "" and refuses it, and the farm is left unverified | a refused request changes nothing; the flag follows only an accepted decision | high (not executed) | Farms.UnverifiedDespiteRefusedPatch | Farms.DecideApplication |
| market/views.py:352-384 | `Order.objects.create(farm=farm, …)` passes a field that `Order` (market/models.py:67-81) does not have, so it raises inside the transaction. `decrease_stock` and `basket.clear` are undefined as well. | a buyer with one basket line of quantity 1 on a product with stock 1: the checks pass, the create raises, the transaction rolls back, and the answer is 500 | one pending order per farm, stock reduced, basket emptied (201) | high (not executed) | Checkout.CheckoutAsWritten, Checkout.CheckoutRefusedAsWritten | Checkout.Checkout |
| market/views.py:151-167 | `clear_basket` calls `basket.clear()`, which `Basket` (market/models.py:37-52) does not define | a buyer whose basket has one line: the call raises and the answer is 500 with the line still there | the basket's lines are deleted (204) | high (not executed) | Baskets.ClearBasketAsWritten, Baskets.ClearFailsAsWritten | Baskets.ClearBasket |
| market/views.py:410-444 | `get_queryset` filters on `farm__farmer`, which `Order` lacks; the refusals raise `ValidationError`, which is never imported | a farmer sending `{"status": "processing"}` for an order of their farm: the lookup raises and the answer is 500 | the order's status changes (200); a bad body is 400 | high (not executed) | Orders.UpdateStatusAsWritten, Orders.StatusRefusedAsWritten | Orders.UpdateStatus |

=== FILE: baskets.dfy ===
/** A buyer's basket: showing and clearing it, and the basket-line
    endpoints — add (merging into an existing line), single update, bulk
    update and delete — with their stock checks. Request values arrive as
    JSON values, and what Python does with a wrongly typed one (a raised
    TypeError or ValueError, or a database constraint failure) is a 500. */
module Baskets {
  import opened Wrappers
  import opened Users
  import opened Requests
  import opened MarketModels

  /** The buyer's first line on `product` among `lines`
      (`filter(basket=…, product=…).first()`). */
  function FirstLine(s: MarketState, lines: seq<nat>, product: nat): (r: Option<nat>)
    requires forall i :: 0 <= i < |lines| ==> lines[i] in s.items
    ensures r.Some? ==> r.value in lines && s.items[r.value].product == product
    ensures r.None? <==> forall i :: 0 <= i < |lines| ==> s.items[lines[i]].product != product
  {
    if |lines| == 0 then None
    else if s.items[lines[0]].product == product then Some(lines[0])
    else FirstLine(s, lines[1..], product)
  }

  /** The line `k` with its quantity set to `q`; nothing else changes. */
  function SetQuantity(s: MarketState, k: nat, q: nat): (r: MarketState)
    requires k in s.items
    ensures r.items.Keys == s.items.Keys
    ensures r.items[k].quantity == q
    ensures r == s.(items := s.items[k := r.items[k]])
    ensures r.items[k] == s.items[k].(quantity := q)
    ensures LinesPriced(s) ==> LinesPriced(r)
    ensures Valid(s) ==> Valid(r)
  {
    s.(items := s.items[k := s.items[k].(quantity := q)])
  }

  /** At most one line of `buyer` is on `product`. */
  ghost predicate OneLine(s: MarketState, buyer: nat, product: nat, k: nat) {
    k in s.items && s.items[k].buyer == buyer && s.items[k].product == product
    && forall j :: j in s.items && s.items[j].buyer == buyer && s.items[j].product == product ==> j == k
  }

  // ---------------------------------------------------------------------
  // BasketViewSet
  // ---------------------------------------------------------------------

  datatype BasketView = BasketView(lines: seq<BasketItem>, total: int)

  /** `BasketViewSet.list`: 404 without a basket; otherwise the lines in id
      order and the basket's total, 0 for an empty basket. */
  function ShowBasket(s: MarketState, caller: User): (r: Result<BasketView, Error>)
    requires Valid(s)
    ensures r.Err? <==> caller.id !in s.baskets
    ensures r.Err? ==> r.error == NotFound
    ensures r.Ok? ==>
              && |r.value.lines| == |Lines(s, caller.id)|
              && (forall i :: 0 <= i < |r.value.lines| ==> r.value.lines[i] == s.items[Lines(s, caller.id)[i]])
              && r.value.total == BasketTotal(s, Lines(s, caller.id))
              && (|r.value.lines| == 0 ==> r.value.total == 0)
  {
    if caller.id !in s.baskets then Err(NotFound)
    else
      var lines := Lines(s, caller.id);
      Ok(BasketView(seq(|lines|, i requires 0 <= i < |lines| => s.items[lines[i]]), BasketTotal(s, lines)))
  }

  /** `BasketViewSet.destroy`: a basket is never deleted through the API. */
  function DestroyBasket(s: MarketState, caller: User): (r: Reply<()>)
    ensures r.state == s && r.result.Err? && r.result.error == Forbidden
  {
    Reply(s, Err(Forbidden))
  }

  /** `BasketViewSet.clear_basket`: 404 without a basket; otherwise every
      line of the caller is deleted and nothing else changes. */
  function ClearBasket(s: MarketState, caller: User): (r: Reply<()>)
    requires Valid(s)
    ensures caller.id !in s.baskets ==> r == Reply(s, Err(NotFound))
    ensures caller.id in s.baskets ==> r.result.Ok?
    ensures Valid(r.state)
    ensures r.result.Ok? ==>
              && Lines(r.state, caller.id) == []
              && (forall k :: k in s.items && s.items[k].buyer != caller.id <==> k in r.state.items)
              && (forall k :: k in r.state.items ==> r.state.items[k] == s.items[k])
              && r.state == s.(items := r.state.items)
  {
    if caller.id !in s.baskets then Reply(s, Err(NotFound))
    else
      var items := map k | k in s.items && s.items[k].buyer != caller.id :: s.items[k];
      Reply(s.(items := items), Ok(()))
  }

  /** `BasketViewSet.clear_basket` as the code stands: `Basket` has no
      `clear` method, so a caller with a basket gets a 500 and keeps every
      line; without a basket it is 404 as in `ClearBasket`. */
  function ClearBasketAsWritten(s: MarketState, caller: User): (r: Reply<()>)
    requires Valid(s)
    ensures r.state == s && r.result.Err?
    ensures caller.id !in s.baskets ==> r == ClearBasket(s, caller)
    ensures caller.id in s.baskets ==> r.result.error == ServerError
  {
    if caller.id !in s.baskets then Reply(s, Err(NotFound)) else Reply(s, Err(ServerError))
  }

  /** The defect on a concrete request: a basket with lines keeps them as
      written, while the corrected endpoint empties it. */
  lemma ClearFailsAsWritten(s: MarketState, caller: User)
    requires Valid(s) && caller.id in s.baskets && Lines(s, caller.id) != []
    ensures Lines(ClearBasketAsWritten(s, caller).state, caller.id) != []
    ensures ClearBasket(s, caller).result.Ok? && Lines(ClearBasket(s, caller).state, caller.id) == []
  {
  }

  // ---------------------------------------------------------------------
  // BasketItemViewSet
  // ---------------------------------------------------------------------

  /** `BasketItemViewSet.create`. The caller's basket is created first and
      stays even when the request then fails. A falsy product or quantity is
      refused with 403; a product reference that is not an integer or names
      no product raises (500); a quantity `int()` cannot read raises (500);
      a quantity above the stock is refused with 403. If the basket already
      has a line on the product, the quantity is added to it (a string
      quantity raises there, and a sum below zero fails the non-negative
      column) and no second line appears; otherwise the serializer refuses a
      negative quantity (400) or a new line is stored. */
  function AddItem(s: MarketState, caller: User, product: Json, quantity: Json): (r: Reply<nat>)
    requires Valid(s)
    ensures r.state.baskets == s.baskets + {caller.id}
    ensures r.result.Err? ==> r.state == s.(baskets := s.baskets + {caller.id})
    ensures r.state == s.(baskets := r.state.baskets, items := r.state.items, nextItem := r.state.nextItem)
    ensures !Truthy(product) || !Truthy(quantity) ==> r.result == Err(Forbidden)
    ensures Truthy(product) && Truthy(quantity) && PyInt(product).Some? && PyInt(product).value in s.products
            && PyInt(quantity).Some? && s.products[PyInt(product).value].stock < PyInt(quantity).value ==>
              r.result == Err(Forbidden)
    ensures r.result.Ok? ==>
              && PyInt(product).Some? && PyInt(product).value in s.products
              && PyInt(quantity).Some? && PyInt(quantity).value <= s.products[PyInt(product).value].stock
              && OneLine(r.state, caller.id, PyInt(product).value, r.result.value)
              && r.state.items - {r.result.value} == s.items - {r.result.value}
              && (r.result.value in s.items ==>
                    r.state.items[r.result.value].quantity
                      == s.items[r.result.value].quantity + PyInt(quantity).value)
              && (r.result.value !in s.items ==>
                    r.state.items[r.result.value].quantity == PyInt(quantity).value)
    ensures Valid(r.state)
  {
    var s0 := WithBasket(s, caller.id);
    if !Truthy(product) || !Truthy(quantity) then Reply(s0, Err(Forbidden))
    else
      match PyInt(product)
      case None => Reply(s0, Err(ServerError))
      case Some(pid) =>
        if pid < 0 || pid !in s.products then Reply(s0, Err(ServerError))
        else
          match PyInt(quantity)
          case None => Reply(s0, Err(ServerError))
          case Some(q) =>
            if s.products[pid].stock < q then Reply(s0, Err(Forbidden))
            else AddChecked(s0, caller.id, pid, q, quantity.Int?)
  }

  /** The part of `create` after the stock check: merge into the buyer's
      line on the product, or store a new line. `addable` says whether the
      request's quantity can be added to an integer (it cannot when it came
      as a string). */
  function AddChecked(s: MarketState, buyer: nat, pid: nat, q: int, addable: bool): (r: Reply<nat>)
    requires Valid(s) && buyer in s.baskets && pid in s.products
    ensures r.result.Err? ==> r.state == s
    ensures r.state == s.(items := r.state.items, nextItem := r.state.nextItem)
    ensures r.result.Ok? ==>
              && OneLine(r.state, buyer, pid, r.result.value)
              && r.state.items - {r.result.value} == s.items - {r.result.value}
              && (r.result.value in s.items ==>
                    r.state.items[r.result.value].quantity == s.items[r.result.value].quantity + q)
              && (r.result.value !in s.items ==> r.state.items[r.result.value].quantity == q)
    ensures (forall j :: j in s.items && s.items[j].buyer == buyer ==> s.items[j].product != pid) ==>
              r == if q < 0 then Reply(s, Err(BadRequest))
                   else Reply(s.(items := s.items[s.nextItem := BasketItem(buyer, pid, q)], nextItem := s.nextItem + 1),
                              Ok(s.nextItem))
    ensures Valid(r.state)
  {
    LookupAgrees(s, buyer, pid);
    match FirstLine(s, Lines(s, buyer), pid)
    case Some(k) =>
      if !addable || s.items[k].quantity + q < 0 then Reply(s, Err(ServerError))
      else
        MergedLine(s, buyer, pid, k, s.items[k].quantity + q);
        Reply(SetQuantity(s, k, s.items[k].quantity + q), Ok(k))
    case None =>
      if q < 0 then Reply(s, Err(BadRequest))
      else
        NewLine(s, buyer, pid, q);
        Reply(s.(items := s.items[s.nextItem := BasketItem(buyer, pid, q)], nextItem := s.nextItem + 1),
              Ok(s.nextItem))
  }

  /** The lookup over the buyer's lines agrees with the basket: it finds
      nothing exactly when the buyer has no line on the product, and
      otherwise it finds that line. */
  lemma LookupAgrees(s: MarketState, buyer: nat, pid: nat)
    requires Valid(s)
    ensures FirstLine(s, Lines(s, buyer), pid).None?
            <==> forall j :: j in s.items && s.items[j].buyer == buyer ==> s.items[j].product != pid
    ensures forall k :: k in s.items && s.items[k].buyer == buyer && s.items[k].product == pid ==>
              FirstLine(s, Lines(s, buyer), pid) == Some(k)
  {
    var lines := Lines(s, buyer);
    forall k | k in s.items && s.items[k].buyer == buyer && s.items[k].product == pid
      ensures FirstLine(s, lines, pid) == Some(k)
    {
      FindsOwnLine(s, buyer, k);
    }
    if FirstLine(s, lines, pid).None? {
      forall j | j in s.items && s.items[j].buyer == buyer ensures s.items[j].product != pid {
        assert j in lines;
        var i :| 0 <= i < |lines| && lines[i] == j;
      }
    }
  }

  /** Changing the quantity of the buyer's line on a product keeps it the
      only such line. */
  lemma MergedLine(s: MarketState, buyer: nat, product: nat, k: nat, n: nat)
    requires Valid(s)
    requires k in s.items && s.items[k].buyer == buyer && s.items[k].product == product
    ensures OneLine(SetQuantity(s, k, n), buyer, product, k)
    ensures SetQuantity(s, k, n).items - {k} == s.items - {k}
  {
    var r := SetQuantity(s, k, n);
    assert r.items - {k} == s.items - {k};
  }

  /** A new line for a product the basket has no line on keeps the state
      valid and is then the only line on that product. */
  lemma NewLine(s: MarketState, buyer: nat, product: nat, q: nat)
    requires Valid(s)
    requires product in s.products && buyer in s.baskets
    requires forall i :: 0 <= i < |Lines(s, buyer)| ==> s.items[Lines(s, buyer)[i]].product != product
    ensures var r := s.(items := s.items[s.nextItem := BasketItem(buyer, product, q)], nextItem := s.nextItem + 1);
            && Valid(r)
            && OneLine(r, buyer, product, s.nextItem)
            && r.items - {s.nextItem} == s.items - {s.nextItem}
  {
    var r := s.(items := s.items[s.nextItem := BasketItem(buyer, product, q)], nextItem := s.nextItem + 1);
    forall j | j in s.items && s.items[j].buyer == buyer ensures s.items[j].product != product {
      assert j in Lines(s, buyer);
      var i :| 0 <= i < |Lines(s, buyer)| && Lines(s, buyer)[i] == j;
    }
    assert r.items - {s.nextItem} == s.items - {s.nextItem};
  }

  /** Adding to an existing line is checked against the stock for the added
      amount only: a line already holding most of the stock can be pushed
      past it. */
  lemma MergeNotRechecked(s: MarketState, caller: User, k: nat, q: int)
    requires Valid(s)
    requires k in s.items && s.items[k].buyer == caller.id && s.items[k].product != 0
    requires 0 < q <= s.products[s.items[k].product].stock < s.items[k].quantity + q
    ensures var r := AddItem(s, caller, Int(s.items[k].product), Int(q));
            && r.result == Ok(k)
            && r.state.items[k].quantity > r.state.products[s.items[k].product].stock
  {
    var s0 := WithBasket(s, caller.id);
    AddReachesMerge(s, caller, s.items[k].product, q);
    MergeChecked(s0, caller.id, k, q, true);
  }

  /** A positive quantity within the stock of an existing product passes
      every check before the merge. */
  lemma AddReachesMerge(s: MarketState, caller: User, p: nat, q: int)
    requires Valid(s) && p in s.products && p != 0
    requires 0 < q <= s.products[p].stock
    ensures AddItem(s, caller, Int(p), Int(q)) == AddChecked(WithBasket(s, caller.id), caller.id, p, q, true)
  {
    assert Truthy(Int(p)) && Truthy(Int(q));
  }

  /** A positive quantity within the stock of a product the caller has no
      line on is stored as a new line, and the new line's id is returned. */
  lemma AddStoresNewLine(s: MarketState, caller: User, p: nat, q: nat)
    requires Valid(s) && p in s.products && p != 0
    requires 0 < q <= s.products[p].stock
    requires forall j :: j in s.items && s.items[j].buyer == caller.id ==> s.items[j].product != p
    ensures AddItem(s, caller, Int(p), Int(q))
            == Reply(s.(baskets := s.baskets + {caller.id},
                        items := s.items[s.nextItem := BasketItem(caller.id, p, q)],
                        nextItem := s.nextItem + 1),
                     Ok(s.nextItem))
  {
    AddReachesMerge(s, caller, p, q);
  }

  /** With a line on the product, the checked add merges into it when the
      quantity can be added and the sum is not negative, and otherwise fails
      with nothing changed. */
  lemma MergeChecked(s: MarketState, buyer: nat, k: nat, q: int, addable: bool)
    requires Valid(s) && buyer in s.baskets
    requires k in s.items && s.items[k].buyer == buyer
    ensures AddChecked(s, buyer, s.items[k].product, q, addable)
            == if addable && s.items[k].quantity + q >= 0 then Reply(SetQuantity(s, k, s.items[k].quantity + q), Ok(k))
               else Reply(s, Err(ServerError))
  {
    FindsOwnLine(s, buyer, k);
  }

  /** The state once `get_or_create` has made sure the buyer has a basket. */
  function WithBasket(s: MarketState, buyer: nat): (r: MarketState)
    requires Valid(s)
    ensures r.baskets == s.baskets + {buyer}
    ensures r == s.(baskets := r.baskets)
    ensures Valid(r)
  {
    s.(baskets := s.baskets + {buyer})
  }

  /** The lookup finds the buyer's line on a product whenever there is one. */
  lemma FindsOwnLine(s: MarketState, buyer: nat, k: nat)
    requires Valid(s)
    requires k in s.items && s.items[k].buyer == buyer
    ensures FirstLine(s, Lines(s, buyer), s.items[k].product) == Some(k)
  {
    assert k in Lines(s, buyer);
  }

  /** `BasketItemViewSet.update`: a line that is not the caller's is not
      found (404); a falsy quantity changes nothing; a non-integer quantity
      cannot be compared with the stock (500); more than the stock is
      refused (403); a negative quantity fails the non-negative column
      (500); otherwise the line's quantity is replaced. */
  function UpdateItem(s: MarketState, caller: User, id: nat, quantity: Json): (r: Reply<BasketItem>)
    requires Valid(s)
    ensures r.result.Err? ==> r.state == s
    ensures id !in s.items || s.items[id].buyer != caller.id ==> r.result == Err(NotFound)
    ensures id in s.items && s.items[id].buyer == caller.id && !Truthy(quantity) ==>
              r == Reply(s, Ok(s.items[id]))
    ensures r.result.Ok? && Truthy(quantity) ==>
              && quantity.Int? && 0 <= quantity.i <= s.products[s.items[id].product].stock
              && r.state == SetQuantity(s, id, quantity.i)
              && r.result.value == r.state.items[id]
    ensures (id in s.items && s.items[id].buyer == caller.id && quantity.Int?
             && quantity.i > s.products[s.items[id].product].stock) ==> r.result == Err(Forbidden)
    ensures (id in s.items && s.items[id].buyer == caller.id && quantity.Int? && quantity.i != 0
             && 0 <= quantity.i <= s.products[s.items[id].product].stock) ==>
              r == Reply(SetQuantity(s, id, quantity.i), Ok(s.items[id].(quantity := quantity.i)))
    ensures (id in s.items && s.items[id].buyer == caller.id && Truthy(quantity)
             && (!quantity.Int? || quantity.i < 0)) ==> r == Reply(s, Err(ServerError))
    ensures Valid(r.state)
  {
    if id !in s.items || s.items[id].buyer != caller.id then Reply(s, Err(NotFound))
    else if !Truthy(quantity) then Reply(s, Ok(s.items[id]))
    else if !quantity.Int? then Reply(s, Err(ServerError))
    else if s.products[s.items[id].product].stock < quantity.i then Reply(s, Err(Forbidden))
    else if quantity.i < 0 then Reply(s, Err(ServerError))
    else
      var r := SetQuantity(s, id, quantity.i);
      Reply(r, Ok(r.items[id]))
  }

  /** `BasketItemViewSet.destroy`: only the caller's own line can be found
      and deleted. */
  function DestroyItem(s: MarketState, caller: User, id: nat): (r: Reply<()>)
    requires Valid(s)
    ensures id !in s.items || s.items[id].buyer != caller.id ==> r == Reply(s, Err(NotFound))
    ensures id in s.items && s.items[id].buyer == caller.id ==>
              r == Reply(s.(items := s.items - {id}), Ok(()))
    ensures Valid(r.state)
  {
    if id !in s.items || s.items[id].buyer != caller.id then Reply(s, Err(NotFound))
    else Reply(s.(items := s.items - {id}), Ok(()))
  }

  // ---------------------------------------------------------------------
  // Bulk update (BasketItemViewSet.patch)
  // ---------------------------------------------------------------------

  /** One element of the "updates" list: an object with its "id" and
      "quantity" values, or something that is not an object. */
  datatype Update = Update(id: Json, quantity: Json) | NotAnObject

  /** One update checked against the current state: the line to change and
      its new quantity, or the response that ends the request. */
  function Step(s: MarketState, caller: User, u: Update): (r: Result<(nat, nat), Error>)
    requires LinesPriced(s)
    ensures r.Ok? ==>
              && r.value.0 in s.items && s.items[r.value.0].buyer == caller.id
              && u.Update? && PyInt(u.id) == Some(r.value.0 as int) && u.quantity == Int(r.value.1)
              && r.value.1 <= s.products[s.items[r.value.0].product].stock
    ensures u.Update? && (!Truthy(u.id) || u.quantity.Missing? || u.quantity.Null?) ==> r == Err(BadRequest)
    ensures (u.Update? && Truthy(u.id) && !u.quantity.Missing? && !u.quantity.Null? && PyInt(u.id).Some?
             && (PyInt(u.id).value < 0 || PyInt(u.id).value !in s.items)) ==> r == Err(NotFound)
    ensures (u.Update? && PyInt(u.id).Some? && PyInt(u.id).value in s.items
             && s.items[PyInt(u.id).value].buyer != caller.id && Truthy(u.id)
             && !u.quantity.Missing? && !u.quantity.Null?) ==> r == Err(Forbidden)
    ensures (u.Update? && Truthy(u.id) && PyInt(u.id).Some? && PyInt(u.id).value in s.items
             && s.items[PyInt(u.id).value].buyer == caller.id && u.quantity.Int?) ==>
              r == if s.products[s.items[PyInt(u.id).value].product].stock < u.quantity.i then Err(BadRequest)
                   else if u.quantity.i < 0 then Err(ServerError)
                   else Ok((PyInt(u.id).value as nat, u.quantity.i as nat))
    ensures (u.Update? && Truthy(u.id) && PyInt(u.id).Some? && PyInt(u.id).value in s.items
             && s.items[PyInt(u.id).value].buyer == caller.id && !u.quantity.Missing? && !u.quantity.Null?
             && !u.quantity.Int?) ==> r == Err(ServerError)
    ensures u.NotAnObject? ==> r == Err(ServerError)
    ensures (u.Update? && Truthy(u.id) && !u.quantity.Missing? && !u.quantity.Null? && PyInt(u.id).None?) ==>
              r == Err(ServerError)
  {
    match u
    case NotAnObject => Err(ServerError)
    case Update(idv, qv) =>
      if !Truthy(idv) || qv.Missing? || qv.Null? then Err(BadRequest)
      else
        match PyInt(idv)
        case None => Err(ServerError)
        case Some(k) =>
          if k < 0 || k !in s.items then Err(NotFound)
          else if s.items[k].buyer != caller.id then Err(Forbidden)
          else if !qv.Int? then Err(ServerError)
          else if s.products[s.items[k].product].stock < qv.i then Err(BadRequest)
          else if qv.i < 0 then Err(ServerError)
          else Ok((k, qv.i))
  }

  /** The updates applied one by one, each saved at once; the first failing
      one ends the run with the earlier ones kept. */
  function Run(s: MarketState, caller: User, us: seq<Update>): (r: Reply<seq<nat>>)
    requires LinesPriced(s)
    ensures LinesPriced(r.state)
    ensures Valid(s) ==> Valid(r.state)
    ensures r.state.items.Keys == s.items.Keys
    ensures r.state == s.(items := r.state.items)
    ensures r.result.Ok? ==> |r.result.value| == |us|
    decreases |us|
  {
    if |us| == 0 then Reply(s, Ok([]))
    else
      match Step(s, caller, us[0])
      case Err(e) => Reply(s, Err(e))
      case Ok((k, q)) =>
        var rest := Run(SetQuantity(s, k, q), caller, us[1..]);
        Reply(rest.state, if rest.result.Ok? then Ok([k] + rest.result.value) else rest.result)
  }

  /** A list of one update: a passing update is saved and its line listed;
      a failing one is the response and nothing changes. */
  lemma RunSingle(s: MarketState, caller: User, u: Update)
    requires LinesPriced(s)
    ensures Step(s, caller, u).Ok? ==>
              var (k, q) := Step(s, caller, u).value;
              Run(s, caller, [u]) == Reply(SetQuantity(s, k, q), Ok([k]))
    ensures Step(s, caller, u).Err? ==> Run(s, caller, [u]) == Reply(s, Err(Step(s, caller, u).error))
  {
    assert [u][0] == u && [u][1..] == [];
    var st := Step(s, caller, u);
    if st.Ok? {
      var (k, q) := st.value;
      assert Run(SetQuantity(s, k, q), caller, []) == Reply(SetQuantity(s, k, q), Ok([]));
      assert [k] + [] == [k];
    }
  }

  /** Whether `u` is an update that sets line `k`. */
  predicate Sets(u: Update, k: nat) {
    u.Update? && PyInt(u.id) == Some(k as int) && u.quantity.Int? && u.quantity.i >= 0
  }

  /** The quantity line `k` holds after the updates `us`, starting from `q`:
      the one the last update naming the line sets, or `q` if none does. */
  function LastSet(us: seq<Update>, k: nat, q: nat): (r: nat)
    ensures (forall i :: 0 <= i < |us| ==> !Sets(us[i], k)) ==> r == q
    decreases |us|
  {
    if |us| == 0 then q
    else
      assert forall i :: 0 <= i < |us| - 1 ==> us[1..][i] == us[i + 1];
      LastSet(us[1..], k, if Sets(us[0], k) then us[0].quantity.i else q)
  }

  /** A run that passes leaves every line with the quantity the last update
      naming it asked for, and every other line as it was. */
  lemma {:induction false} RunSetsLast(s: MarketState, caller: User, us: seq<Update>)
    requires LinesPriced(s)
    ensures var r := Run(s, caller, us);
            r.result.Ok? ==> forall k :: k in s.items ==>
                               r.state.items[k] == s.items[k].(quantity := LastSet(us, k, s.items[k].quantity))
    decreases |us|
  {
    if |us| > 0 {
      var st := Step(s, caller, us[0]);
      if st.Ok? {
        var (k0, q0) := st.value;
        var s1 := SetQuantity(s, k0, q0);
        RunSetsLast(s1, caller, us[1..]);
        var r := Run(s, caller, us);
        if r.result.Ok? {
          assert r.state == Run(s1, caller, us[1..]).state;
          forall k | k in s.items
            ensures r.state.items[k] == s.items[k].(quantity := LastSet(us, k, s.items[k].quantity))
          {
            if k == k0 {
              assert Sets(us[0], k);
            } else {
              assert !Sets(us[0], k);
              assert s1.items[k] == s.items[k];
            }
          }
        }
      }
    }
  }

  /** Running two lists in a row is running their concatenation: a failure
      in the first stops everything, otherwise the second starts from the
      state the first left. */
  lemma {:induction false} RunAppend(s: MarketState, caller: User, us: seq<Update>, vs: seq<Update>)
    requires LinesPriced(s)
    ensures var a := Run(s, caller, us);
            Run(s, caller, us + vs)
              == if a.result.Err? then a
                 else
                   var b := Run(a.state, caller, vs);
                   Reply(b.state, if b.result.Ok? then Ok(a.result.value + b.result.value) else b.result)
    decreases |us|
  {
    if |us| == 0 {
      assert us + vs == vs;
      var b := Run(s, caller, vs);
      if b.result.Ok? {
        assert [] + b.result.value == b.result.value;
      }
    } else {
      assert (us + vs)[0] == us[0];
      assert (us + vs)[1..] == us[1..] + vs;
      var st := Step(s, caller, us[0]);
      if st.Err? {
        assert Run(s, caller, us) == Reply(s, Err(st.error));
        assert Run(s, caller, us + vs) == Reply(s, Err(st.error));
      } else {
        var k := st.value.0;
        var s1 := SetQuantity(s, k, st.value.1);
        RunAppend(s1, caller, us[1..], vs);
        var rest := Run(s1, caller, us[1..]);
        var whole := Run(s1, caller, us[1..] + vs);
        assert Run(s, caller, us) == Reply(rest.state, if rest.result.Ok? then Ok([k] + rest.result.value) else rest.result);
        assert Run(s, caller, us + vs) == Reply(whole.state, if whole.result.Ok? then Ok([k] + whole.result.value) else whole.result);
        if rest.result.Ok? {
          var b := Run(rest.state, caller, vs);
          if b.result.Ok? {
            ConsAppend(k, rest.result.value, b.result.value);
          }
        }
      }
    }
  }

  /** Putting an id in front commutes with appending a list. */
  lemma ConsAppend(k: nat, xs: seq<nat>, ys: seq<nat>)
    ensures [k] + (xs + ys) == ([k] + xs) + ys
  {
  }

  /** The bulk update is not atomic: when the updates before a bad one all
      pass, the response is that error, yet their changes stay saved. */
  lemma EarlierUpdatesKept(s: MarketState, caller: User, us: seq<Update>, bad: Update, later: seq<Update>)
    requires LinesPriced(s)
    requires Run(s, caller, us).result.Ok?
    requires Step(Run(s, caller, us).state, caller, bad).Err?
    ensures Run(s, caller, us + [bad] + later).state == Run(s, caller, us).state
    ensures Run(s, caller, us + [bad] + later).result == Err(Step(Run(s, caller, us).state, caller, bad).error)
  {
    var a := Run(s, caller, us);
    RunAppend(s, caller, us, [bad] + later);
    assert us + [bad] + later == us + ([bad] + later);
    assert ([bad] + later)[0] == bad;
  }

  /** `BasketItemViewSet.patch`: a missing, empty or non-list "updates" is
      refused (400); otherwise the updates run in order, and the response
      lists the changed lines when all of them pass. */
  function BulkUpdate(s: MarketState, caller: User, updates: Option<seq<Update>>): (r: Reply<seq<nat>>)
    requires Valid(s)
    ensures updates.None? || updates.value == [] ==> r == Reply(s, Err(BadRequest))
    ensures updates.Some? && updates.value != [] ==> r == Run(s, caller, updates.value)
    ensures r.result.Ok? ==> |r.result.value| == |updates.value|
                             && forall i :: 0 <= i < |r.result.value| ==>
                                  r.result.value[i] in s.items && s.items[r.result.value[i]].buyer == caller.id
    ensures Valid(r.state)
  {
    if updates.None? || updates.value == [] then Reply(s, Err(BadRequest))
    else
      RunOwnLines(s, caller, updates.value);
      Run(s, caller, updates.value)
  }

  /** Every line a successful run changed is one of the caller's. */
  lemma {:induction false} RunOwnLines(s: MarketState, caller: User, us: seq<Update>)
    requires LinesPriced(s)
    ensures var r := Run(s, caller, us);
            r.result.Ok? ==> forall i :: 0 <= i < |r.result.value| ==>
                               r.result.value[i] in s.items && s.items[r.result.value[i]].buyer == caller.id
    decreases |us|
  {
    if |us| > 0 {
      var st := Step(s, caller, us[0]);
      if st.Ok? {
        var s1 := SetQuantity(s, st.value.0, st.value.1);
        var rest := Run(s1, caller, us[1..]);
        RunOwnLines(s1, caller, us[1..]);
        if rest.result.Ok? {
          var ks := [st.value.0] + rest.result.value;
          assert Run(s, caller, us).result == Ok(ks);
          forall i | 0 <= i < |ks|
            ensures ks[i] in s.items && s.items[ks[i]].buyer == caller.id
          {
            if i > 0 {
              assert ks[i] == rest.result.value[i - 1];
              assert s1.items[ks[i]].buyer == s.items[ks[i]].buyer;
            }
          }
        }
      }
    }
  }
}

=== FILE: catalog.dfy ===
/** The catalog endpoints: admin-only category writes, the verified-farm
    product listing, and product create/update/delete restricted to the
    farm's owner. Deleting a product or a category takes the basket lines
    and order items that refer to it with it (on_delete=CASCADE). */
module Catalog {
  import opened Wrappers
  import opened Users
  import opened Requests
  import opened MarketModels

  // ---------------------------------------------------------------------
  // Cascades
  // ---------------------------------------------------------------------

  /** The state without the products in `gone`, their basket lines, and the
      order items that refer to them. */
  function DropProducts(s: MarketState, gone: set<nat>): (r: MarketState)
    ensures r.products.Keys == s.products.Keys - gone
    ensures forall k :: k in r.products ==> r.products[k] == s.products[k]
    ensures r.items.Keys == set k | k in s.items && s.items[k].product !in gone
    ensures forall k :: k in r.items ==> r.items[k] == s.items[k]
    ensures r.orders.Keys == s.orders.Keys
    ensures forall k, i :: k in r.orders && 0 <= i < |r.orders[k].items| ==> r.orders[k].items[i].product !in gone
    ensures r.farms == s.farms && r.categories == s.categories && r.baskets == s.baskets
    ensures Valid(s) ==> Valid(r)
  {
    var products := map k | k in s.products && k !in gone :: s.products[k];
    var items := map k | k in s.items && s.items[k].product !in gone :: s.items[k];
    var r := s.(products := products, items := items, orders := KeepOrders(s.orders, gone));
    ValidShrunk(s, r);
    r
  }

  /** Taking away products, lines whose product is gone, and order items
      keeps the state valid. */
  lemma ValidShrunk(s: MarketState, r: MarketState)
    requires r == s.(products := r.products, items := r.items, orders := r.orders)
    requires forall k :: k in r.products ==> k in s.products && r.products[k] == s.products[k]
    requires forall k :: k in r.items ==> k in s.items && r.items[k] == s.items[k]
    requires forall k :: k in r.items && r.items[k].product in s.products ==> r.items[k].product in r.products
    requires r.orders.Keys == s.orders.Keys
    ensures Valid(s) ==> Valid(r)
  {
  }

  /** Every order with the items on products in `gone` taken out. */
  function KeepOrders(orders: map<nat, Order>, gone: set<nat>): (r: map<nat, Order>)
    ensures r.Keys == orders.Keys
    ensures forall k :: k in r ==> r[k] == orders[k].(items := Keep(orders[k].items, gone))
    ensures forall k, i :: k in r && 0 <= i < |r[k].items| ==> r[k].items[i].product !in gone
  {
    map k | k in orders :: orders[k].(items := Keep(orders[k].items, gone))
  }

  /** The order items whose product is not in `gone`, order kept. */
  function Keep(xs: seq<OrderItem>, gone: set<nat>): (r: seq<OrderItem>)
    ensures forall i :: 0 <= i < |r| ==> r[i].product !in gone
    ensures forall x :: x in r <==> x in xs && x.product !in gone
  {
    if |xs| == 0 then []
    else (if xs[0].product in gone then [] else [xs[0]]) + Keep(xs[1..], gone)
  }

  // ---------------------------------------------------------------------
  // CategoryViewSet
  // ---------------------------------------------------------------------

  /** `CategoryViewSet.create`: `CategorySerializer` writes only `name`, so
      the body is validated first (400 for a missing, null or blank name);
      then `perform_create` lets only an Admin store it (403), without a
      description. */
  function CreateCategory(s: MarketState, caller: User, name: Json): (r: Reply<nat>)
    requires Valid(s)
    ensures CharInput(name, false).Err? ==> r == Reply(s, Err(BadRequest))
    ensures CharInput(name, false).Ok? && caller.role != Admin ==> r == Reply(s, Err(Forbidden))
    ensures r.result.Ok? <==> CharInput(name, false).Ok? && caller.role == Admin
    ensures r.result.Ok? ==> && CharInput(name, false).value.Some?
                             && r.result.value !in s.categories
                             && r.state.categories == s.categories[r.result.value := Category(CharInput(name, false).value.value, None)]
                             && r.state.products == s.products && r.state.items == s.items
    ensures Valid(r.state)
  {
    match CharInput(name, false)
    case Err(e) => Reply(s, Err(e))
    case Ok(n) =>
      if caller.role != Admin then Reply(s, Err(Forbidden))
      else
        Reply(WithCategory(s, s.nextCategory, Category(n.GetOr(""), None)), Ok(s.nextCategory))
  }

  /** `CategoryViewSet.update` (PUT, or PATCH when `partial`): the role is
      checked first (403), then the category is looked up (404), then the
      body is validated (400). Only `name` is writable: a PUT must carry it,
      a PATCH may leave it out, and the description never changes. */
  function UpdateCategory(s: MarketState, caller: User, id: nat, name: Json, partial: bool): (r: Reply<Category>)
    requires Valid(s)
    ensures caller.role != Admin ==> r == Reply(s, Err(Forbidden))
    ensures caller.role == Admin && id !in s.categories ==> r == Reply(s, Err(NotFound))
    ensures caller.role == Admin && id in s.categories && CharInput(name, partial).Err? ==>
              r == Reply(s, Err(BadRequest))
    ensures r.result.Ok? <==> caller.role == Admin && id in s.categories && CharInput(name, partial).Ok?
    ensures r.result.Ok? ==> && r.result.value.name == CharInput(name, partial).value.GetOr(s.categories[id].name)
                             && r.result.value.description == s.categories[id].description
                             && r.state == s.(categories := s.categories[id := r.result.value])
    ensures Valid(r.state)
  {
    if caller.role != Admin then Reply(s, Err(Forbidden))
    else if id !in s.categories then Reply(s, Err(NotFound))
    else
      match CharInput(name, partial)
      case Err(e) => Reply(s, Err(e))
      case Ok(n) =>
        var c := s.categories[id];
        var c' := c.(name := n.GetOr(c.name));
        Reply(WithCategory(s, id, c'), Ok(c'))
  }

  /** Storing a category under an id: a new id takes the next counter
      value, an existing one keeps it; either way the invariant holds. */
  function WithCategory(s: MarketState, id: nat, c: Category): (r: MarketState)
    requires Valid(s) && (id in s.categories || id == s.nextCategory)
    ensures r.categories == s.categories[id := c]
    ensures r == s.(categories := r.categories, nextCategory := r.nextCategory)
    ensures r.nextCategory == if id in s.categories then s.nextCategory else s.nextCategory + 1
    ensures Valid(r)
  {
    if id in s.categories then s.(categories := s.categories[id := c])
    else s.(categories := s.categories[id := c], nextCategory := id + 1)
  }

  /** Repeating a category update changes nothing further. */
  lemma UpdateCategoryIdempotent(s: MarketState, caller: User, id: nat, name: Json, partial: bool)
    requires Valid(s)
    requires UpdateCategory(s, caller, id, name, partial).result.Ok?
    ensures var s1 := UpdateCategory(s, caller, id, name, partial).state;
            UpdateCategory(s1, caller, id, name, partial) == UpdateCategory(s, caller, id, name, partial)
  {
    var r1 := UpdateCategory(s, caller, id, name, partial);
    var c := r1.result.value;
    assert r1.state.categories[id] == c;
    UpdateToSame(r1.state, caller, id, name, partial);
  }

  /** An update whose outcome is the category already stored changes
      nothing. */
  lemma UpdateToSame(s: MarketState, caller: User, id: nat, name: Json, partial: bool)
    requires Valid(s) && caller.role == Admin && id in s.categories
    requires CharInput(name, partial).Ok?
    requires CharInput(name, partial).value.GetOr(s.categories[id].name) == s.categories[id].name
    ensures UpdateCategory(s, caller, id, name, partial) == Reply(s, Ok(s.categories[id]))
  {
    var c := s.categories[id];
    assert s.categories[id := c] == s.categories;
  }

  /** `CategoryViewSet.destroy`: Admin only; the category's products go with
      it, and so do their lines and order items. */
  function DestroyCategory(s: MarketState, caller: User, id: nat): (r: Reply<()>)
    requires Valid(s)
    ensures caller.role != Admin ==> r == Reply(s, Err(Forbidden))
    ensures caller.role == Admin && id !in s.categories ==> r == Reply(s, Err(NotFound))
    ensures r.result.Ok? ==>
              && r.state.categories == s.categories - {id}
              && (forall k :: k in r.state.products ==> r.state.products[k].category != id)
              && (forall k :: k in s.products && s.products[k].category != id ==> k in r.state.products)
    ensures Valid(r.state)
  {
    if caller.role != Admin then Reply(s, Err(Forbidden))
    else if id !in s.categories then Reply(s, Err(NotFound))
    else
      var gone := set k | k in s.products && s.products[k].category == id;
      var s1 := DropProducts(s, gone);
      Reply(s1.(categories := s.categories - {id}), Ok(()))
  }

  // ---------------------------------------------------------------------
  // ProductViewSet
  // ---------------------------------------------------------------------

  /** `ProductViewSet.get_queryset`: products of verified farms, for every caller. */
  function VisibleProducts(s: MarketState): (r: set<nat>)
    ensures forall k :: k in r <==> k in s.products && s.products[k].farm in s.farms
                                    && s.farms[s.products[k].farm].isVerified
  {
    set k | k in s.products && s.products[k].farm in s.farms && s.farms[s.products[k].farm].isVerified
  }

  /** The body of a product create or update: the farm and category
      references as sent, and the three writable fields. The references are
      read-only in an update. */
  datatype ProductBody = ProductBody(farm: Json, category: Json, name: Json, price: Json, stock: Json)

  /** The writable fields once validated; a partial update leaves out the
      ones it does not carry (`None`). The price is in hundredths. */
  datatype ProductFields = ProductFields(name: Option<string>, price: Option<int>, stock: Option<nat>)

  /** `ProductSerializer` validation of the writable fields: `name` is a
      required text field, `price` a decimal with two places, and
      `stock_quantity` a non-negative integer. Any refusal is 400. */
  function ReadProduct(b: ProductBody, partial: bool): (r: Result<ProductFields, Error>)
    ensures r.Ok? <==> CharInput(b.name, partial).Ok? && PriceInput(b.price, partial).Ok? && NatInput(b.stock, partial).Ok?
    ensures r.Err? ==> r.error == BadRequest
    ensures r.Ok? ==> r.value == ProductFields(CharInput(b.name, partial).value, PriceInput(b.price, partial).value,
                                               NatInput(b.stock, partial).value)
    ensures r.Ok? && !partial ==> r.value.name.Some? && r.value.price.Some? && r.value.stock.Some?
  {
    match CharInput(b.name, partial)
    case Err(e) => Err(e)
    case Ok(n) =>
      match PriceInput(b.price, partial)
      case Err(e) => Err(e)
      case Ok(p) =>
        match NatInput(b.stock, partial)
        case Err(e) => Err(e)
        case Ok(q) => Ok(ProductFields(n, p, q))
  }

  /** The category a reference names, if it is an integer naming one. */
  function CategoryRef(s: MarketState, v: Json): (r: Option<nat>)
    ensures r.Some? <==> PyInt(v).Some? && PyInt(v).value in s.categories
    ensures r.Some? ==> r.value as int == PyInt(v).value
  {
    if PyInt(v).Some? && PyInt(v).value >= 0 && PyInt(v).value in s.categories then Some(PyInt(v).value) else None
  }

  /** `ProductViewSet.create` with its `perform_create`. `ProductSerializer`
      validates the body first, so a bad name, price or stock is 400 for
      every caller. Then a non-Farmer gets 403; a farm reference that is
      missing, not an integer or unknown raises (500); a farm of someone
      else gives 403. If the create serializer then refuses the category,
      its error response is dropped and the request answers 201 with
      nothing stored (`Ok(None)`); otherwise the validated fields are
      stored. */
  function CreateProduct(s: MarketState, caller: User, body: ProductBody): (r: Reply<Option<nat>>)
    requires Valid(s)
    ensures r.result.Err? || r.result.value.None? ==> r.state == s
    ensures ReadProduct(body, false).Err? ==> r.result == Err(BadRequest)
    ensures ReadProduct(body, false).Ok? && caller.role != Farmer ==> r.result == Err(Forbidden)
    ensures (ReadProduct(body, false).Ok? && caller.role == Farmer
             && (PyInt(body.farm).None? || PyInt(body.farm).value !in s.farms)) ==> r.result == Err(ServerError)
    ensures r.result.Ok? <==>
              && ReadProduct(body, false).Ok?
              && caller.role == Farmer
              && PyInt(body.farm).Some?
              && PyInt(body.farm).value in s.farms
              && s.farms[PyInt(body.farm).value].farmer == caller.id
    ensures r.result.Ok? ==> (r.result.value.Some? <==> CategoryRef(s, body.category).Some?)
    ensures r.result.Ok? && r.result.value.Some? ==>
              var f := ReadProduct(body, false).value;
              && r.result.value.value == s.nextProduct
              && r.result.value.value !in s.products
              && r.state == s.(products := s.products[s.nextProduct :=
                                 Product(PyInt(body.farm).value, CategoryRef(s, body.category).value,
                                         f.name.value, f.price.value, f.stock.value)],
                               nextProduct := s.nextProduct + 1)
    ensures Valid(r.state)
  {
    match ReadProduct(body, false)
    case Err(e) => Reply(s, Err(e))
    case Ok(f) =>
      if caller.role != Farmer then Reply(s, Err(Forbidden))
      else
        match PyInt(body.farm)
        case None => Reply(s, Err(ServerError))
        case Some(farm) =>
          if farm < 0 || farm !in s.farms then Reply(s, Err(ServerError))
          else if s.farms[farm].farmer != caller.id then Reply(s, Err(Forbidden))
          else
            match CategoryRef(s, body.category)
            case None => Reply(s, Ok(None))
            case Some(cat) =>
              var p := Product(farm, cat, f.name.GetOr(""), f.price.GetOr(0), f.stock.GetOr(0));
              Reply(WithProduct(s, p), Ok(Some(s.nextProduct)))
  }

  /** The state with `p` stored under the next product id. */
  function WithProduct(s: MarketState, p: Product): (r: MarketState)
    requires Valid(s) && p.farm in s.farms && p.category in s.categories
    ensures s.nextProduct !in s.products
    ensures r == s.(products := s.products[s.nextProduct := p], nextProduct := s.nextProduct + 1)
    ensures Valid(r)
  {
    s.(products := s.products[s.nextProduct := p], nextProduct := s.nextProduct + 1)
  }

  /** The gate of product update and delete: the product must be listed
      (its farm verified), else 404; its farm must be the caller's, else 403. */
  function ProductGate(s: MarketState, caller: User, id: nat): (r: Result<Product, Error>)
    ensures r.Ok? <==> id in VisibleProducts(s) && s.farms[s.products[id].farm].farmer == caller.id
    ensures r.Err? ==> r.error == (if id in VisibleProducts(s) then Forbidden else NotFound)
    ensures r.Ok? ==> r.value == s.products[id]
  {
    if id !in VisibleProducts(s) then Err(NotFound)
    else if s.farms[s.products[id].farm].farmer != caller.id then Err(Forbidden)
    else Ok(s.products[id])
  }

  /** `ProductViewSet.update` (PUT, or PATCH when `partial`): the gate
      first (404, then 403), then `ProductSerializer` validation (400).
      Name, price and stock change as sent: a PUT must carry all three, a
      PATCH only the ones it changes. Farm and category are read-only. */
  function UpdateProduct(s: MarketState, caller: User, id: nat, body: ProductBody, partial: bool): (r: Reply<Product>)
    requires Valid(s)
    ensures ProductGate(s, caller, id).Err? ==> r == Reply(s, Err(ProductGate(s, caller, id).error))
    ensures ProductGate(s, caller, id).Ok? && ReadProduct(body, partial).Err? ==> r == Reply(s, Err(BadRequest))
    ensures r.result.Ok? <==> ProductGate(s, caller, id).Ok? && ReadProduct(body, partial).Ok?
    ensures r.result.Ok? ==>
              var f := ReadProduct(body, partial).value;
              && id in s.products
              && r.state == s.(products := s.products[id := r.result.value])
              && r.result.value.farm == s.products[id].farm
              && r.result.value.category == s.products[id].category
              && r.result.value.name == f.name.GetOr(s.products[id].name)
              && r.result.value.price == f.price.GetOr(s.products[id].price)
              && r.result.value.stock == f.stock.GetOr(s.products[id].stock)
    ensures Valid(r.state)
  {
    match ProductGate(s, caller, id)
    case Err(e) => Reply(s, Err(e))
    case Ok(p) =>
      match ReadProduct(body, partial)
      case Err(e) => Reply(s, Err(e))
      case Ok(f) =>
        var p' := p.(name := f.name.GetOr(p.name), price := f.price.GetOr(p.price), stock := f.stock.GetOr(p.stock));
        Reply(ReplaceProduct(s, id, p'), Ok(p'))
  }

  /** The state with product `id` replaced by `p`, which keeps its farm and
      category. */
  function ReplaceProduct(s: MarketState, id: nat, p: Product): (r: MarketState)
    requires Valid(s) && id in s.products
    requires p.farm == s.products[id].farm && p.category == s.products[id].category
    ensures r == s.(products := s.products[id := p])
    ensures Valid(r)
  {
    s.(products := s.products[id := p])
  }

  /** Repeating a product update changes nothing further. */
  lemma UpdateProductIdempotent(s: MarketState, caller: User, id: nat, body: ProductBody, partial: bool)
    requires Valid(s)
    requires UpdateProduct(s, caller, id, body, partial).result.Ok?
    ensures var s1 := UpdateProduct(s, caller, id, body, partial).state;
            UpdateProduct(s1, caller, id, body, partial) == UpdateProduct(s, caller, id, body, partial)
  {
    var r1 := UpdateProduct(s, caller, id, body, partial);
    var p := r1.result.value;
    assert r1.state.products[id] == p;
    assert ProductGate(r1.state, caller, id).Ok? by {
      assert r1.state.farms == s.farms;
      assert id in VisibleProducts(r1.state);
    }
    UpdateProductToSame(r1.state, caller, id, body, partial);
  }

  /** An update whose outcome is the product already stored changes
      nothing. */
  lemma UpdateProductToSame(s: MarketState, caller: User, id: nat, body: ProductBody, partial: bool)
    requires Valid(s) && ProductGate(s, caller, id).Ok? && ReadProduct(body, partial).Ok?
    requires var f := ReadProduct(body, partial).value;
             && f.name.GetOr(s.products[id].name) == s.products[id].name
             && f.price.GetOr(s.products[id].price) == s.products[id].price
             && f.stock.GetOr(s.products[id].stock) == s.products[id].stock
    ensures UpdateProduct(s, caller, id, body, partial) == Reply(s, Ok(s.products[id]))
  {
    assert s.products[id := s.products[id]] == s.products;
  }

  /** A PATCH that carries none of the writable fields changes nothing and
      answers the stored product. */
  lemma EmptyPatchKeeps(s: MarketState, caller: User, id: nat, farm: Json, category: Json)
    requires Valid(s) && ProductGate(s, caller, id).Ok?
    ensures UpdateProduct(s, caller, id, ProductBody(farm, category, Missing, Missing, Missing), true)
            == Reply(s, Ok(s.products[id]))
  {
    assert s.products[id := s.products[id]] == s.products;
  }

  /** `ProductViewSet.destroy`: after the gate, the product, its basket
      lines and its order items are deleted. */
  function DestroyProduct(s: MarketState, caller: User, id: nat): (r: Reply<()>)
    requires Valid(s)
    ensures ProductGate(s, caller, id).Err? ==> r == Reply(s, Err(ProductGate(s, caller, id).error))
    ensures ProductGate(s, caller, id).Ok? ==> r == Reply(DropProducts(s, {id}), Ok(()))
    ensures r.result.Ok? ==> r.state.products.Keys == s.products.Keys - {id}
                             && forall k :: k in r.state.items ==> r.state.items[k].product != id
    ensures Valid(r.state)
  {
    match ProductGate(s, caller, id)
    case Err(e) => Reply(s, Err(e))
    case Ok(_) => Reply(DropProducts(s, {id}), Ok(()))
  }

  /** A product of an unverified farm cannot be changed or deleted, not even
      by its owner: it is outside the listing, so the answer is 404. */
  lemma UnverifiedProductsUntouchable(s: MarketState, caller: User, id: nat, body: ProductBody, partial: bool)
    requires Valid(s)
    requires id in s.products && !s.farms[s.products[id].farm].isVerified
    ensures UpdateProduct(s, caller, id, body, partial) == Reply(s, Err(NotFound))
    ensures DestroyProduct(s, caller, id) == Reply(s, Err(NotFound))
  {
  }
}

=== FILE: channel_layer.dfy ===
/** The chat broadcast registry: group name -> member channels, in the order
    they joined. Updates are sequential; a group is forgotten as soon as its
    last member leaves, as the in-memory channel layer does. */
module ChannelLayer {
  import opened Seqs

  type Channel = string

  type Layer = map<string, seq<Channel>>

  /** Every recorded group has members, none of them twice. */
  ghost predicate Valid(l: Layer) {
    forall g :: g in l ==> |l[g]| > 0 && NoDup(l[g])
  }

  function Members(l: Layer, g: string): seq<Channel> {
    if g in l then l[g] else []
  }

  /** `xs` without `c`, order kept. */
  function Remove(xs: seq<Channel>, c: Channel): (r: seq<Channel>)
    ensures forall x :: x in r <==> x in xs && x != c
    ensures NoDup(xs) ==> NoDup(r)
    ensures c !in xs ==> r == xs
  {
    if |xs| == 0 then []
    else
      var rest := Remove(xs[1..], c);
      if xs[0] == c then rest
      else
        assert NoDup(xs) ==> xs[0] !in xs[1..];
        [xs[0]] + rest
  }

  lemma {:induction false} RemoveLast(xs: seq<Channel>, c: Channel)
    requires c !in xs
    ensures Remove(xs + [c], c) == xs
    decreases |xs|
  {
    if |xs| == 0 {
      assert xs + [c] == [c];
      assert Remove([c], c) == Remove([c][1..], c);
    } else {
      assert (xs + [c])[1..] == xs[1..] + [c];
      RemoveLast(xs[1..], c);
      assert [xs[0]] + xs[1..] == xs;
    }
  }

  /** `group_add`: `c` becomes a member of `g`, appended if new; no other
      group changes. */
  function GroupAdd(l: Layer, g: string, c: Channel): (r: Layer)
    ensures forall x :: x in Members(r, g) <==> x in Members(l, g) || x == c
    ensures r - {g} == l - {g}
    ensures Valid(l) ==> Valid(r)
  {
    if c in Members(l, g) then l
    else
      var r := l[g := Members(l, g) + [c]];
      assert r - {g} == l - {g};
      r
  }

  /** `group_discard`: `c` is no longer a member of `g`; an emptied group is
      dropped; no other group changes. */
  function GroupDiscard(l: Layer, g: string, c: Channel): (r: Layer)
    ensures forall x :: x in Members(r, g) <==> x in Members(l, g) && x != c
    ensures r - {g} == l - {g}
    ensures Valid(l) ==> Valid(r)
  {
    if g !in l then l
    else
      var rest := Remove(l[g], c);
      if |rest| == 0 then
        var r := l - {g};
        assert r - {g} == l - {g};
        r
      else
        var r := l[g := rest];
        assert r - {g} == l - {g};
        r
  }

  /** Discarding a channel that is not a member changes nothing. */
  lemma DiscardAbsent(l: Layer, g: string, c: Channel)
    requires Valid(l)
    requires c !in Members(l, g)
    ensures GroupDiscard(l, g, c) == l
  {
    if g in l {
      assert l[g := l[g]] == l;
    }
  }

  /** Joining with a fresh channel and then leaving restores the registry. */
  lemma AddThenDiscard(l: Layer, g: string, c: Channel)
    requires Valid(l)
    requires c !in Members(l, g)
    ensures GroupDiscard(GroupAdd(l, g, c), g, c) == l
  {
    var a := GroupAdd(l, g, c);
    RemoveLast(Members(l, g), c);
    if g in l {
      assert a[g] == l[g] + [c];
      assert GroupDiscard(a, g, c) == a[g := l[g]];
      assert a[g := l[g]] == l;
    } else {
      assert a[g] == [c];
      assert GroupDiscard(a, g, c) == a - {g};
      assert a - {g} == l;
    }
  }
}

=== FILE: chat_consumer.dfy ===
/** Stored chat data: rooms keyed by their unique name, and messages, each
    attached to a room by name. */
module ChatModels {
  import opened Users

  datatype Room = Room(user1: nat, user2: nat)

  datatype Message = Message(room: string, senderId: nat, text: string, timestamp: int)

  datatype ChatDb = ChatDb(users: seq<User>, rooms: map<string, Room>, messages: seq<Message>)

  function Repeat(m: Message, k: nat): (r: seq<Message>)
    ensures |r| == k && forall i :: 0 <= i < k ==> r[i] == m
  {
    if k == 0 then [] else [m] + Repeat(m, k - 1)
  }
}

/** One websocket session of the two-party chat (`ChatConsumer`): the
    connect checks and group registration, the disconnect cleanup, sender
    attribution on receive, and the per-session delivery that also stores
    the message. A session moves Connecting -> Closed, or Connecting -> Open
    -> Closed. */
module ChatConsumer {
  import opened Wrappers
  import opened Users
  import opened ChatModels
  import RoomNames
  import CL = ChannelLayer

  datatype Phase = Connecting | Open | Closed

  /** What a consumer instance knows: its channel, its phase, the user its
      token resolved to, the formatted room name and the group name. */
  datatype Session = Session(
    channel: CL.Channel,
    phase: Phase,
    user: Option<User>,
    roomName: Option<string>,
    group: Option<string>)

  function GroupName(room: string): string {
    "chat_" + room
  }

  /** An accepted session: it has a user, a room, and belongs to that room's group. */
  predicate Joined(s: Session) {
    && s.phase.Open?
    && s.user.Some?
    && s.roomName.Some?
    && s.group == Some(GroupName(s.roomName.value))
  }

  function NewSession(channel: CL.Channel): (s: Session)
    ensures s.phase.Connecting? && s.channel == channel && !Joined(s)
  {
    Session(channel, Connecting, None, None, None)
  }

  datatype Connection = Connection(layer: CL.Layer, session: Session)

  /** `connect`: a token user must be found, the requested label must format,
      and the room must be valid for that user, in that order; only then is
      the channel added to "chat_<room>" and the socket accepted. Any failure
      closes the session with the registry untouched. The token lookup is an
      input: `tokenUser` is the account the query-string token resolves to. */
  function Connect(layer: CL.Layer, channel: CL.Channel, tokenUser: Option<User>,
                   requested: string, users: seq<User>): (r: Connection)
    ensures r.session.channel == channel
    ensures r.session.phase.Open? || r.session.phase.Closed?
    ensures r.session.phase.Open? <==>
              && tokenUser.Some?
              && RoomNames.FormatRoomName(requested).Some?
              && RoomNames.IsValidRoom(RoomNames.FormatRoomName(requested).value, Ids(users), tokenUser.value.id)
    ensures r.session.phase.Open? ==>
              && Joined(r.session)
              && r.session.user == tokenUser
              && r.session.roomName == RoomNames.FormatRoomName(requested)
              && r.layer == CL.GroupAdd(layer, r.session.group.value, channel)
              && channel in CL.Members(r.layer, r.session.group.value)
    ensures r.session.phase.Closed? ==> r.layer == layer
  {
    match tokenUser
    case None => Connection(layer, Session(channel, Closed, None, None, None))
    case Some(u) =>
      match RoomNames.FormatRoomName(requested)
      case None => Connection(layer, Session(channel, Closed, Some(u), None, None))
      case Some(name) =>
        var g := GroupName(name);
        if RoomNames.IsValidRoom(name, Ids(users), u.id) then
          Connection(CL.GroupAdd(layer, g, channel), Session(channel, Open, Some(u), Some(name), Some(g)))
        else
          Connection(layer, Session(channel, Closed, Some(u), Some(name), Some(g)))
  }

  /** `disconnect`: the channel leaves the group it was given. A session
      that never got a user or a group name fails in the logging line before
      the discard, which leaves the registry as it was. */
  function Disconnect(layer: CL.Layer, s: Session): (r: Connection)
    ensures r.session == s.(phase := Closed)
    ensures s.user.Some? && s.group.Some? ==>
              && s.channel !in CL.Members(r.layer, s.group.value)
              && r.layer - {s.group.value} == layer - {s.group.value}
    ensures s.user.None? || s.group.None? ==> r.layer == layer
  {
    if s.user.Some? && s.group.Some? then
      Connection(CL.GroupDiscard(layer, s.group.value, s.channel), s.(phase := Closed))
    else
      Connection(layer, s.(phase := Closed))
  }

  /** Whatever `connect` decided, the following `disconnect` of a fresh
      channel leaves the registry exactly as it was before the connection. */
  lemma ConnectDisconnectRestores(layer: CL.Layer, channel: CL.Channel, tokenUser: Option<User>,
                                  requested: string, users: seq<User>)
    requires CL.Valid(layer)
    requires forall g :: channel !in CL.Members(layer, g)
    ensures var c := Connect(layer, channel, tokenUser, requested, users);
            Disconnect(c.layer, c.session).layer == layer
  {
    var c := Connect(layer, channel, tokenUser, requested, users);
    if c.session.user.Some? && c.session.group.Some? {
      var g := c.session.group.value;
      if c.session.phase.Open? {
        CL.AddThenDiscard(layer, g, channel);
      } else {
        CL.DiscardAbsent(layer, g, channel);
      }
    }
  }

  /** What `receive` hands to the group: the text and the server-side sender. */
  datatype ChatEvent = ChatEvent(message: string, sender: string)

  /** `receive`: only the payload's "message" key is read (a missing key is
      an uncaught KeyError); the sender is always the session user's email. */
  function Receive(s: Session, payload: map<string, string>): (r: Result<ChatEvent, Error>)
    requires Joined(s)
    ensures r.Ok? <==> "message" in payload
    ensures r.Ok? ==> r.value == ChatEvent(payload["message"], s.user.value.email)
  {
    if "message" in payload then Ok(ChatEvent(payload["message"], s.user.value.email))
    else Err(ServerError)
  }

  /** A client cannot choose the sender: payloads that agree on "message"
      produce the same event, whatever else (a "sender" key, say) they hold. */
  lemma SenderIsServerSide(s: Session, p1: map<string, string>, p2: map<string, string>)
    requires Joined(s)
    requires "message" in p1 && "message" in p2 && p1["message"] == p2["message"]
    ensures Receive(s, p1) == Receive(s, p2)
    ensures Receive(s, p1).value.sender == s.user.value.email
  {
  }

  /** `save_message`: stores the message in the named room under the
      sender's id; silently does nothing when the room or the sender's
      account does not exist. */
  function SaveMessage(db: ChatDb, roomName: string, senderEmail: string, text: string,
                       now: int): (r: ChatDb)
    ensures r.users == db.users && r.rooms == db.rooms
    ensures roomName in db.rooms && FindByEmail(db.users, senderEmail).Some? ==>
              r.messages == db.messages
                            + [Message(roomName, FindByEmail(db.users, senderEmail).value.id, text, now)]
    ensures roomName !in db.rooms || FindByEmail(db.users, senderEmail).None? ==> r == db
  {
    if roomName !in db.rooms then db
    else
      match FindByEmail(db.users, senderEmail)
      case None => db
      case Some(u) => db.(messages := db.messages + [Message(roomName, u.id, text, now)])
  }

  /** The frame a client receives. */
  datatype Frame = Frame(message: string, sender: string)

  datatype Fanout = Fanout(db: ChatDb, recipients: seq<CL.Channel>, frame: Frame)

  predicate Live(sessions: map<CL.Channel, Session>, c: CL.Channel) {
    c in sessions && Joined(sessions[c])
  }

  /** `group_send` followed by `chat_message` in every member session, in
      join order: each live member (the sender's own session included)
      receives {message, sender}, and each of them stores the message again. */
  function Deliver(db: ChatDb, sessions: map<CL.Channel, Session>, members: seq<CL.Channel>,
                   ev: ChatEvent, now: int): (r: Fanout)
    ensures r.frame == Frame(ev.message, ev.sender)
    ensures forall c :: c in r.recipients <==> c in members && Live(sessions, c)
    ensures |r.recipients| <= |members|
    ensures r.db.users == db.users && r.db.rooms == db.rooms
    decreases |members|
  {
    if |members| == 0 then Fanout(db, [], Frame(ev.message, ev.sender))
    else
      var c := members[0];
      if Live(sessions, c) then
        var db1 := SaveMessage(db, sessions[c].roomName.value, ev.sender, ev.message, now);
        var rest := Deliver(db1, sessions, members[1..], ev, now);
        assert forall x :: x in members <==> x == c || x in members[1..];
        Fanout(rest.db, [c] + rest.recipients, rest.frame)
      else
        var rest := Deliver(db, sessions, members[1..], ev, now);
        assert forall x :: x in members <==> x == c || x in members[1..];
        rest
  }

  /** When every live member is in room `n`, the message is stored once per
      recipient if the room and the sender's account exist, and not at all
      otherwise. */
  lemma {:induction false} DeliverStoresPerRecipient(db: ChatDb, sessions: map<CL.Channel, Session>,
                                                    members: seq<CL.Channel>, ev: ChatEvent,
                                                    now: int, n: string)
    requires forall c :: c in members && Live(sessions, c) ==> sessions[c].roomName == Some(n)
    ensures var r := Deliver(db, sessions, members, ev, now);
            if n in db.rooms && FindByEmail(db.users, ev.sender).Some? then
              r.db.messages == db.messages
                               + Repeat(Message(n, FindByEmail(db.users, ev.sender).value.id, ev.message, now),
                                        |r.recipients|)
            else r.db.messages == db.messages
    decreases |members|
  {
    if |members| > 0 {
      var c := members[0];
      var r := Deliver(db, sessions, members, ev, now);
      if Live(sessions, c) {
        var db1 := SaveMessage(db, n, ev.sender, ev.message, now);
        DeliverStoresPerRecipient(db1, sessions, members[1..], ev, now, n);
        var rest := Deliver(db1, sessions, members[1..], ev, now);
        assert r.recipients == [c] + rest.recipients;
        if n in db.rooms && FindByEmail(db.users, ev.sender).Some? {
          var m := Message(n, FindByEmail(db.users, ev.sender).value.id, ev.message, now);
          assert Repeat(m, |r.recipients|) == [m] + Repeat(m, |rest.recipients|);
        }
      } else {
        DeliverStoresPerRecipient(db, sessions, members[1..], ev, now, n);
      }
    }
  }

  /** A send from a joined session: `receive` builds the event, and the
      group of the sender's room fans it out. */
  function Send(db: ChatDb, layer: CL.Layer, sessions: map<CL.Channel, Session>, sender: Session,
                payload: map<string, string>, now: int): (r: Result<Fanout, Error>)
    requires Joined(sender)
    ensures r.Ok? <==> "message" in payload
    ensures r.Ok? ==> r.value.frame == Frame(payload["message"], sender.user.value.email)
    ensures r.Ok? ==> forall c :: c in r.value.recipients <==>
                                  c in CL.Members(layer, sender.group.value) && Live(sessions, c)
  {
    match Receive(sender, payload)
    case Err(e) => Err(e)
    case Ok(ev) => Ok(Deliver(db, sessions, CL.Members(layer, sender.group.value), ev, now))
  }

  /** The sender's own session is among the recipients of its message, and
      the sender named in the frame is the sender's account, whatever
      "sender" the client put in the payload. */
  lemma SenderReceivesOwnMessage(db: ChatDb, layer: CL.Layer, sessions: map<CL.Channel, Session>,
                                 sender: Session, payload: map<string, string>, now: int)
    requires Joined(sender)
    requires sender.channel in sessions && sessions[sender.channel] == sender
    requires sender.channel in CL.Members(layer, sender.group.value)
    requires "message" in payload
    ensures Send(db, layer, sessions, sender, payload, now).Ok?
    ensures sender.channel in Send(db, layer, sessions, sender, payload, now).value.recipients
    ensures Send(db, layer, sessions, sender, payload, now).value.frame.sender == sender.user.value.email
  {
  }
}

=== FILE: chat_history.dfy ===
/** `ChatHistoryView.get`: the message history of a room as seen by one of
    its two participants, oldest first, each message labelled "me" or
    "companion". */
module ChatHistory {
  import opened Wrappers
  import opened Users
  import opened ChatModels

  datatype Entry = Entry(senderId: nat, message: string, timestamp: int, who: string)

  datatype CompanionView = CompanionView(id: nat, fullName: string, email: string)

  datatype History = History(companion: CompanionView, messages: seq<Entry>)

  predicate SortedByTime(ms: seq<Message>) {
    forall i, j :: 0 <= i < j < |ms| ==> ms[i].timestamp <= ms[j].timestamp
  }

  function Insert(m: Message, ms: seq<Message>): (r: seq<Message>)
    requires SortedByTime(ms)
    ensures SortedByTime(r)
    ensures multiset(r) == multiset(ms) + multiset{m}
  {
    if |ms| == 0 then [m]
    else if m.timestamp <= ms[0].timestamp then [m] + ms
    else
      var rest := Insert(m, ms[1..]);
      InsertBound(m, ms, rest);
      assert ms == [ms[0]] + ms[1..];
      [ms[0]] + rest
  }

  /** Every element of the tail insertion is at least the head's time. */
  lemma InsertBound(m: Message, ms: seq<Message>, rest: seq<Message>)
    requires SortedByTime(ms) && |ms| > 0 && ms[0].timestamp < m.timestamp
    requires multiset(rest) == multiset(ms[1..]) + multiset{m}
    ensures forall j :: 0 <= j < |rest| ==> ms[0].timestamp <= rest[j].timestamp
  {
    forall j | 0 <= j < |rest| ensures ms[0].timestamp <= rest[j].timestamp {
      assert rest[j] in multiset(rest);
      if rest[j] != m {
        assert rest[j] in ms[1..];
        var k :| 0 <= k < |ms[1..]| && ms[1..][k] == rest[j];
        assert ms[k + 1] == rest[j];
      }
    }
  }

  /** The room's messages in ascending timestamp order (`order_by("timestamp")`). */
  function SortByTime(ms: seq<Message>): (r: seq<Message>)
    ensures SortedByTime(r)
    ensures multiset(r) == multiset(ms)
  {
    if |ms| == 0 then []
    else
      assert ms == [ms[0]] + ms[1..];
      Insert(ms[0], SortByTime(ms[1..]))
  }

  /** `room.messages`: the stored messages attached to the room, each as
      often as it is stored. */
  function RoomMessages(msgs: seq<Message>, name: string): (r: seq<Message>)
    ensures forall m :: multiset(r)[m] == (if m.room == name then multiset(msgs)[m] else 0)
  {
    if |msgs| == 0 then []
    else
      assert msgs == [msgs[0]] + msgs[1..];
      (if msgs[0].room == name then [msgs[0]] else []) + RoomMessages(msgs[1..], name)
  }

  /** "me" for the caller's own messages, "companion" for the others. */
  function Who(senderId: nat, caller: nat): string {
    if senderId == caller then "me" else "companion"
  }

  function Label(ms: seq<Message>, caller: nat): (r: seq<Entry>)
    ensures |r| == |ms|
    ensures forall i :: 0 <= i < |r| ==>
              r[i] == Entry(ms[i].senderId, ms[i].text, ms[i].timestamp, Who(ms[i].senderId, caller))
  {
    if |ms| == 0 then [] else [Entry(ms[0].senderId, ms[0].text, ms[0].timestamp, Who(ms[0].senderId, caller))]
                              + Label(ms[1..], caller)
  }

  /** The stored message an entry of room `name` shows. */
  function Unlabel(entries: seq<Entry>, name: string): (r: seq<Message>)
    ensures |r| == |entries|
    ensures forall i :: 0 <= i < |r| ==>
              r[i] == Message(name, entries[i].senderId, entries[i].message, entries[i].timestamp)
  {
    if |entries| == 0 then []
    else [Message(name, entries[0].senderId, entries[0].message, entries[0].timestamp)]
         + Unlabel(entries[1..], name)
  }

  /** The other participant of a room, or None for a caller who is neither. */
  function CompanionOf(room: Room, caller: nat): (r: Option<nat>)
    ensures caller == room.user1 ==> r == Some(room.user2)
    ensures caller != room.user1 && caller == room.user2 ==> r == Some(room.user1)
    ensures r.None? <==> caller != room.user1 && caller != room.user2
  {
    if room.user1 == caller then Some(room.user2)
    else if room.user2 == caller then Some(room.user1)
    else None
  }

  /** `ChatHistoryView.get`: 404 for an unknown room, 403 for a caller who is
      not one of its users, 404 when the companion's account is gone, and
      otherwise the companion's card and the labelled, time-ordered history. */
  function GetHistory(db: ChatDb, caller: nat, roomName: string): (r: Result<History, Error>)
    ensures roomName !in db.rooms ==> r == Err(NotFound)
    ensures roomName in db.rooms && CompanionOf(db.rooms[roomName], caller).None? ==> r == Err(Forbidden)
    ensures roomName in db.rooms && CompanionOf(db.rooms[roomName], caller).Some? ==>
              (r.Err? <==> FindById(db.users, CompanionOf(db.rooms[roomName], caller).value).None?)
    ensures r.Err? ==> r.error in {NotFound, Forbidden}
    ensures r.Ok? ==>
              && roomName in db.rooms
              && CompanionOf(db.rooms[roomName], caller).Some?
              && r.value.companion.id == CompanionOf(db.rooms[roomName], caller).value
  {
    if roomName !in db.rooms then Err(NotFound)
    else
      match CompanionOf(db.rooms[roomName], caller)
      case None => Err(Forbidden)
      case Some(cid) =>
        match FindById(db.users, cid)
        case None => Err(NotFound)
        case Some(c) =>
          var sorted := SortByTime(RoomMessages(db.messages, roomName));
          Ok(History(CompanionView(c.id, c.firstName + " " + c.lastName, c.email), Label(sorted, caller)))
  }

  /** A successful history shows every message of the room exactly as often
      as it is stored, passes sender, text and time through, orders them by
      time, and says "me" exactly on the caller's own messages. */
  lemma HistoryContents(db: ChatDb, caller: nat, roomName: string)
    requires GetHistory(db, caller, roomName).Ok?
    ensures var h := GetHistory(db, caller, roomName).value;
            && multiset(Unlabel(h.messages, roomName)) == multiset(RoomMessages(db.messages, roomName))
            && SortedByTime(Unlabel(h.messages, roomName))
            && forall i :: 0 <= i < |h.messages| ==>
                 (h.messages[i].who == "me" <==> h.messages[i].senderId == caller)
  {
    var sorted := SortByTime(RoomMessages(db.messages, roomName));
    assert GetHistory(db, caller, roomName).value.messages == Label(sorted, caller);
    SortedInRoom(db.messages, roomName);
    UnlabelLabel(sorted, caller, roomName);
  }

  /** The sorted history of a room holds only that room's messages. */
  lemma SortedInRoom(msgs: seq<Message>, name: string)
    ensures var sorted := SortByTime(RoomMessages(msgs, name));
            forall i :: 0 <= i < |sorted| ==> sorted[i].room == name
  {
    var sorted := SortByTime(RoomMessages(msgs, name));
    forall i | 0 <= i < |sorted| ensures sorted[i].room == name {
      assert sorted[i] in multiset(RoomMessages(msgs, name));
    }
  }

  /** Labelling the messages of one room loses nothing: unlabelling gives
      them back, and "me" marks exactly the caller's own. */
  lemma UnlabelLabel(ms: seq<Message>, caller: nat, name: string)
    requires forall i :: 0 <= i < |ms| ==> ms[i].room == name
    ensures Unlabel(Label(ms, caller), name) == ms
    ensures forall i :: 0 <= i < |ms| ==> (Label(ms, caller)[i].who == "me" <==> ms[i].senderId == caller)
  {
    assert Unlabel(Label(ms, caller), name) == ms;
  }
}

=== FILE: checkout.dfy ===
/** `OrderViewSet.create`: turning a buyer's basket into one pending order
    per farm. Every line is checked against stock first; only if all pass
    are the orders created (each item a snapshot of the product's price),
    the stock decremented and the basket emptied. The whole step is one
    state-to-state function, so an error leaves the state as it was. */
module Checkout {
  import opened Wrappers
  import opened Seqs
  import opened Users
  import opened MarketModels

  /** A basket line as checkout sees it: the farm of its product, and the
      order item it becomes. */
  datatype Pick = Pick(farm: nat, item: OrderItem)

  /** The order item of line `k`: its product and quantity, and the
      product's current price. */
  function LineItem(s: MarketState, k: nat): (o: OrderItem)
    requires k in s.items && s.items[k].product in s.products
    ensures o.product == s.items[k].product && o.quantity == s.items[k].quantity
    ensures o.price == s.products[s.items[k].product].price
  {
    OrderItem(s.items[k].product, s.items[k].quantity, s.products[s.items[k].product].price)
  }

  function Picks(s: MarketState, lines: seq<nat>): (r: seq<Pick>)
    requires LinesOk(s, lines)
    ensures |r| == |lines|
    ensures forall i :: 0 <= i < |r| ==>
              r[i] == Pick(s.products[s.items[lines[i]].product].farm, LineItem(s, lines[i]))
  {
    if |lines| == 0 then []
    else [Pick(s.products[s.items[lines[0]].product].farm, LineItem(s, lines[0]))] + Picks(s, lines[1..])
  }

  function Items(picks: seq<Pick>): (r: seq<OrderItem>)
    ensures |r| == |picks| && forall i :: 0 <= i < |r| ==> r[i] == picks[i].item
  {
    if |picks| == 0 then [] else [picks[0].item] + Items(picks[1..])
  }

  /** The sum of quantity times price over order items. */
  function Total(items: seq<OrderItem>): int {
    if |items| == 0 then 0 else items[0].quantity * items[0].price + Total(items[1..])
  }

  /** The snapshot of a basket costs what the basket costs. */
  lemma {:induction false} SnapshotTotal(s: MarketState, lines: seq<nat>)
    requires LinesOk(s, lines)
    ensures Total(Items(Picks(s, lines))) == BasketTotal(s, lines)
    decreases |lines|
  {
    if |lines| > 0 {
      SnapshotTotal(s, lines[1..]);
      assert Picks(s, lines)[1..] == Picks(s, lines[1..]);
      assert Items(Picks(s, lines))[1..] == Items(Picks(s, lines[1..]));
    }
  }

  /** The names of the products whose stock is below their line's quantity,
      in line order. */
  function Shortages(s: MarketState, lines: seq<nat>): (r: seq<string>)
    requires LinesOk(s, lines)
    ensures r == [] <==> forall i :: 0 <= i < |lines| ==>
                           s.items[lines[i]].quantity <= s.products[s.items[lines[i]].product].stock
  {
    if |lines| == 0 then []
    else
      var p := s.products[s.items[lines[0]].product];
      (if p.stock < s.items[lines[0]].quantity then [p.name] else []) + Shortages(s, lines[1..])
  }

  function SetOf(xs: seq<nat>): (r: set<nat>)
    ensures forall x :: x in r <==> x in xs
  {
    set x | x in xs
  }

  /** The farms of the picks, each once, in order of first appearance (the
      keys of the grouping dict). */
  function FarmsOf(picks: seq<Pick>): (r: seq<nat>)
    ensures NoDup(r)
    ensures forall i :: 0 <= i < |picks| ==> picks[i].farm in r
    ensures forall f :: f in r ==> exists i :: 0 <= i < |picks| && picks[i].farm == f
  {
    if |picks| == 0 then []
    else
      var init := picks[..|picks| - 1];
      var r := FarmsOf(init);
      assert forall i :: 0 <= i < |init| ==> init[i] == picks[i];
      if picks[|picks| - 1].farm in r then r else r + [picks[|picks| - 1].farm]
  }

  /** A pick's item when its farm is in `fs`, else nothing. */
  function Take(p: Pick, fs: set<nat>): seq<OrderItem> {
    if p.farm in fs then [p.item] else []
  }

  /** The items of the picks whose farm is in `fs`, in order. */
  function ItemsIn(picks: seq<Pick>, fs: set<nat>): seq<OrderItem> {
    if |picks| == 0 then [] else Take(picks[0], fs) + ItemsIn(picks[1..], fs)
  }

  /** Every item taken for `fs` is the item of a pick whose farm is in `fs`. */
  lemma {:induction false} ItemsInFrom(picks: seq<Pick>, fs: set<nat>, x: OrderItem)
    requires x in ItemsIn(picks, fs)
    ensures exists i :: 0 <= i < |picks| && picks[i].item == x && picks[i].farm in fs
    decreases |picks|
  {
    if x in Take(picks[0], fs) {
      assert picks[0].item == x && picks[0].farm in fs;
    } else {
      ItemsInFrom(picks[1..], fs, x);
      var i :| 0 <= i < |picks[1..]| && picks[1..][i].item == x && picks[1..][i].farm in fs;
      assert picks[i + 1] == picks[1..][i];
    }
  }

  lemma {:induction false} TotalAppend(a: seq<OrderItem>, b: seq<OrderItem>)
    ensures Total(a + b) == Total(a) + Total(b)
    decreases |a|
  {
    if |a| > 0 {
      assert (a + b)[1..] == a[1..] + b;
      TotalAppend(a[1..], b);
    } else {
      assert a + b == b;
    }
  }

  /** One pick, taken for `fs + {f}`, is taken for exactly one of `{f}` and `fs`. */
  lemma TakeSplit(p: Pick, fs: set<nat>, f: nat)
    requires f !in fs
    ensures multiset(Take(p, fs + {f})) == multiset(Take(p, {f})) + multiset(Take(p, fs))
    ensures Total(Take(p, fs + {f})) == Total(Take(p, {f})) + Total(Take(p, fs))
  {
  }

  /** Taking one more farm into a set of farms adds exactly that farm's
      items, as a multiset. */
  lemma {:induction false} ItemsInSplit(picks: seq<Pick>, fs: set<nat>, f: nat)
    requires f !in fs
    ensures multiset(ItemsIn(picks, fs + {f})) == multiset(ItemsIn(picks, {f})) + multiset(ItemsIn(picks, fs))
    decreases |picks|
  {
    if |picks| > 0 {
      ItemsInSplit(picks[1..], fs, f);
      TakeSplit(picks[0], fs, f);
    }
  }

  /** Taking one more farm into a set of farms adds exactly that farm's
      items' total. */
  lemma {:induction false} TotalSplit(picks: seq<Pick>, fs: set<nat>, f: nat)
    requires f !in fs
    ensures Total(ItemsIn(picks, fs + {f})) == Total(ItemsIn(picks, {f})) + Total(ItemsIn(picks, fs))
    decreases |picks|
  {
    if |picks| > 0 {
      var p, rest := picks[0], picks[1..];
      TotalSplit(rest, fs, f);
      TakeSplit(p, fs, f);
      TotalAppend(Take(p, fs + {f}), ItemsIn(rest, fs + {f}));
      TotalAppend(Take(p, {f}), ItemsIn(rest, {f}));
      TotalAppend(Take(p, fs), ItemsIn(rest, fs));
    }
  }

  /** No farm, no items. */
  lemma {:induction false} EmptyFarms(picks: seq<Pick>)
    ensures ItemsIn(picks, {}) == []
    decreases |picks|
  {
    if |picks| > 0 {
      EmptyFarms(picks[1..]);
    }
  }

  /** Taking every farm keeps every item, in order. */
  lemma {:induction false} ItemsInAll(picks: seq<Pick>, fs: set<nat>)
    requires forall i :: 0 <= i < |picks| ==> picks[i].farm in fs
    ensures ItemsIn(picks, fs) == Items(picks)
    decreases |picks|
  {
    if |picks| > 0 {
      assert forall i :: 0 <= i < |picks[1..]| ==> picks[1..][i] == picks[i + 1];
      ItemsInAll(picks[1..], fs);
    }
  }

  /** The order for one farm: its own items, their total, pending. */
  function OrderFor(buyer: nat, farm: nat, picks: seq<Pick>): (o: Order)
    ensures o.buyer == buyer && o.farm == farm && o.status == Pending
  {
    var items := ItemsIn(picks, {farm});
    NewOrder(buyer, farm, Total(items), items)
  }

  function OrdersFor(buyer: nat, farms: seq<nat>, picks: seq<Pick>): (r: seq<Order>)
    ensures |r| == |farms|
    ensures forall i :: 0 <= i < |r| ==> r[i] == OrderFor(buyer, farms[i], picks)
  {
    if |farms| == 0 then [] else [OrderFor(buyer, farms[0], picks)] + OrdersFor(buyer, farms[1..], picks)
  }

  /** All order items of a list of orders, order by order. */
  function AllItems(os: seq<Order>): seq<OrderItem> {
    if |os| == 0 then [] else os[0].items + AllItems(os[1..])
  }

  function SumTotals(os: seq<Order>): int {
    if |os| == 0 then 0 else os[0].totalPrice + SumTotals(os[1..])
  }

  /** The orders of distinct farms hold exactly the items of those farms,
      and their totals add up to those items' total. */
  lemma {:induction false} OrdersPartition(buyer: nat, farms: seq<nat>, picks: seq<Pick>)
    requires NoDup(farms)
    ensures multiset(AllItems(OrdersFor(buyer, farms, picks))) == multiset(ItemsIn(picks, SetOf(farms)))
    ensures SumTotals(OrdersFor(buyer, farms, picks)) == Total(ItemsIn(picks, SetOf(farms)))
    decreases |farms|
  {
    var os := OrdersFor(buyer, farms, picks);
    if |farms| == 0 {
      assert SetOf(farms) == {};
      EmptyFarms(picks);
    } else {
      var rest := farms[1..];
      NoDupTail(farms);
      OrdersPartition(buyer, rest, picks);
      ItemsInSplit(picks, SetOf(rest), farms[0]);
      TotalSplit(picks, SetOf(rest), farms[0]);
      assert os[1..] == OrdersFor(buyer, rest, picks);
    }
  }

  /** Dropping the head of a list without duplicates leaves a list without
      duplicates, and the head is not in it nor in its set again. */
  lemma NoDupTail(xs: seq<nat>)
    requires NoDup(xs) && |xs| > 0
    ensures NoDup(xs[1..])
    ensures xs[0] !in SetOf(xs[1..])
    ensures SetOf(xs) == SetOf(xs[1..]) + {xs[0]}
  {
    var rest := xs[1..];
    assert xs == [xs[0]] + rest;
    forall i, j | 0 <= i < j < |rest| ensures rest[i] != rest[j] {
      assert rest[i] == xs[i + 1] && rest[j] == xs[j + 1];
    }
    forall i | 0 <= i < |rest| ensures rest[i] != xs[0] {
      assert rest[i] == xs[i + 1];
    }
  }

  /** The position of `x` in `xs`. */
  function IndexOf(xs: seq<nat>, x: nat): (i: nat)
    requires x in xs
    ensures i < |xs| && xs[i] == x
  {
    if xs[0] == x then 0 else 1 + IndexOf(xs[1..], x)
  }

  /** Every pick's farm has one of the orders, every order's farm is some
      pick's, and no two orders share a farm. */
  lemma OrdersCoverFarms(buyer: nat, picks: seq<Pick>, os: seq<Order>)
    requires os == OrdersFor(buyer, FarmsOf(picks), picks)
    ensures forall j :: 0 <= j < |picks| ==> exists i :: 0 <= i < |os| && os[i].farm == picks[j].farm
    ensures forall i :: 0 <= i < |os| ==> exists j :: 0 <= j < |picks| && picks[j].farm == os[i].farm
    ensures forall i, j :: 0 <= i < j < |os| ==> os[i].farm != os[j].farm
  {
    var farms := FarmsOf(picks);
    forall j | 0 <= j < |picks|
      ensures exists i :: 0 <= i < |os| && os[i].farm == picks[j].farm
    {
      var i := IndexOf(farms, picks[j].farm);
      assert os[i].farm == picks[j].farm;
    }
    forall i | 0 <= i < |os|
      ensures exists j :: 0 <= j < |picks| && picks[j].farm == os[i].farm
    {
      assert farms[i] in farms;
    }
    forall i, j | 0 <= i < j < |os|
      ensures os[i].farm != os[j].farm
    {
      assert os[i] == OrderFor(buyer, farms[i], picks);
      assert os[j] == OrderFor(buyer, farms[j], picks);
    }
  }

  /** The quantity of product `p` the picks buy. */
  function Bought(picks: seq<Pick>, p: nat): (n: nat)
    ensures (forall i :: 0 <= i < |picks| ==> picks[i].item.product != p) ==> n == 0
  {
    if |picks| == 0 then 0
    else (if picks[0].item.product == p then picks[0].item.quantity else 0) + Bought(picks[1..], p)
  }

  /** Each pick is on its own product. */
  predicate DistinctProducts(picks: seq<Pick>) {
    forall i, j :: 0 <= i < j < |picks| ==> picks[i].item.product != picks[j].item.product
  }

  /** Every pick is on a stocked product, on its own product, and within
      that product's stock. */
  predicate Decrementable(products: map<nat, Product>, picks: seq<Pick>) {
    && (forall i :: 0 <= i < |picks| ==> picks[i].item.product in products)
    && DistinctProducts(picks)
    && (forall i :: 0 <= i < |picks| ==> picks[i].item.quantity <= products[picks[i].item.product].stock)
  }

  /** With one pick per product, the quantity bought of a picked product is
      that pick's quantity. */
  lemma {:induction false} BoughtOne(picks: seq<Pick>, i: nat)
    requires DistinctProducts(picks) && i < |picks|
    ensures Bought(picks, picks[i].item.product) == picks[i].item.quantity
    decreases |picks|
  {
    var p := picks[i].item.product;
    if i == 0 {
      assert forall j :: 0 <= j < |picks[1..]| ==> picks[1..][j].item.product != p by {
        forall j | 0 <= j < |picks[1..]| ensures picks[1..][j].item.product != p {
          assert picks[1..][j] == picks[j + 1];
        }
      }
    } else {
      assert picks[1..][i - 1] == picks[i];
      assert DistinctProducts(picks[1..]) by {
        forall a, b | 0 <= a < b < |picks[1..]| ensures picks[1..][a].item.product != picks[1..][b].item.product {
          assert picks[1..][a] == picks[a + 1] && picks[1..][b] == picks[b + 1];
        }
      }
      BoughtOne(picks[1..], i - 1);
    }
  }

  /** `product.decrease_stock(quantity)` for every pick: each product loses
      the quantity bought of it, and every other field stays. With one pick
      per product, this is the same as decreasing the picks one by one. */
  function Decrement(products: map<nat, Product>, picks: seq<Pick>): (r: map<nat, Product>)
    requires Decrementable(products, picks)
    ensures r.Keys == products.Keys
    ensures forall p :: p in r ==> r[p] == products[p].(stock := r[p].stock)
    ensures forall p :: p in r ==> r[p].stock + Bought(picks, p) == products[p].stock
  {
    BoughtBounded(products, picks);
    map p | p in products :: products[p].(stock := products[p].stock - Bought(picks, p))
  }

  /** No product is bought beyond its stock when each pick is on its own
      product and within that product's stock. */
  lemma BoughtBounded(products: map<nat, Product>, picks: seq<Pick>)
    requires Decrementable(products, picks)
    ensures forall p :: p in products ==> Bought(picks, p) <= products[p].stock
  {
    forall p | p in products ensures Bought(picks, p) <= products[p].stock {
      if i :| 0 <= i < |picks| && picks[i].item.product == p {
        BoughtOne(picks, i);
      }
    }
  }

  /** The buyer's lines are on distinct products, so their picks are too. */
  lemma LinesDistinct(s: MarketState, buyer: nat)
    requires Valid(s)
    ensures DistinctProducts(Picks(s, Lines(s, buyer)))
  {
    var lines := Lines(s, buyer);
    forall i, j | 0 <= i < j < |lines|
      ensures s.items[lines[i]].product != s.items[lines[j]].product
    {
      assert lines[i] in lines && lines[j] in lines;
    }
  }

  /** A checkout that can go through can decrement the stock of every
      line's product. */
  lemma ReadyDecrementable(s: MarketState, buyer: nat)
    requires Ready(s, buyer)
    ensures Decrementable(s.products, Picks(s, Lines(s, buyer)))
  {
    LinesDistinct(s, buyer);
    PicksDecrementable(s, Lines(s, buyer));
  }

  /** The picks of lines that are all covered by stock can be decremented. */
  lemma PicksDecrementable(s: MarketState, lines: seq<nat>)
    requires LinesOk(s, lines) && DistinctProducts(Picks(s, lines)) && Shortages(s, lines) == []
    ensures Decrementable(s.products, Picks(s, lines))
  {
  }

  /** `orders` with `os` stored under the ids from `base` on. */
  function Place(orders: map<nat, Order>, base: nat, os: seq<Order>): (r: map<nat, Order>)
    ensures forall i :: 0 <= i < |os| ==> base + i in r && r[base + i] == os[i]
    ensures forall k :: k in r <==> k in orders || base <= k < base + |os|
    ensures forall k :: k in orders && !(base <= k < base + |os|) ==> r[k] == orders[k]
    decreases |os|
  {
    if |os| == 0 then orders
    else
      var r := Place(orders[base := os[0]], base + 1, os[1..]);
      assert forall i :: 1 <= i < |os| ==> os[1..][i - 1] == os[i];
      r
  }

  /** The ids `base`, `base + 1`, ... of `n` new records. */
  function Ids(base: nat, n: nat): (r: seq<nat>)
    ensures |r| == n && forall i :: 0 <= i < n ==> r[i] == base + i
  {
    seq(n, i requires 0 <= i < n => base + i)
  }

  /** Some line of the buyer wants more than its product's stock. */
  ghost predicate SomeLineShort(s: MarketState, buyer: nat)
    requires Valid(s)
  {
    exists k :: k in s.items && s.items[k].buyer == buyer && s.products[s.items[k].product].stock < s.items[k].quantity
  }

  /** The shortage list is empty exactly when no line is short. */
  lemma ShortagesIff(s: MarketState, buyer: nat)
    requires Valid(s)
    ensures Shortages(s, Lines(s, buyer)) != [] <==> SomeLineShort(s, buyer)
  {
    var lines := Lines(s, buyer);
    if Shortages(s, lines) != [] {
      var i :| 0 <= i < |lines| && s.items[lines[i]].quantity > s.products[s.items[lines[i]].product].stock;
      assert lines[i] in lines;
    } else {
      forall k | k in s.items && s.items[k].buyer == buyer
        ensures s.products[s.items[k].product].stock >= s.items[k].quantity
      {
        assert k in lines;
        var i :| 0 <= i < |lines| && lines[i] == k;
      }
    }
  }

  /** Checkout can go through: the state is well formed and no line is short. */
  ghost predicate Ready(s: MarketState, buyer: nat) {
    Valid(s) && Shortages(s, Lines(s, buyer)) == []
  }

  /** The orders checkout creates: one per farm, in order of the farms'
      first appearance among the lines. */
  function NewOrders(s: MarketState, buyer: nat): seq<Order>
    requires Ready(s, buyer)
  {
    var picks := Picks(s, Lines(s, buyer));
    OrdersFor(buyer, FarmsOf(picks), picks)
  }

  /** The state after checkout goes through: the new orders stored after
      the existing ones, the stock decremented, the buyer's lines deleted
      (`basket.clear()`; the basket itself stays). */
  function Apply(s: MarketState, buyer: nat): MarketState
    requires Ready(s, buyer)
  {
    var picks := Picks(s, Lines(s, buyer));
    var os := NewOrders(s, buyer);
    ReadyDecrementable(s, buyer);
    s.(orders := Place(s.orders, s.nextOrder, os),
       nextOrder := s.nextOrder + |os|,
       products := Decrement(s.products, picks),
       items := map k | k in s.items && s.items[k].buyer != buyer :: s.items[k])
  }

  /** `OrderViewSet.create`. 404 without a basket, 400 for an empty one,
      400 naming every short product when some line wants more than its
      product's stock (a quantity equal to the stock passes); every error
      leaves the state as it was. Otherwise the orders of `NewOrders`,
      under fresh ids from the order counter on. */
  function Checkout(s: MarketState, caller: User): (r: Reply<seq<nat>>)
    requires Valid(s)
    ensures caller.id !in s.baskets ==> r == Reply(s, Err(NotFound))
    ensures caller.id in s.baskets && Lines(s, caller.id) == [] ==> r == Reply(s, Err(BadRequest))
    ensures r.result.Err? ==> r.state == s
    ensures (caller.id in s.baskets && Lines(s, caller.id) != []) ==>
              (r.result.Err? <==> SomeLineShort(s, caller.id))
    ensures (caller.id in s.baskets && Lines(s, caller.id) != [] && r.result.Err?) ==>
              r.result.error == InsufficientStock(Shortages(s, Lines(s, caller.id)))
    ensures r.result.Ok? ==>
              && caller.id in s.baskets
              && Lines(s, caller.id) != []
              && Ready(s, caller.id)
              && r.state == Apply(s, caller.id)
              && r.result.value == Ids(s.nextOrder, |NewOrders(s, caller.id)|)
  {
    if caller.id !in s.baskets then Reply(s, Err(NotFound))
    else
      var lines := Lines(s, caller.id);
      if lines == [] then Reply(s, Err(BadRequest))
      else
        ShortagesIff(s, caller.id);
        var short := Shortages(s, lines);
        if short != [] then Reply(s, Err(InsufficientStock(short)))
        else Reply(Apply(s, caller.id), Ok(Ids(s.nextOrder, |NewOrders(s, caller.id)|)))
  }

  /** `OrderViewSet.create` as the code stands. The checks before the
      atomic block answer as in `Checkout`, but `Order.objects.create` is
      passed a `farm` that `Order` does not have, so the first order raises
      inside the block, the block rolls back, and the request is a 500 that
      changes nothing. No basket is ever turned into orders. */
  function CheckoutAsWritten(s: MarketState, caller: User): (r: Reply<seq<nat>>)
    requires Valid(s)
    ensures r.state == s
    ensures r.result.Err?
    ensures r.result == Err(ServerError) <==>
              caller.id in s.baskets && Lines(s, caller.id) != [] && !SomeLineShort(s, caller.id)
    ensures r.result != Err(ServerError) ==> r == Checkout(s, caller)
  {
    if caller.id !in s.baskets then Reply(s, Err(NotFound))
    else
      var lines := Lines(s, caller.id);
      if lines == [] then Reply(s, Err(BadRequest))
      else
        ShortagesIff(s, caller.id);
        var short := Shortages(s, lines);
        if short != [] then Reply(s, Err(InsufficientStock(short)))
        else Reply(s, Err(ServerError))
  }

  /** The defect on a concrete request: a non-empty basket with every line
      in stock is refused with a 500 as written, while the corrected
      checkout places its orders. */
  lemma CheckoutRefusedAsWritten(s: MarketState, caller: User)
    requires Valid(s) && caller.id in s.baskets && Lines(s, caller.id) != [] && !SomeLineShort(s, caller.id)
    ensures CheckoutAsWritten(s, caller) == Reply(s, Err(ServerError))
    ensures Checkout(s, caller).result.Ok? && Checkout(s, caller).state == Apply(s, caller.id)
  {
  }

  // ---------------------------------------------------------------------
  // What a successful checkout did
  // ---------------------------------------------------------------------

  /** The orders stored under `ids`. */
  function Stored(st: MarketState, ids: seq<nat>): (os: seq<Order>)
    requires forall i :: 0 <= i < |ids| ==> ids[i] in st.orders
    ensures |os| == |ids| && forall i :: 0 <= i < |os| ==> os[i] == st.orders[ids[i]]
  {
    if |ids| == 0 then [] else [st.orders[ids[0]]] + Stored(st, ids[1..])
  }

  /** Reading back the orders under `ids`. */
  lemma StoredIs(st: MarketState, ids: seq<nat>, os: seq<Order>)
    requires |ids| == |os|
    requires forall i :: 0 <= i < |ids| ==> ids[i] in st.orders && st.orders[ids[i]] == os[i]
    ensures Stored(st, ids) == os
  {
  }

  /** `Place` puts the i-th order under the i-th new id; ids below `base`
      were free of them and keep their orders. */
  lemma PlacedAt(orders: map<nat, Order>, base: nat, os: seq<Order>, ids: seq<nat>)
    requires ids == Ids(base, |os|)
    requires forall k :: k in orders ==> k < base
    ensures forall i :: 0 <= i < |ids| ==>
              ids[i] !in orders && ids[i] in Place(orders, base, os) && Place(orders, base, os)[ids[i]] == os[i]
    ensures forall k :: k in orders ==> k in Place(orders, base, os) && Place(orders, base, os)[k] == orders[k]
  {
    var m := Place(orders, base, os);
    forall i | 0 <= i < |ids| ensures ids[i] !in orders && ids[i] in m && m[ids[i]] == os[i] {
      assert ids[i] == base + i;
    }
  }

  /** The new orders go under ids that were free and are stored there;
      the existing orders are untouched. */
  lemma CheckoutStores(s: MarketState, buyer: nat, r: MarketState, ids: seq<nat>)
    requires Ready(s, buyer)
    requires r == Apply(s, buyer) && ids == Ids(s.nextOrder, |NewOrders(s, buyer)|)
    ensures forall i :: 0 <= i < |ids| ==> ids[i] !in s.orders && ids[i] in r.orders
    ensures Stored(r, ids) == NewOrders(s, buyer)
    ensures forall k :: k in s.orders ==> k in r.orders && r.orders[k] == s.orders[k]
  {
    var os := NewOrders(s, buyer);
    assert r.orders == Place(s.orders, s.nextOrder, os);
    PlacedAt(s.orders, s.nextOrder, os, ids);
    StoredIs(r, ids, os);
  }

  /** One pending order of the buyer per farm: no two new orders share a
      farm. */
  lemma CheckoutOneOrderPerFarm(s: MarketState, buyer: nat, os: seq<Order>)
    requires Ready(s, buyer) && os == NewOrders(s, buyer)
    ensures forall i :: 0 <= i < |os| ==> os[i].status == Pending && os[i].buyer == buyer
    ensures forall i, j :: 0 <= i < j < |os| ==> os[i].farm != os[j].farm
  {
    OrdersCoverFarms(buyer, Picks(s, Lines(s, buyer)), os);
  }

  /** Every line's farm has a new order, and every new order's farm has a
      line. */
  lemma CheckoutFarmsAreLineFarms(s: MarketState, buyer: nat, lines: seq<nat>, os: seq<Order>)
    requires Ready(s, buyer) && lines == Lines(s, buyer) && os == NewOrders(s, buyer)
    ensures forall k :: k in lines ==>
              exists i :: 0 <= i < |os| && os[i].farm == s.products[s.items[k].product].farm
    ensures forall i :: 0 <= i < |os| ==>
              exists k :: k in lines && os[i].farm == s.products[s.items[k].product].farm
  {
    LineFarmsCovered(s, lines, buyer, os);
  }

  /** The same at the level of any list of lines. */
  lemma LineFarmsCovered(s: MarketState, lines: seq<nat>, buyer: nat, os: seq<Order>)
    requires LinesOk(s, lines) && os == OrdersFor(buyer, FarmsOf(Picks(s, lines)), Picks(s, lines))
    ensures forall k :: k in lines ==>
              exists i :: 0 <= i < |os| && os[i].farm == s.products[s.items[k].product].farm
    ensures forall i :: 0 <= i < |os| ==>
              exists k :: k in lines && os[i].farm == s.products[s.items[k].product].farm
  {
    var picks := Picks(s, lines);
    OrdersCoverFarms(buyer, picks, os);
    forall k | k in lines
      ensures exists i :: 0 <= i < |os| && os[i].farm == s.products[s.items[k].product].farm
    {
      var j := IndexOf(lines, k);
      PickFarm(s, lines, j);
    }
    forall i | 0 <= i < |os|
      ensures exists k :: k in lines && os[i].farm == s.products[s.items[k].product].farm
    {
      var j :| 0 <= j < |picks| && picks[j].farm == os[i].farm;
      PickFarm(s, lines, j);
      assert lines[j] in lines;
    }
  }

  /** The j-th pick is on the farm of the j-th line's product. */
  lemma PickFarm(s: MarketState, lines: seq<nat>, j: nat)
    requires LinesOk(s, lines) && j < |lines|
    ensures Picks(s, lines)[j].farm == s.products[s.items[lines[j]].product].farm
  {
  }

  /** Each new order's total is the sum of quantity times price over its own
      items, and each of those items copies a line of that order's farm:
      product, quantity and the product's price at checkout. */
  lemma CheckoutTotals(s: MarketState, buyer: nat, os: seq<Order>)
    requires Ready(s, buyer) && os == NewOrders(s, buyer)
    ensures forall i :: 0 <= i < |os| ==> os[i].totalPrice == Total(os[i].items)
    ensures forall i, x :: 0 <= i < |os| && x in os[i].items ==>
              exists k :: k in Lines(s, buyer) && x == LineItem(s, k)
                          && s.products[s.items[k].product].farm == os[i].farm
  {
    LineTotals(s, Lines(s, buyer), buyer, os);
  }

  /** The same at the level of any list of lines. */
  lemma LineTotals(s: MarketState, lines: seq<nat>, buyer: nat, os: seq<Order>)
    requires LinesOk(s, lines) && os == OrdersFor(buyer, FarmsOf(Picks(s, lines)), Picks(s, lines))
    ensures forall i :: 0 <= i < |os| ==> os[i].totalPrice == Total(os[i].items)
    ensures forall i, x :: 0 <= i < |os| && x in os[i].items ==>
              exists k :: k in lines && x == LineItem(s, k)
                          && s.products[s.items[k].product].farm == os[i].farm
  {
    var picks := Picks(s, lines);
    forall i, x | 0 <= i < |os| && x in os[i].items
      ensures exists k :: k in lines && x == LineItem(s, k) && s.products[s.items[k].product].farm == os[i].farm
    {
      assert os[i].items == ItemsIn(picks, {os[i].farm});
      ItemFromLine(s, lines, os[i].farm, x);
    }
  }

  /** An item taken for `farm` is the snapshot of one of the lines of that
      farm. */
  lemma ItemFromLine(s: MarketState, lines: seq<nat>, farm: nat, x: OrderItem)
    requires LinesOk(s, lines) && x in ItemsIn(Picks(s, lines), {farm})
    ensures exists k :: k in lines && x == LineItem(s, k) && s.products[s.items[k].product].farm == farm
  {
    var picks := Picks(s, lines);
    ItemsInFrom(picks, {farm}, x);
    var j :| 0 <= j < |picks| && picks[j].item == x && picks[j].farm in {farm};
    PickFarm(s, lines, j);
    assert lines[j] in lines;
  }

  /** The order items across all new orders are exactly the basket's lines
      (as a multiset), and the order totals add up to the basket total. */
  lemma CheckoutItemsAreBasket(s: MarketState, buyer: nat, os: seq<Order>)
    requires Ready(s, buyer) && os == NewOrders(s, buyer)
    ensures multiset(AllItems(os)) == multiset(Items(Picks(s, Lines(s, buyer))))
    ensures SumTotals(os) == BasketTotal(s, Lines(s, buyer))
  {
    var lines := Lines(s, buyer);
    var picks := Picks(s, lines);
    var farms := FarmsOf(picks);
    OrdersPartition(buyer, farms, picks);
    ItemsInAll(picks, SetOf(farms));
    SnapshotTotal(s, lines);
  }

  /** Checkout changes only the stock of products, and every product in the
      basket loses exactly its line's quantity. */
  lemma CheckoutStock(s: MarketState, buyer: nat, r: MarketState)
    requires Ready(s, buyer) && r == Apply(s, buyer)
    ensures r.products.Keys == s.products.Keys
    ensures forall p :: p in s.products ==> r.products[p] == s.products[p].(stock := r.products[p].stock)
    ensures forall k :: k in s.items && s.items[k].buyer == buyer ==>
              r.products[s.items[k].product].stock + s.items[k].quantity == s.products[s.items[k].product].stock
  {
    ReadyDecrementable(s, buyer);
    StockAfter(s, Lines(s, buyer), buyer);
  }

  /** The same for any list holding exactly the buyer's lines. */
  lemma StockAfter(s: MarketState, lines: seq<nat>, buyer: nat)
    requires LinesOk(s, lines) && Decrementable(s.products, Picks(s, lines))
    requires forall x :: x in lines <==> x in s.items && s.items[x].buyer == buyer
    ensures Decrement(s.products, Picks(s, lines)).Keys == s.products.Keys
    ensures forall p :: p in s.products ==>
              Decrement(s.products, Picks(s, lines))[p]
              == s.products[p].(stock := Decrement(s.products, Picks(s, lines))[p].stock)
    ensures forall k :: k in s.items && s.items[k].buyer == buyer ==>
              Decrement(s.products, Picks(s, lines))[s.items[k].product].stock + s.items[k].quantity
              == s.products[s.items[k].product].stock
  {
    forall k | k in s.items && s.items[k].buyer == buyer
      ensures Decrement(s.products, Picks(s, lines))[s.items[k].product].stock + s.items[k].quantity
              == s.products[s.items[k].product].stock
    {
      LineStock(s, lines, IndexOf(lines, k));
    }
  }

  /** The product of the i-th line loses exactly that line's quantity. */
  lemma LineStock(s: MarketState, lines: seq<nat>, i: nat)
    requires LinesOk(s, lines) && Decrementable(s.products, Picks(s, lines))
    requires i < |lines|
    ensures Decrement(s.products, Picks(s, lines))[s.items[lines[i]].product].stock + s.items[lines[i]].quantity
            == s.products[s.items[lines[i]].product].stock
  {
    BoughtOne(Picks(s, lines), i);
  }

  /** A product with no line in the basket keeps its stock. */
  lemma CheckoutOtherStock(s: MarketState, buyer: nat, r: MarketState, p: nat)
    requires Ready(s, buyer) && r == Apply(s, buyer) && p in s.products
    requires forall k :: k in s.items && s.items[k].buyer == buyer ==> s.items[k].product != p
    ensures p in r.products && r.products[p].stock == s.products[p].stock
  {
    var lines := Lines(s, buyer);
    ReadyDecrementable(s, buyer);
    assert forall i :: 0 <= i < |lines| ==> s.items[lines[i]].product != p by {
      forall i | 0 <= i < |lines| ensures s.items[lines[i]].product != p {
        assert lines[i] in lines;
      }
    }
    UnboughtKept(s, lines, p);
  }

  /** A product none of the lines is on keeps its stock through `Decrement`. */
  lemma UnboughtKept(s: MarketState, lines: seq<nat>, p: nat)
    requires LinesOk(s, lines) && Decrementable(s.products, Picks(s, lines))
    requires forall i :: 0 <= i < |lines| ==> s.items[lines[i]].product != p
    requires p in s.products
    ensures p in Decrement(s.products, Picks(s, lines))
    ensures Decrement(s.products, Picks(s, lines))[p].stock == s.products[p].stock
  {
    var picks := Picks(s, lines);
    assert forall i :: 0 <= i < |picks| ==> picks[i].item.product != p;
    assert Bought(picks, p) == 0;
  }

  /** Afterwards the buyer's basket still exists and is empty, and every
      other buyer's lines are as they were. */
  lemma CheckoutEmptiesBasket(s: MarketState, buyer: nat, r: MarketState)
    requires Ready(s, buyer) && buyer in s.baskets && r == Apply(s, buyer)
    ensures buyer in r.baskets
    ensures Lines(r, buyer) == []
    ensures forall k :: k in s.items && s.items[k].buyer != buyer ==> k in r.items && r.items[k] == s.items[k]
  {
  }

  /** Checkout keeps the state well formed. */
  lemma CheckoutValid(s: MarketState, buyer: nat)
    requires Ready(s, buyer)
    ensures Valid(Apply(s, buyer))
  {
    var r := Apply(s, buyer);
    CheckoutStock(s, buyer, r);
    assert r.orders == Place(s.orders, s.nextOrder, NewOrders(s, buyer));
    ValidAfter(s, r);
  }

  /** A state with the same catalog (up to stock), a subset of the basket
      lines and order ids below the counter is well formed. */
  lemma ValidAfter(s: MarketState, r: MarketState)
    requires Valid(s)
    requires r.farms == s.farms && r.categories == s.categories && r.nextCategory == s.nextCategory
    requires r.products.Keys == s.products.Keys && r.nextProduct == s.nextProduct
    requires forall p :: p in s.products ==> r.products[p] == s.products[p].(stock := r.products[p].stock)
    requires r.baskets == s.baskets && r.nextItem == s.nextItem
    requires forall k :: k in r.items ==> k in s.items && r.items[k] == s.items[k]
    requires forall k :: k in r.orders ==> k < r.nextOrder
    ensures Valid(r)
  {
  }
}

=== FILE: farms.dfy ===
/** Farms and their verification: who sees and may change a farm, the
    pending application created with every new farm, and the admin's
    approve/reject flow that drives `Farm.is_verified`. */
module Farms {
  import opened Wrappers
  import opened Users
  import opened PyText
  import opened Requests

  datatype Farm = Farm(farmer: nat, name: string, address: string, isVerified: bool)

  datatype AppStatus = Pending | Approved | Rejected

  /** The value stored in the application's `status` column. */
  function AppStatusValue(st: AppStatus): string {
    match st
    case Pending => "pending"
    case Approved => "approved"
    case Rejected => "rejected"
  }

  /** The status a stored value names, if it is one of the three choices. */
  function ParseAppStatus(v: string): (r: Option<AppStatus>)
    ensures r.Some? ==> AppStatusValue(r.value) == v
    ensures forall st :: AppStatusValue(st) == v ==> r == Some(st)
  {
    if v == "pending" then Some(Pending)
    else if v == "approved" then Some(Approved)
    else if v == "rejected" then Some(Rejected)
    else None
  }

  datatype Application = Application(farmer: nat, farm: nat, status: AppStatus, rejectionReason: Option<string>)

  datatype FarmState = FarmState(
    farms: map<nat, Farm>,
    apps: map<nat, Application>,
    nextFarm: nat,
    nextApp: nat)

  /** Ids below the counters; every application belongs to a stored farm. */
  ghost predicate Valid(s: FarmState) {
    && (forall k :: k in s.farms ==> k < s.nextFarm)
    && (forall k :: k in s.apps ==> k < s.nextApp && s.apps[k].farm in s.farms)
  }

  datatype Reply<T> = Reply(state: FarmState, result: Result<T, Error>)

  /** A new farm record: owned by `farmer` and unverified. */
  function NewFarm(farmer: nat, name: string, address: string): (f: Farm)
    ensures !f.isVerified && f.farmer == farmer
  {
    Farm(farmer, name, address, false)
  }

  /** The applications filed for one farm. */
  function AppsOf(s: FarmState, farm: nat): set<nat> {
    set k | k in s.apps && s.apps[k].farm == farm
  }

  /** `Farm.save()` followed by the `create_application_for_farm` post-save
      hook: a farm saved for the first time gets one pending application
      with the same farmer and no rejection reason; a re-save adds none. */
  function SaveFarm(s: FarmState, id: nat, f: Farm): (r: FarmState)
    ensures r.farms == s.farms[id := f]
    ensures id !in s.farms ==>
              && r.apps == s.apps[s.nextApp := Application(f.farmer, id, Pending, None)]
              && r.nextApp == s.nextApp + 1
    ensures id in s.farms ==> r.apps == s.apps && r.nextApp == s.nextApp
    ensures r.nextFarm == s.nextFarm
  {
    var created := id !in s.farms;
    var s1 := s.(farms := s.farms[id := f]);
    if created then
      s1.(apps := s.apps[s.nextApp := Application(f.farmer, id, Pending, None)], nextApp := s.nextApp + 1)
    else s1
  }

  /** Saving a farm for the first time leaves it with exactly one
      application, pending, by the farm's farmer, without a reason. */
  lemma FirstSaveFilesOneApplication(s: FarmState, id: nat, f: Farm)
    requires Valid(s)
    requires id !in s.farms
    ensures var r := SaveFarm(s, id, f);
            && AppsOf(r, id) == {s.nextApp}
            && r.apps[s.nextApp] == Application(f.farmer, id, Pending, None)
  {
  }

  /** Saving an existing farm again files no further application. */
  lemma ResaveFilesNothing(s: FarmState, id: nat, f: Farm)
    requires id in s.farms
    ensures AppsOf(SaveFarm(s, id, f), id) == AppsOf(s, id)
  {
  }

  // ---------------------------------------------------------------------
  // FarmViewSet
  // ---------------------------------------------------------------------

  function VerifiedFarms(s: FarmState): set<nat> {
    set k | k in s.farms && s.farms[k].isVerified
  }

  function OwnFarms(s: FarmState, farmer: nat): set<nat> {
    set k | k in s.farms && s.farms[k].farmer == farmer
  }

  /** `FarmViewSet.get_queryset`: a Farmer sees the verified farms and their
      own; everyone else sees the verified farms only. */
  function VisibleFarms(s: FarmState, caller: User): (r: set<nat>)
    ensures caller.role == Farmer ==> r == VerifiedFarms(s) + OwnFarms(s, caller.id)
    ensures caller.role != Farmer ==> r == VerifiedFarms(s)
  {
    set k | k in s.farms && (s.farms[k].isVerified || (caller.role == Farmer && s.farms[k].farmer == caller.id))
  }

  /** The writable text fields of a farm as the request body carries them. */
  datatype FarmBody = FarmBody(name: Json, address: Json)

  /** `FarmViewSet.create`: `CreateModelMixin` validates the body first, so
      a missing, null or blank name or address is 400 for anyone; then
      `perform_create` lets only a Farmer store the farm (403). The farm is
      the requester's, unverified, and comes with its application. */
  function CreateFarm(s: FarmState, caller: User, body: FarmBody): (r: Reply<nat>)
    requires Valid(s)
    ensures CharInput(body.name, false).Err? || CharInput(body.address, false).Err? ==>
              r == Reply(s, Err(BadRequest))
    ensures CharInput(body.name, false).Ok? && CharInput(body.address, false).Ok? && caller.role != Farmer ==>
              r == Reply(s, Err(Forbidden))
    ensures r.result.Ok? <==> CharInput(body.name, false).Ok? && CharInput(body.address, false).Ok? && caller.role == Farmer
    ensures r.result.Ok? ==>
              && CharInput(body.name, false).value.Some? && CharInput(body.address, false).value.Some?
              && r.result == Ok(s.nextFarm)
              && s.nextFarm !in s.farms
              && r.state.farms == s.farms[s.nextFarm := NewFarm(caller.id, CharInput(body.name, false).value.value,
                                                                 CharInput(body.address, false).value.value)]
              && AppsOf(r.state, s.nextFarm) == {s.nextApp}
              && r.state.apps[s.nextApp] == Application(caller.id, s.nextFarm, Pending, None)
    ensures Valid(r.state)
  {
    match CharInput(body.name, false)
    case Err(e) => Reply(s, Err(e))
    case Ok(name) =>
      match CharInput(body.address, false)
      case Err(e) => Reply(s, Err(e))
      case Ok(address) =>
        if caller.role != Farmer then Reply(s, Err(Forbidden))
        else
          var id := s.nextFarm;
          var f := NewFarm(caller.id, name.GetOr(""), address.GetOr(""));
          var s1 := s.(nextFarm := id + 1);
          FirstSaveFilesOneApplication(s1, id, f);
          Reply(SaveFarm(s1, id, f), Ok(id))
  }

  /** The gate of `update` and `destroy`: the farm must be visible to the
      caller (else 404), and the caller must own it (else 403). */
  function OwnerGate(s: FarmState, caller: User, id: nat): (r: Result<Farm, Error>)
    ensures r.Ok? <==> id in s.farms && s.farms[id].farmer == caller.id
                       && (s.farms[id].isVerified || caller.role == Farmer)
    ensures r.Ok? ==> r.value == s.farms[id]
    ensures r.Err? && r.error == Forbidden ==> id in VisibleFarms(s, caller)
  {
    if id !in VisibleFarms(s, caller) then Err(NotFound)
    else if s.farms[id].farmer != caller.id then Err(Forbidden)
    else Ok(s.farms[id])
  }

  /** `FarmViewSet.update` (PUT, or PATCH when `partial`): only the owner
      may change a farm (404, then 403), and then the body is validated
      (400). A PUT must carry every writable field; a PATCH replaces only
      the fields it carries. The farmer and `is_verified` are read-only. */
  function UpdateFarm(s: FarmState, caller: User, id: nat, body: FarmBody, partial: bool): (r: Reply<Farm>)
    ensures OwnerGate(s, caller, id).Err? ==> r == Reply(s, Err(OwnerGate(s, caller, id).error))
    ensures OwnerGate(s, caller, id).Ok? && (CharInput(body.name, partial).Err? || CharInput(body.address, partial).Err?) ==>
              r == Reply(s, Err(BadRequest))
    ensures r.result.Ok? <==> OwnerGate(s, caller, id).Ok? && CharInput(body.name, partial).Ok? && CharInput(body.address, partial).Ok?
    ensures r.result.Ok? ==>
              && id in s.farms
              && r.state == s.(farms := s.farms[id := r.result.value])
              && r.result.value.farmer == s.farms[id].farmer
              && r.result.value.isVerified == s.farms[id].isVerified
              && r.result.value.name == CharInput(body.name, partial).value.GetOr(s.farms[id].name)
              && r.result.value.address == CharInput(body.address, partial).value.GetOr(s.farms[id].address)
  {
    match OwnerGate(s, caller, id)
    case Err(e) => Reply(s, Err(e))
    case Ok(f) =>
      match CharInput(body.name, partial)
      case Err(e) => Reply(s, Err(e))
      case Ok(name) =>
        match CharInput(body.address, partial)
        case Err(e) => Reply(s, Err(e))
        case Ok(address) =>
          var f' := f.(name := name.GetOr(f.name), address := address.GetOr(f.address));
          Reply(s.(farms := s.farms[id := f']), Ok(f'))
  }

  /** A successful PUT leaves nothing of the old name and address: the
      result depends only on the body and the farm's owner and flag. */
  lemma PutReplacesEveryField(s: FarmState, t: FarmState, caller: User, id: nat, body: FarmBody)
    requires UpdateFarm(s, caller, id, body, false).result.Ok?
    requires UpdateFarm(t, caller, id, body, false).result.Ok?
    requires s.farms[id].farmer == t.farms[id].farmer && s.farms[id].isVerified == t.farms[id].isVerified
    ensures UpdateFarm(s, caller, id, body, false).result == UpdateFarm(t, caller, id, body, false).result
  {
  }

  /** Repeating a farm update changes nothing further. */
  lemma UpdateFarmIdempotent(s: FarmState, caller: User, id: nat, body: FarmBody, partial: bool)
    requires UpdateFarm(s, caller, id, body, partial).result.Ok?
    ensures var s1 := UpdateFarm(s, caller, id, body, partial).state;
            UpdateFarm(s1, caller, id, body, partial) == UpdateFarm(s, caller, id, body, partial)
  {
    var r1 := UpdateFarm(s, caller, id, body, partial);
    assert r1.state.farms[id] == r1.result.value;
    UpdateFarmToSame(r1.state, caller, id, body, partial);
  }

  /** An update whose outcome is the farm already stored changes nothing. */
  lemma UpdateFarmToSame(s: FarmState, caller: User, id: nat, body: FarmBody, partial: bool)
    requires OwnerGate(s, caller, id).Ok?
    requires CharInput(body.name, partial).Ok? && CharInput(body.address, partial).Ok?
    requires CharInput(body.name, partial).value.GetOr(s.farms[id].name) == s.farms[id].name
    requires CharInput(body.address, partial).value.GetOr(s.farms[id].address) == s.farms[id].address
    ensures UpdateFarm(s, caller, id, body, partial) == Reply(s, Ok(s.farms[id]))
  {
    assert s.farms[id := s.farms[id]] == s.farms;
  }

  /** `FarmViewSet.destroy`: only the owner may delete a farm; its
      applications go with it (on_delete=CASCADE). */
  function DestroyFarm(s: FarmState, caller: User, id: nat): (r: Reply<()>)
    requires Valid(s)
    ensures OwnerGate(s, caller, id).Err? ==> r == Reply(s, Err(OwnerGate(s, caller, id).error))
    ensures OwnerGate(s, caller, id).Ok? ==>
              && r.result.Ok?
              && r.state.farms == s.farms - {id}
              && r.state.apps.Keys == s.apps.Keys - AppsOf(s, id)
    ensures Valid(r.state)
  {
    match OwnerGate(s, caller, id)
    case Err(e) => Reply(s, Err(e))
    case Ok(_) =>
      var apps := map k | k in s.apps && s.apps[k].farm != id :: s.apps[k];
      Reply(s.(farms := s.farms - {id}, apps := apps), Ok(()))
  }

  /** `FarmSerializer.get_is_owner`: true iff there is a request and its user
      is the farm's farmer. */
  function IsOwner(f: Farm, requester: Option<nat>): (r: bool)
    ensures r <==> requester == Some(f.farmer)
  {
    match requester
    case None => false
    case Some(u) => f.farmer == u
  }

  // ---------------------------------------------------------------------
  // ApplicationSerializer.validate and ApplicationView
  // ---------------------------------------------------------------------

  /** `ApplicationSerializer.validate`: a "rejected" status needs a
      non-empty rejection reason; the error is keyed on `rejection_reason`.
      Anything else passes unchanged. */
  function ValidateApplication(status: Option<string>, reason: Option<string>)
    : (r: Result<(Option<string>, Option<string>), Error>)
    ensures r.Err? <==> status == Some("rejected") && (reason.None? || reason == Some(""))
    ensures r.Err? ==> r.error == FieldError("rejection_reason")
    ensures r.Ok? ==> r.value == (status, reason)
  {
    if status == Some("rejected") && (reason.None? || reason.value == "") then
      Err(FieldError("rejection_reason"))
    else Ok((status, reason))
  }

  datatype Listing = Many(ids: set<nat>) | One(app: Application)

  /** Python truthiness of the `pk` argument: absent or 0 is false. */
  predicate HasPk(pk: Option<nat>) {
    pk.Some? && pk.value != 0
  }

  /** `ApplicationView.get`: a status filter of exactly "pending", "approved"
      or "rejected" wins; otherwise a truthy pk selects one application (or
      404); otherwise every application is listed. */
  function ListApplications(s: FarmState, pk: Option<nat>, statusFilter: Option<string>)
    : (r: Result<Listing, Error>)
    ensures statusFilter.Some? && ParseAppStatus(statusFilter.value).Some? ==>
              r == Ok(Many(set k | k in s.apps && s.apps[k].status == ParseAppStatus(statusFilter.value).value))
    ensures (statusFilter.None? || ParseAppStatus(statusFilter.value).None?) && HasPk(pk) ==>
              r == (if pk.value in s.apps then Ok(One(s.apps[pk.value])) else Err(NotFound))
    ensures (statusFilter.None? || ParseAppStatus(statusFilter.value).None?) && !HasPk(pk) ==>
              r == Ok(Many(s.apps.Keys))
    ensures r.Err? ==> r.error == NotFound
  {
    var wanted := if statusFilter.Some? then ParseAppStatus(statusFilter.value) else None;
    match wanted
    case Some(st) => Ok(Many(set k | k in s.apps && s.apps[k].status == st))
    case None =>
      if HasPk(pk) then
        if pk.value in s.apps then Ok(One(s.apps[pk.value])) else Err(NotFound)
      else Ok(Many(s.apps.Keys))
  }

  datatype ApplicationPatch = ApplicationPatch(status: Json, reason: Json)

  /** The farm verification a status in the request implies: "approved"
      verifies, "rejected" unverifies, anything else leaves the flag. */
  function Verification(current: bool, status: Json): (r: bool)
    ensures status == Str("approved") ==> r
    ensures status == Str("rejected") ==> !r
    ensures status != Str("approved") && status != Str("rejected") ==> r == current
  {
    if status == Str("approved") then true
    else if status == Str("rejected") then false
    else current
  }

  /** The `rejection_reason` the serializer's text field yields: a string
      has its surrounding whitespace trimmed, an integer becomes its decimal
      text, null and absence give no reason. */
  function CleanReason(v: Json): (r: Option<string>)
    ensures v.Str? ==> r == Some(Strip(v.text))
    ensures v.Int? ==> r == Some(ShowInt(v.i))
    ensures r.None? <==> !v.Str? && !v.Int?
  {
    match v
    case Str(t) => Some(Strip(t))
    case Int(i) => Some(ShowInt(i))
    case _ => None
  }

  /** Whether the partial `ApplicationSerializer` accepts the patch: a
      present status must be a string naming one of the choices, a present
      reason must be text or null and hold no NUL character once trimmed,
      and `validate` must pass on the cleaned values. */
  predicate PatchValid(p: ApplicationPatch) {
    && (p.status.Missing? || (p.status.Str? && ParseAppStatus(p.status.text).Some?))
    && !p.reason.Other?
    && (p.reason.Str? ==> '\0' !in Strip(p.reason.text))
    && ValidateApplication(if p.status.Str? then Some(p.status.text) else None, CleanReason(p.reason)).Ok?
  }

  /** The application after `serializer.save()`: given fields replace the
      stored ones, absent fields keep them. */
  function ApplyPatch(a: Application, p: ApplicationPatch): (r: Application)
    requires PatchValid(p)
    ensures r.farmer == a.farmer && r.farm == a.farm
    ensures p.status.Str? ==> AppStatusValue(r.status) == p.status.text
    ensures p.status.Missing? ==> r.status == a.status
    ensures p.reason.Missing? ==> r.rejectionReason == a.rejectionReason
    ensures !p.reason.Missing? ==> r.rejectionReason == CleanReason(p.reason)
    ensures p.status == Str("rejected") ==> r.rejectionReason.Some? && r.rejectionReason.value != ""
  {
    a.(status := if p.status.Str? then ParseAppStatus(p.status.text).value else a.status,
       rejectionReason := if p.reason.Missing? then a.rejectionReason else CleanReason(p.reason))
  }

  /** The serializer checks only the fields a patch carries: a patch that
      sends just an empty reason passes and blanks the reason of an
      application that stays rejected. */
  lemma ReasonOnlyPatchBlanksReason(a: Application)
    requires a.status == Rejected
    ensures PatchValid(ApplicationPatch(Missing, Str("")))
    ensures ApplyPatch(a, ApplicationPatch(Missing, Str(""))).status == Rejected
    ensures ApplyPatch(a, ApplicationPatch(Missing, Str(""))).rejectionReason == Some("")
  {
    assert Strip("") == "";
  }

  /** The request's reason is missing or falsy while the status asks for
      rejection: the view's own early check. */
  predicate RejectWithoutReason(p: ApplicationPatch) {
    p.status == Str("rejected") && !Truthy(p.reason)
  }

  /** `ApplicationView.put`: 400 without a truthy pk, 404 for an unknown
      application, 400 with nothing changed for "rejected" without a
      reason. Otherwise the farm's verification is set from the status
      BEFORE the serializer validates, so a patch the serializer then
      refuses (400) still leaves the farm's flag changed. */
  function PutApplication(s: FarmState, pk: Option<nat>, p: ApplicationPatch): (r: Reply<Application>)
    requires Valid(s)
    ensures !HasPk(pk) ==> r == Reply(s, Err(BadRequest))
    ensures HasPk(pk) && pk.value !in s.apps ==> r == Reply(s, Err(NotFound))
    ensures RejectWithoutReason(p) ==> r.state == s && r.result.Err?
    ensures r.result.Ok? <==> HasPk(pk) && pk.value in s.apps && !RejectWithoutReason(p) && PatchValid(p)
    ensures r.result.Err? ==> r.result.error in {BadRequest, NotFound}
    ensures HasPk(pk) && pk.value in s.apps && !RejectWithoutReason(p) ==>
              var fid := s.apps[pk.value].farm;
              && r.state.farms == s.farms[fid := s.farms[fid].(isVerified := Verification(s.farms[fid].isVerified, p.status))]
              && (r.result.Ok? ==> r.state.apps == s.apps[pk.value := r.result.value]
                                   && r.result.value == ApplyPatch(s.apps[pk.value], p))
              && (r.result.Err? ==> r.state.apps == s.apps)
    ensures Valid(r.state)
  {
    if !HasPk(pk) then Reply(s, Err(BadRequest))
    else if pk.value !in s.apps then Reply(s, Err(NotFound))
    else if RejectWithoutReason(p) then Reply(s, Err(BadRequest))
    else
      var a := s.apps[pk.value];
      var f := s.farms[a.farm];
      var s1 := SaveFarm(s, a.farm, f.(isVerified := Verification(f.isVerified, p.status)));
      if PatchValid(p) then
        var a' := ApplyPatch(a, p);
        Reply(s1.(apps := s.apps[pk.value := a']), Ok(a'))
      else
        Reply(s1, Err(BadRequest))
  }

  /** A request whose status is a choice and whose reason the view accepts
      but the serializer trims to nothing: rejecting with a reason of one
      space unverifies the farm and still answers 400. */
  lemma UnverifiedDespiteRefusedPatch(s: FarmState, pk: nat)
    requires Valid(s) && pk in s.apps && pk != 0
    ensures var r := PutApplication(s, Some(pk), ApplicationPatch(Str("rejected"), Str(" ")));
            && r.result == Err(BadRequest)
            && !r.state.farms[s.apps[pk].farm].isVerified
            && r.state.apps == s.apps
  {
    var p := ApplicationPatch(Str("rejected"), Str(" "));
    BlankReasonRefused();
    RefusedAfterFlag(s, pk, p);
  }

  /** Rejecting with a reason of one space passes the view's own check and
      fails the serializer's. */
  lemma BlankReasonRefused()
    ensures var p := ApplicationPatch(Str("rejected"), Str(" "));
            !RejectWithoutReason(p) && !PatchValid(p)
  {
    var p := ApplicationPatch(Str("rejected"), Str(" "));
    assert Strip(" ") == "" by {
      StripBlank(" ");
    }
    assert CleanReason(p.reason) == Some("");
  }

  /** Once the view's own check passes, a patch the serializer refuses is
      400 with the farm's flag already changed and the application kept. */
  lemma RefusedAfterFlag(s: FarmState, pk: nat, p: ApplicationPatch)
    requires Valid(s) && pk in s.apps && pk != 0
    requires !RejectWithoutReason(p) && !PatchValid(p)
    ensures var r := PutApplication(s, Some(pk), p);
            var fid := s.apps[pk].farm;
            && r.result == Err(BadRequest)
            && r.state.farms == s.farms[fid := s.farms[fid].(isVerified := Verification(s.farms[fid].isVerified, p.status))]
            && r.state.apps == s.apps
  {
  }

  /** Approving with a reason of the wrong JSON type verifies the farm and
      still answers 400. */
  lemma VerifiedDespiteRefusedPatch(s: FarmState, pk: nat)
    requires Valid(s) && pk in s.apps && pk != 0
    ensures var r := PutApplication(s, Some(pk), ApplicationPatch(Str("approved"), Other(true)));
            && r.result == Err(BadRequest)
            && r.state.farms[s.apps[pk].farm].isVerified
  {
  }

  /** The decision the admin flow intends: the farm's flag is changed only
      together with an accepted patch, and a refused request changes
      nothing. */
  function DecideApplication(s: FarmState, pk: Option<nat>, p: ApplicationPatch): (r: Reply<Application>)
    requires Valid(s)
    ensures r.result.Err? ==> r.state == s
    ensures r.result.Ok? <==> PutApplication(s, pk, p).result.Ok?
    ensures r.result.Ok? ==> r == PutApplication(s, pk, p)
    ensures r.result.Ok? && r.result.value.status == Approved && p.status.Str? ==>
              r.state.farms[r.result.value.farm].isVerified
    ensures r.result.Ok? && r.result.value.status == Rejected && p.status.Str? ==>
              !r.state.farms[r.result.value.farm].isVerified
    ensures Valid(r.state)
  {
    var put := PutApplication(s, pk, p);
    if put.result.Ok? then put else Reply(s, put.result)
  }
}

=== FILE: market_models.dfy ===
/** The marketplace's stored records: categories, products, one basket per
    buyer with its lines, and orders with their price-snapshot items. Prices
    are exact integer cents (the source's two-decimal amounts times 100);
    stock and quantities are non-negative integers. */
module MarketModels {
  import opened Wrappers
  import Farms

  datatype OrderStatus = Pending | Processing | Completed | Cancelled

  /** The value stored in an order's `status` column. */
  function StatusValue(st: OrderStatus): string {
    match st
    case Pending => "pending"
    case Processing => "processing"
    case Completed => "completed"
    case Cancelled => "cancelled"
  }

  /** The status a stored value names, if it is one of the four. */
  function ParseStatus(v: string): (r: Option<OrderStatus>)
    ensures r.Some? ==> StatusValue(r.value) == v
    ensures forall st :: StatusValue(st) == v ==> r == Some(st)
  {
    if v == "pending" then Some(Pending)
    else if v == "processing" then Some(Processing)
    else if v == "completed" then Some(Completed)
    else if v == "cancelled" then Some(Cancelled)
    else None
  }

  /** Exactly four strings are order statuses, and they are distinct. */
  lemma FourStatusValues(v: string)
    ensures ParseStatus(v).Some? <==> v in {"pending", "processing", "completed", "cancelled"}
    ensures forall a, b :: StatusValue(a) == StatusValue(b) ==> a == b
  {
    forall a, b | StatusValue(a) == StatusValue(b) ensures a == b {
      assert ParseStatus(StatusValue(a)) == Some(a);
    }
  }

  datatype Category = Category(name: string, description: Option<string>)

  datatype Product = Product(farm: nat, category: nat, name: string, price: int, stock: nat)

  /** A basket line; the basket is identified by its buyer (one-to-one). */
  datatype BasketItem = BasketItem(buyer: nat, product: nat, quantity: nat)

  /** An order line: the product, the quantity bought and the unit price at
      the time of purchase. */
  datatype OrderItem = OrderItem(product: nat, quantity: nat, price: int)

  datatype Order = Order(buyer: nat, farm: nat, totalPrice: int, status: OrderStatus, items: seq<OrderItem>)

  /** A new order as stored before any status change: pending. */
  function NewOrder(buyer: nat, farm: nat, totalPrice: int, items: seq<OrderItem>): (o: Order)
    ensures o.status == Pending && o.buyer == buyer && o.farm == farm
  {
    Order(buyer, farm, totalPrice, Pending, items)
  }

  datatype MarketState = MarketState(
    farms: map<nat, Farms.Farm>,
    categories: map<nat, Category>,
    nextCategory: nat,
    products: map<nat, Product>,
    nextProduct: nat,
    baskets: set<nat>,
    items: map<nat, BasketItem>,
    nextItem: nat,
    orders: map<nat, Order>,
    nextOrder: nat)

  /** Ids below their counters, products in existing farms and categories,
      lines on existing products in existing baskets, and at most one line
      per product in a basket. */
  ghost predicate Valid(s: MarketState) {
    && (forall k :: k in s.categories ==> k < s.nextCategory)
    && (forall k :: k in s.products ==> k < s.nextProduct)
    && (forall k :: k in s.items ==> k < s.nextItem)
    && (forall k :: k in s.orders ==> k < s.nextOrder)
    && (forall k :: k in s.products ==> s.products[k].farm in s.farms && s.products[k].category in s.categories)
    && LinesPriced(s)
    && (forall k :: k in s.items ==> s.items[k].buyer in s.baskets)
    && (forall j, k :: j in s.items && k in s.items && j != k && s.items[j].buyer == s.items[k].buyer ==>
                       s.items[j].product != s.items[k].product)
  }

  /** Every basket line is on an existing product. */
  ghost predicate LinesPriced(s: MarketState) {
    forall k :: k in s.items ==> s.items[k].product in s.products
  }

  datatype Reply<T> = Reply(state: MarketState, result: Result<T, Error>)

  predicate Increasing(xs: seq<nat>) {
    forall i, j :: 0 <= i < j < |xs| ==> xs[i] < xs[j]
  }

  /** The buyer's lines with ids in [k, bound), ascending. */
  function LinesFrom(s: MarketState, buyer: nat, k: nat, bound: nat): (r: seq<nat>)
    ensures Increasing(r)
    ensures forall i :: 0 <= i < |r| ==> k <= r[i] < bound
    ensures forall x :: x in r <==> k <= x < bound && x in s.items && s.items[x].buyer == buyer
    ensures (forall x :: x in s.items ==> s.items[x].buyer != buyer) ==> r == []
    decreases bound - k
  {
    if k >= bound then []
    else
      var rest := LinesFrom(s, buyer, k + 1, bound);
      if k in s.items && s.items[k].buyer == buyer then [k] + rest else rest
  }

  /** `basket.items.all()`: the ids of the buyer's lines in ascending id
      order, each line once. */
  function Lines(s: MarketState, buyer: nat): (r: seq<nat>)
    requires forall k :: k in s.items ==> k < s.nextItem
    ensures Increasing(r)
    ensures forall x :: x in r <==> x in s.items && s.items[x].buyer == buyer
    ensures r == [] <==> forall x :: x in s.items ==> s.items[x].buyer != buyer
    ensures Valid(s) ==> LinesOk(s, r)
  {
    LinesFrom(s, buyer, 0, s.nextItem)
  }

  /** Every listed line exists and its product exists. */
  ghost predicate LinesOk(s: MarketState, lines: seq<nat>) {
    forall i :: 0 <= i < |lines| ==> lines[i] in s.items && s.items[lines[i]].product in s.products
  }

  /** `BasketItem.total_price`: the product's current price times the quantity. */
  function LineTotal(s: MarketState, k: nat): int
    requires k in s.items && s.items[k].product in s.products
  {
    s.products[s.items[k].product].price * s.items[k].quantity
  }

  /** `Basket.total_price`: the sum of the line totals, 0 for no lines. */
  function BasketTotal(s: MarketState, lines: seq<nat>): (t: int)
    requires LinesOk(s, lines)
    ensures |lines| == 0 ==> t == 0
    ensures |lines| == 1 ==> t == LineTotal(s, lines[0])
  {
    if |lines| == 0 then 0 else LineTotal(s, lines[0]) + BasketTotal(s, lines[1..])
  }

  /** The basket total adds up over any split of the lines. */
  lemma {:induction false} BasketTotalAppend(s: MarketState, a: seq<nat>, b: seq<nat>)
    requires LinesOk(s, a) && LinesOk(s, b)
    ensures LinesOk(s, a + b)
    ensures BasketTotal(s, a + b) == BasketTotal(s, a) + BasketTotal(s, b)
    decreases |a|
  {
    if |a| > 0 {
      assert (a + b)[1..] == a[1..] + b;
      BasketTotalAppend(s, a[1..], b);
    } else {
      assert a + b == b;
    }
  }
}

=== FILE: orders.dfy ===
/** The order endpoints after checkout: a buyer reaches only their own
    orders, and a farmer may change only the status of an order placed
    with one of their farms. */
module Orders {
  import opened Wrappers
  import opened Users
  import opened Requests
  import opened MarketModels

  /** `OrderViewSet.get_queryset`: the caller's own orders. */
  function BuyerOrders(s: MarketState, caller: User): (r: set<nat>)
    ensures forall k :: k in r <==> k in s.orders && s.orders[k].buyer == caller.id
  {
    set k | k in s.orders && s.orders[k].buyer == caller.id
  }

  /** The gate of `OrderViewSet.update` and `destroy`: `get_object` looks
      only among the caller's orders, so any other order is 404; the
      explicit buyer check after it can therefore never refuse. */
  function BuyerGate(s: MarketState, caller: User, id: nat): (r: Result<Order, Error>)
    ensures r.Ok? <==> id in s.orders && s.orders[id].buyer == caller.id
    ensures r.Err? ==> r.error == NotFound
    ensures r.Ok? ==> r.value == s.orders[id]
  {
    if id !in BuyerOrders(s, caller) then Err(NotFound)
    else if s.orders[id].buyer != caller.id then Err(Forbidden)
    else Ok(s.orders[id])
  }

  /** `OrderViewSet.destroy`: the caller's order is deleted with its items;
      anything else is 404 and changes nothing. */
  function DestroyOrder(s: MarketState, caller: User, id: nat): (r: Reply<()>)
    ensures r.result.Ok? <==> id in s.orders && s.orders[id].buyer == caller.id
    ensures r.result.Err? ==> r == Reply(s, Err(NotFound))
    ensures r.result.Ok? ==> r.state == s.(orders := s.orders - {id})
    ensures Valid(s) ==> Valid(r.state)
  {
    match BuyerGate(s, caller, id)
    case Err(e) => Reply(s, Err(e))
    case Ok(_) => Reply(s.(orders := s.orders - {id}), Ok(()))
  }

  /** `FarmerOrderViewSet.get_queryset`: orders placed with one of the
      caller's farms. */
  function FarmerOrders(s: MarketState, caller: User): (r: set<nat>)
    ensures forall k :: k in r <==> k in s.orders && s.orders[k].farm in s.farms
                                    && s.farms[s.orders[k].farm].farmer == caller.id
  {
    set k | k in s.orders && s.orders[k].farm in s.farms && s.farms[s.orders[k].farm].farmer == caller.id
  }

  /** The request body carries exactly one key, `status`, whose value is one
      of the four stored status strings. */
  predicate StatusOnly(body: map<string, Json>) {
    && body.Keys == {"status"}
    && body["status"].Str?
    && ParseStatus(body["status"].text).Some?
  }

  /** `FarmerOrderViewSet.update`. An order outside the caller's farms is
      404 (the explicit farmer check after `get_object` can never refuse);
      a body with any key but `status`, or a value that is not one of the
      four statuses, is refused with 400. Otherwise the status is stored,
      whatever it was before. Every refusal leaves the state as it was. */
  function UpdateStatus(s: MarketState, caller: User, id: nat, body: map<string, Json>): (r: Reply<OrderStatus>)
    ensures id !in FarmerOrders(s, caller) ==> r == Reply(s, Err(NotFound))
    ensures id in FarmerOrders(s, caller) && !StatusOnly(body) ==> r == Reply(s, Err(BadRequest))
    ensures r.result.Ok? <==> id in FarmerOrders(s, caller) && StatusOnly(body)
    ensures r.result.Err? ==> r.state == s
    ensures r.result.Ok? ==>
              && id in s.orders
              && StatusValue(r.result.value) == body["status"].text
              && r.state == s.(orders := s.orders[id := s.orders[id].(status := r.result.value)])
    ensures Valid(s) ==> Valid(r.state)
  {
    if id !in FarmerOrders(s, caller) then Reply(s, Err(NotFound))
    else if s.farms[s.orders[id].farm].farmer != caller.id then Reply(s, Err(Forbidden))
    else if "status" !in body || |body| != 1 then Reply(s, Err(BadRequest))
    else
      var v := body["status"];
      if !v.Str? then Reply(s, Err(BadRequest))
      else
        match ParseStatus(v.text)
        case None => Reply(s, Err(BadRequest))
        case Some(st) =>
          SingleKey(body.Keys, "status");
          Reply(s.(orders := s.orders[id := s.orders[id].(status := st)]), Ok(st))
  }

  /** `FarmerOrderViewSet.update` as the code stands: `get_queryset`
      filters on `farm__farmer`, a path `Order` does not have, so the lookup
      raises before any check and every request is a 500 that changes
      nothing. (Past it, both refusals would raise `ValidationError`, which
      the module does not import: a 500 as well.) */
  function UpdateStatusAsWritten(s: MarketState, caller: User, id: nat, body: map<string, Json>): (r: Reply<OrderStatus>)
    ensures r.state == s && r.result.Err? && r.result.error == ServerError
  {
    Reply(s, Err(ServerError))
  }

  /** The defect on a concrete request: the farmer of the order's farm
      setting a valid status is refused as written, and succeeds in the
      corrected endpoint. */
  lemma StatusRefusedAsWritten(s: MarketState, caller: User, id: nat, to: OrderStatus)
    requires id in FarmerOrders(s, caller)
    ensures UpdateStatusAsWritten(s, caller, id, map["status" := Str(StatusValue(to))]).result == Err(ServerError)
    ensures UpdateStatus(s, caller, id, map["status" := Str(StatusValue(to))]).result == Ok(to)
  {
    AnyStatusTransition(s, caller, id, to);
  }

  /** A one-element set holding `x` is `{x}`. */
  lemma SingleKey(ks: set<string>, x: string)
    requires x in ks && |ks| == 1
    ensures ks == {x}
  {
    var rest := ks - {x};
    assert ks == rest + {x};
    assert |rest| == 0;
  }

  /** There is no forward-only rule: from any status, the farmer can set
      any of the four, a completed order back to pending included. */
  lemma AnyStatusTransition(s: MarketState, caller: User, id: nat, to: OrderStatus)
    requires id in FarmerOrders(s, caller)
    ensures UpdateStatus(s, caller, id, map["status" := Str(StatusValue(to))]).result == Ok(to)
    ensures UpdateStatus(s, caller, id, map["status" := Str(StatusValue(to))]).state.orders[id].status == to
  {
    var body := map["status" := Str(StatusValue(to))];
    assert body.Keys == {"status"};
    assert ParseStatus(StatusValue(to)) == Some(to);
  }

  /** The farmer cannot touch anything but the status: a second key next to
      a valid status is refused, and the order stays as it was. */
  lemma ExtraKeyRefused(s: MarketState, caller: User, id: nat, to: OrderStatus, key: string, v: Json)
    requires id in FarmerOrders(s, caller) && key != "status"
    ensures UpdateStatus(s, caller, id, map["status" := Str(StatusValue(to)), key := v]) == Reply(s, Err(BadRequest))
  {
    var body := map["status" := Str(StatusValue(to)), key := v];
    assert key in body.Keys;
  }
}

=== FILE: py_text.dfy ===
/** The parts of Python's text builtins the backend leans on: `str.split`
    with a one-character separator, `str.strip`, `int()` of a string,
    `str()` of an integer, and `Decimal()` of a price text. */
module PyText {
  import opened Wrappers

  /** Concatenates pieces with `sep` between neighbours (Python `sep.join`). */
  function Join(parts: seq<string>, sep: char): string
    requires |parts| >= 1
  {
    if |parts| == 1 then parts[0] else parts[0] + [sep] + Join(parts[1..], sep)
  }

  /** Python's `s.split(sep)` for a one-character separator: the (possibly
      empty) pieces between separators; joining them back gives `s`. */
  function Split(s: string, sep: char): (parts: seq<string>)
    ensures |parts| >= 1
    ensures forall i :: 0 <= i < |parts| ==> sep !in parts[i]
    ensures Join(parts, sep) == s
    decreases |s|
  {
    if |s| == 0 then [""]
    else
      var rest := Split(s[1..], sep);
      if s[0] == sep then
        assert s == [sep] + s[1..];
        [""] + rest
      else
        var parts := [[s[0]] + rest[0]] + rest[1..];
        assert parts[1..] == rest[1..];
        assert s == [s[0]] + s[1..];
        parts
  }

  /** Splitting a prefix free of separators only extends the first piece. */
  lemma {:induction false} SplitPrefix(p: string, t: string, sep: char)
    requires sep !in p
    ensures Split(p + t, sep) == [p + Split(t, sep)[0]] + Split(t, sep)[1..]
    decreases |p|
  {
    if |p| > 0 {
      assert (p + t)[1..] == p[1..] + t;
      assert sep !in p[1..] by {
        forall i | 0 <= i < |p[1..]| ensures p[1..][i] != sep {
          assert p[1..][i] == p[i + 1];
        }
      }
      SplitPrefix(p[1..], t, sep);
      assert [p[0]] + (p[1..] + Split(t, sep)[0]) == p + Split(t, sep)[0];
    } else {
      assert p + t == t;
      assert p + Split(t, sep)[0] == Split(t, sep)[0];
      assert [Split(t, sep)[0]] + Split(t, sep)[1..] == Split(t, sep);
    }
  }

  /** `split` undoes `join` when no piece contains the separator. */
  lemma {:induction false} SplitJoin(parts: seq<string>, sep: char)
    requires |parts| >= 1
    requires forall i :: 0 <= i < |parts| ==> sep !in parts[i]
    ensures Split(Join(parts, sep), sep) == parts
    decreases |parts|
  {
    if |parts| == 1 {
      SplitPrefix(parts[0], "", sep);
      assert parts[0] + "" == parts[0];
    } else {
      var rest := Join(parts[1..], sep);
      SplitJoin(parts[1..], sep);
      assert parts[0] + [sep] + rest == parts[0] + ([sep] + rest);
      SplitPrefix(parts[0], [sep] + rest, sep);
      assert ([sep] + rest)[1..] == rest;
      assert Split([sep] + rest, sep) == [""] + parts[1..];
      assert parts[0] + "" == parts[0];
      assert [parts[0]] + parts[1..] == parts;
    }
  }

  // ---------------------------------------------------------------------
  // Python int(): surrounding whitespace, an optional sign, and decimal
  // digits in groups separated by single underscores.
  // ---------------------------------------------------------------------

  /** The ASCII and Latin-1 characters Python's `str.isspace` accepts. */
  predicate IsSpace(c: char) {
    var k := c as int;
    k == 32 || 9 <= k <= 13 || 28 <= k <= 31 || k == 0x85 || k == 0xA0
  }

  predicate IsDigit(c: char) { '0' <= c <= '9' }

  function TrimStart(s: string): (r: string)
    ensures |r| <= |s| && r == s[|s| - |r|..]
    ensures forall k :: 0 <= k < |s| - |r| ==> IsSpace(s[k])
    ensures |r| > 0 ==> !IsSpace(r[0])
    ensures |s| > 0 && !IsSpace(s[0]) ==> r == s
  {
    if |s| > 0 && IsSpace(s[0]) then
      var r := TrimStart(s[1..]);
      assert forall k :: 1 <= k < |s| - |r| ==> s[k] == s[1..][k - 1];
      r
    else s
  }

  function TrimEnd(s: string): (r: string)
    ensures |r| <= |s| && r == s[..|r|]
    ensures forall k :: |r| <= k < |s| ==> IsSpace(s[k])
    ensures |r| > 0 ==> !IsSpace(r[|r| - 1])
    ensures |s| > 0 && !IsSpace(s[|s| - 1]) ==> r == s
  {
    if |s| > 0 && IsSpace(s[|s| - 1]) then
      var r := TrimEnd(s[..|s| - 1]);
      assert forall k :: |r| <= k < |s| - 1 ==> s[k] == s[..|s| - 1][k];
      r
    else s
  }

  /** Python's `s.strip()`: the piece of `s` left after dropping whitespace
      from both ends. Neither end of the result is whitespace, and every
      character dropped is. */
  function Strip(s: string): (r: string)
    ensures |r| > 0 ==> !IsSpace(r[0]) && !IsSpace(r[|r| - 1])
    ensures exists i, j :: StrippedAt(s, r, i, j)
  {
    var t := TrimStart(s);
    var r := TrimEnd(t);
    TrimmedAt(s, t, r);
    assert StrippedAt(s, r, |s| - |t|, |s| - |t| + |r|);
    r
  }

  /** Trimming the start and then the end leaves the piece of `s` between
      the two runs of whitespace. */
  lemma TrimmedAt(s: string, t: string, r: string)
    requires |t| <= |s| && t == s[|s| - |t|..]
    requires forall k :: 0 <= k < |s| - |t| ==> IsSpace(s[k])
    requires |r| <= |t| && r == t[..|r|]
    requires forall k :: |r| <= k < |t| ==> IsSpace(t[k])
    ensures StrippedAt(s, r, |s| - |t|, |s| - |t| + |r|)
  {
    var i := |s| - |t|;
    assert r == s[i..i + |r|] by {
      assert t == s[i..] && r == t[..|r|];
      assert s[i..][..|r|] == s[i..i + |r|];
    }
    forall k | i + |r| <= k < |s| ensures IsSpace(s[k]) {
      assert s[k] == t[k - i];
    }
  }

  /** `r` is `s[i..j]`, and everything of `s` outside it is whitespace. */
  predicate StrippedAt(s: string, r: string, i: int, j: int) {
    && 0 <= i <= j <= |s|
    && r == s[i..j]
    && (forall k :: 0 <= k < i ==> IsSpace(s[k]))
    && (forall k :: j <= k < |s| ==> IsSpace(s[k]))
  }

  /** The result of `strip()` is determined: any piece of `s` with
      whitespace only outside it and no whitespace at its ends is it. */
  lemma {:induction false} StripUnique(s: string, r: string, i: int, j: int)
    requires StrippedAt(s, r, i, j)
    requires |r| > 0 ==> !IsSpace(r[0]) && !IsSpace(r[|r| - 1])
    ensures Strip(s) == r
  {
    var r' := Strip(s);
    var i', j' :| StrippedAt(s, r', i', j');
    if |r| > 0 && |r'| > 0 {
      assert !IsSpace(s[i]) && !IsSpace(s[i']) && !IsSpace(s[j - 1]) && !IsSpace(s[j' - 1]);
      assert i == i' && j == j';
    }
  }

  /** A text of whitespace only strips to nothing. */
  lemma StripBlank(s: string)
    requires forall k :: 0 <= k < |s| ==> IsSpace(s[k])
    ensures Strip(s) == ""
  {
    StripUnique(s, "", 0, 0);
  }

  /** Stripping twice is stripping once. */
  lemma StripIdempotent(s: string)
    ensures Strip(Strip(s)) == Strip(s)
  {
    var r := Strip(s);
    StripUnique(r, r, 0, |r|);
  }

  /** Digits in non-empty groups separated by single underscores. */
  predicate DigitGroups(t: string) {
    && |t| > 0
    && IsDigit(t[0])
    && IsDigit(t[|t| - 1])
    && (forall i :: 0 <= i < |t| ==> IsDigit(t[i]) || t[i] == '_')
    && (forall i :: 0 <= i < |t| - 1 && t[i] == '_' ==> t[i + 1] != '_')
  }

  function DropUnderscores(t: string): (r: string)
    ensures (forall i :: 0 <= i < |t| ==> IsDigit(t[i]) || t[i] == '_') ==>
              forall i :: 0 <= i < |r| ==> IsDigit(r[i])
    ensures (forall i :: 0 <= i < |t| ==> IsDigit(t[i])) ==> r == t
  {
    if |t| == 0 then ""
    else if t[0] == '_' then DropUnderscores(t[1..])
    else [t[0]] + DropUnderscores(t[1..])
  }

  /** The number a string of decimal digits denotes. */
  function Value(ds: string): nat
    requires forall i :: 0 <= i < |ds| ==> IsDigit(ds[i])
  {
    if |ds| == 0 then 0
    else
      assert IsDigit(ds[|ds| - 1]);
      Value(ds[..|ds| - 1]) * 10 + (ds[|ds| - 1] as int - '0' as int)
  }

  function ParseDigits(t: string): Option<nat> {
    if DigitGroups(t) then Some(Value(DropUnderscores(t))) else None
  }

  /** Python's `int(s)`. A string without '-' never denotes a negative number. */
  function ParseInt(s: string): (r: Option<int>)
    ensures '-' !in s && r.Some? ==> r.value >= 0
  {
    ParseSigned(Strip(s))
  }

  /** `int()` once the surrounding whitespace is gone: an optional sign,
      then digit groups. */
  function ParseSigned(t: string): (r: Option<int>)
    ensures '-' !in t && r.Some? ==> r.value >= 0
  {
    if |t| > 0 && (t[0] == '+' || t[0] == '-') then
      match ParseDigits(t[1..])
      case None => None
      case Some(n) => if t[0] == '-' then Some(0 - n as int) else Some(n as int)
    else
      match ParseDigits(t)
      case None => None
      case Some(n) => Some(n)
  }

  /** Python's `str(n)` for a non-negative integer: decimal, no leading zeros.
      Reading the digits back gives `n`. */
  function ShowNat(n: nat): (r: string)
    ensures |r| > 0
    ensures forall i :: 0 <= i < |r| ==> IsDigit(r[i])
    ensures Value(r) == n
  {
    var d := ['0' + (n % 10) as char];
    if n < 10 then d
    else
      var r := ShowNat(n / 10) + d;
      assert r[..|r| - 1] == ShowNat(n / 10);
      r
  }

  /** `int()` reads a non-empty run of plain digits as its value. */
  lemma DigitsInt(ds: string)
    requires |ds| > 0 && forall i :: 0 <= i < |ds| ==> IsDigit(ds[i])
    ensures ParseInt(ds) == Some(Value(ds) as int)
  {
    DigitsSigned(ds);
    DigitsStripped(ds);
  }

  /** Without a sign, the digits are read as they stand. */
  lemma DigitsSigned(ds: string)
    requires |ds| > 0 && forall i :: 0 <= i < |ds| ==> IsDigit(ds[i])
    ensures ParseSigned(ds) == Some(Value(ds) as int)
  {
    assert IsDigit(ds[0]);
    DigitsParse(ds);
  }

  /** A non-empty run of plain digits is one digit group. */
  lemma DigitsParse(ds: string)
    requires |ds| > 0 && forall i :: 0 <= i < |ds| ==> IsDigit(ds[i])
    ensures ParseDigits(ds) == Some(Value(ds))
  {
    DigitsGroup(ds);
  }

  lemma DigitsStripped(ds: string)
    requires |ds| > 0 && forall i :: 0 <= i < |ds| ==> IsDigit(ds[i])
    ensures Strip(ds) == ds
  {
    assert !IsSpace(ds[0]) by { assert IsDigit(ds[0]); }
    assert !IsSpace(ds[|ds| - 1]) by { assert IsDigit(ds[|ds| - 1]); }
    assert TrimStart(ds) == ds;
    assert TrimEnd(ds) == ds;
  }

  lemma DigitsGroup(ds: string)
    requires |ds| > 0 && forall i :: 0 <= i < |ds| ==> IsDigit(ds[i])
    ensures DigitGroups(ds) && DropUnderscores(ds) == ds
  {
  }

  /** A character that is not a digit never occurs in a run of digits. */
  lemma NotInDigits(ds: string, c: char)
    requires !IsDigit(c) && forall i :: 0 <= i < |ds| ==> IsDigit(ds[i])
    ensures c !in ds
  {
  }

  /** `int(str(n)) == n` for every non-negative n. */
  lemma ParseShow(n: nat)
    ensures ParseInt(ShowNat(n)) == Some(n)
  {
    DigitsInt(ShowNat(n));
  }

  /** Python's `str(i)` for any integer: a '-' before the digits of a
      negative number. */
  function ShowInt(i: int): (r: string)
    ensures |r| > 0
    ensures i >= 0 ==> r == ShowNat(i)
    ensures i < 0 ==> r == "-" + ShowNat(-i)
  {
    if i >= 0 then ShowNat(i) else "-" + ShowNat(-i)
  }

  /** `str(i)` has no surrounding whitespace, so `strip()` keeps it. */
  lemma ShowIntStripped(i: int)
    ensures Strip(ShowInt(i)) == ShowInt(i)
  {
    if i >= 0 {
      DigitsStripped(ShowNat(i));
    } else {
      var ds := ShowNat(-i);
      assert !IsSpace(ds[|ds| - 1]) by { assert IsDigit(ds[|ds| - 1]); }
      MinusStripped(ds);
    }
  }

  /** `int(str(i)) == i` for every integer. */
  lemma ParseShowInt(i: int)
    ensures ParseInt(ShowInt(i)) == Some(i)
  {
    if i >= 0 {
      ParseShow(i);
    } else {
      ParseShowBelowZero(i);
    }
  }

  /** `int(str(i)) == i` for a negative i. */
  lemma ParseShowBelowZero(i: int)
    requires i < 0
    ensures ParseInt(ShowInt(i)) == Some(i)
  {
    var n: nat := -i;
    var ds := ShowNat(n);
    assert ShowInt(i) == "-" + ds;
    ParseShowNegative(n);
  }

  /** `int("-" + str(n)) == -n`. */
  lemma ParseShowNegative(n: nat)
    ensures ParseInt("-" + ShowNat(n)) == Some(-(n as int))
  {
    var ds := ShowNat(n);
    DigitsParse(ds);
    assert IsDigit(ds[|ds| - 1]);
    SignedParse(ds, n);
  }

  /** `int("-" + ds)` is minus what the digit groups `ds` denote. */
  lemma SignedParse(ds: string, n: nat)
    requires ParseDigits(ds) == Some(n) && !IsSpace(ds[|ds| - 1])
    ensures ParseInt("-" + ds) == Some(-(n as int))
  {
    MinusOf(ds, n);
    MinusStripped(ds);
  }

  /** A '-' before digit groups denoting `n` reads as `-n`. */
  lemma MinusOf(ds: string, n: nat)
    requires ParseDigits(ds) == Some(n)
    ensures ParseSigned("-" + ds) == Some(-(n as int))
  {
    var s := "-" + ds;
    assert s[0] == '-' && s[1..] == ds;
  }

  lemma MinusStripped(ds: string)
    requires |ds| > 0 && !IsSpace(ds[|ds| - 1])
    ensures Strip("-" + ds) == "-" + ds
  {
    var s := "-" + ds;
    assert !IsSpace(s[0]) && s[|s| - 1] == ds[|ds| - 1];
    assert TrimStart(s) == s;
    assert TrimEnd(s) == s;
  }

  // ---------------------------------------------------------------------
  // Python Decimal(): a plain numeral with at most two fraction digits,
  // counted in hundredths.
  // ---------------------------------------------------------------------

  /** Python's `Decimal(t)` in hundredths, for a numeral with at most two
      fraction digits: an optional sign, then digit groups, then perhaps a
      '.' and up to two digits. Either side of the '.' may be empty, not
      both. Any other text is `None`. */
  function ParseCents(t: string): (r: Option<int>)
    ensures '-' !in t && r.Some? ==> r.value >= 0
  {
    if |t| > 0 && (t[0] == '+' || t[0] == '-') then
      match UnsignedCents(t[1..])
      case None => None
      case Some(c) => if t[0] == '-' then Some(0 - c as int) else Some(c as int)
    else
      match UnsignedCents(t)
      case None => None
      case Some(c) => Some(c as int)
  }

  /** A numeral without its sign, in hundredths. */
  function UnsignedCents(t: string): (r: Option<nat>)
    ensures '.' !in t ==> r == (if ParseDigits(t).Some? then Some(ParseDigits(t).value * 100) else None)
  {
    var parts := Split(t, '.');
    if |parts| == 1 then
      assert t == parts[0];
      if ParseDigits(t).Some? then Some(ParseDigits(t).value * 100) else None
    else if |parts| > 2 || |parts[1]| > 2 || (parts[0] == "" && parts[1] == "") then None
    else if exists k :: 0 <= k < |parts[1]| && !IsDigit(parts[1][k]) then None
    else if parts[0] == "" then Some(Hundredths(parts[1]))
    else if ParseDigits(parts[0]).None? then None
    else Some(ParseDigits(parts[0]).value * 100 + Hundredths(parts[1]))
  }

  /** Up to two fraction digits as hundredths: "5" is 50, "05" is 5. */
  function Hundredths(f: string): (r: nat)
    requires |f| <= 2 && forall k :: 0 <= k < |f| ==> IsDigit(f[k])
    ensures r < 100
  {
    if |f| == 0 then 0
    else
      assert IsDigit(f[0]);
      (f[0] as int - '0' as int) * 10 + if |f| == 1 then 0 else assert IsDigit(f[1]); f[1] as int - '0' as int
  }

  /** `str(Decimal(c) / 100)` for a non-negative amount kept with two
      places: the whole part, a '.', and exactly two fraction digits. */
  function ShowCents(c: nat): (r: string)
    ensures '-' !in r && |r| > 3 && r[|r| - 3] == '.'
  {
    NotInDigits(ShowNat(c / 100), '-');
    ShowNat(c / 100) + "." + [Digit(c / 10 % 10), Digit(c % 10)]
  }

  function Digit(d: nat): (r: char)
    requires d < 10
    ensures IsDigit(r) && r as int - '0' as int == d
  {
    '0' + d as char
  }

  /** `Decimal(str(x))` gives back `x`: reading a shown amount returns it. */
  lemma ParseShowCents(c: nat)
    ensures ParseCents(ShowCents(c)) == Some(c)
  {
    var w := ShowNat(c / 100);
    UnsignedShowCents(c);
    assert ShowCents(c)[0] == w[0] && IsDigit(w[0]);
  }

  /** Without a sign, a shown amount reads back as itself. */
  lemma UnsignedShowCents(c: nat)
    ensures UnsignedCents(ShowCents(c)) == Some(c)
  {
    var w := ShowNat(c / 100);
    var f := [Digit(c / 10 % 10), Digit(c % 10)];
    SplitCents(c);
    DigitsParse(w);
    UnsignedOfParts(ShowCents(c), w, f, c / 100);
    CentsParts(c);
    TwoDigits(c % 100);
    assert f == [Digit(c % 100 / 10), Digit(c % 100 % 10)];
  }

  /** The whole part and the two fraction digits make up the amount. */
  lemma CentsParts(c: nat)
    ensures c / 10 % 10 == c % 100 / 10 && c % 10 == c % 100 % 10
    ensures c / 100 * 100 + c % 100 == c
  {
    var a, b := c / 100, c % 100;
    DivTen(b, b / 10, b % 10);
    DivTen(c, 10 * a + b / 10, b % 10);
  }

  lemma DivTen(x: nat, q: nat, r: nat)
    requires x == 10 * q + r && r < 10
    ensures x / 10 == q && x % 10 == r
  {
  }

  /** A numeral whose '.' splits it into whole digit groups denoting `n`
      and two fraction digits is `n` units and those hundredths. */
  lemma UnsignedOfParts(t: string, w: string, f: string, n: nat)
    requires Split(t, '.') == [w, f]
    requires w != "" && ParseDigits(w) == Some(n)
    requires |f| == 2 && IsDigit(f[0]) && IsDigit(f[1])
    ensures UnsignedCents(t) == Some(n * 100 + Hundredths(f))
  {
    assert forall k :: 0 <= k < |f| ==> IsDigit(f[k]);
  }

  /** A shown amount splits at its '.' into the whole digits and the two
      fraction digits. */
  lemma SplitCents(c: nat)
    ensures Split(ShowCents(c), '.') == [ShowNat(c / 100), [Digit(c / 10 % 10), Digit(c % 10)]]
  {
    var w := ShowNat(c / 100);
    var f := [Digit(c / 10 % 10), Digit(c % 10)];
    NotInDigits(w, '.');
    assert '.' !in f;
    assert [w, f][1..] == [f];
    assert Join([w, f], '.') == ShowCents(c);
    SplitJoin([w, f], '.');
  }

  /** Two fraction digits denote the hundredths they spell. */
  lemma TwoDigits(d: nat)
    requires d < 100
    ensures Hundredths([Digit(d / 10), Digit(d % 10)]) == d
  {
  }

  /** `Decimal(str(i))` is `i` whole units, for every integer. */
  lemma ParseShowIntCents(i: int)
    ensures ParseCents(ShowInt(i)) == Some(i * 100)
  {
    var n: nat := if i >= 0 then i else -i;
    var ds := ShowNat(n);
    NotInDigits(ds, '.');
    DigitsParse(ds);
    DigitsCents(ds, n);
    if i < 0 {
      var s := "-" + ds;
      assert s[0] == '-' && s[1..] == ds;
    }
  }

  /** Plain digits with no '.' denote whole units. */
  lemma DigitsCents(ds: string, n: nat)
    requires '.' !in ds && ParseDigits(ds) == Some(n) && |ds| > 0 && IsDigit(ds[0])
    ensures UnsignedCents(ds) == Some(n * 100)
    ensures ParseCents(ds) == Some(n * 100)
  {
  }
}

=== FILE: requests.dfy ===
/** The values a request body carries, as the views see them after JSON
    decoding, the two Python operations the views apply to them
    (truthiness, `if not value`, and `int(value)`), and the way DRF's
    serializer fields read them. */
module Requests {
  import opened Wrappers
  import opened PyText

  /** A key's value: missing from the body, JSON null, an integer, a string,
      or any other JSON value (a list, an object, a float or a boolean),
      kept only with its truthiness. */
  datatype Json = Missing | Null | Int(i: int) | Str(text: string) | Other(truthy: bool)

  /** Python truthiness of the value `dict.get` returns. */
  predicate Truthy(v: Json) {
    match v
    case Missing => false
    case Null => false
    case Int(i) => i != 0
    case Str(t) => t != ""
    case Other(b) => b
  }

  /** Python's `int(v)`: integers pass through, strings are parsed, and
      anything else raises (None, a list or an object). */
  function PyInt(v: Json): (r: Option<int>)
    ensures v.Int? ==> r == Some(v.i)
    ensures v.Str? ==> r == ParseInt(v.text)
    ensures !v.Int? && !v.Str? ==> r.None?
  {
    match v
    case Int(i) => Some(i)
    case Str(t) => ParseInt(t)
    case _ => None
  }

  /** A text field of a DRF serializer built from a required model
      `CharField` or `TextField`: it may be neither null nor blank, a string
      is trimmed and may not hold a NUL character afterwards, and an integer
      becomes its decimal text. A missing key is skipped (`None`) in a
      partial update and refused otherwise. Every refusal is a 400. */
  function CharInput(v: Json, partial: bool): (r: Result<Option<string>, Error>)
    ensures r.Err? ==> r.error == BadRequest
    ensures r.Ok? && r.value.Some? ==> r.value.value != ""
    ensures r == Ok(None) <==> v.Missing? && partial
    ensures v.Missing? && !partial ==> r.Err?
    ensures v.Null? || v.Other? ==> r.Err?
    ensures v.Str? ==> (r.Ok? <==> Strip(v.text) != "" && '\0' !in Strip(v.text))
                       && (r.Ok? ==> r.value == Some(Strip(v.text)))
    ensures r.Ok? && r.value.Some? ==> '\0' !in r.value.value
    ensures v.Int? ==> r == Ok(Some(ShowInt(v.i)))
  {
    match v
    case Missing => if partial then Ok(None) else Err(BadRequest)
    case Str(t) => if Strip(t) == "" || '\0' in Strip(t) then Err(BadRequest) else Ok(Some(Strip(t)))
    case Int(i) =>
      assert '\0' !in ShowInt(i) by { NoNulInShowInt(i); }
      Ok(Some(ShowInt(i)))
    case _ => Err(BadRequest)
  }

  /** The decimal text of an integer holds digits and perhaps a minus sign,
      never a NUL character. */
  lemma NoNulInShowInt(i: int)
    ensures '\0' !in ShowInt(i)
  {
    var d := ShowNat(if i >= 0 then i else -i);
    assert forall k :: 0 <= k < |d| ==> d[k] != '\0' by {
      forall k | 0 <= k < |d| ensures d[k] != '\0' { assert IsDigit(d[k]); }
    }
  }

  /** Sending a number as its decimal text, with or without surrounding
      whitespace, fills a text field exactly as sending the number does. */
  lemma CharInputOfText(i: int, pad: string, partial: bool)
    requires forall k :: 0 <= k < |pad| ==> IsSpace(pad[k])
    ensures CharInput(Str(pad + ShowInt(i) + pad), partial) == CharInput(Int(i), partial)
  {
    ShowIntStripped(i);
    StripPadded(ShowInt(i), pad);
    NoNulInShowInt(i);
  }

  /** Sending a number as its decimal text reads back as the same number. */
  lemma PyIntOfText(i: int)
    ensures PyInt(Str(ShowInt(i))) == PyInt(Int(i))
  {
    ParseShowInt(i);
  }

  /** The trailing zeros of `t` dropped. */
  function DropZeros(t: string): (r: string)
    ensures |r| <= |t| && r == t[..|r|]
    ensures |r| == 0 || r[|r| - 1] != '0'
    ensures forall k :: |r| <= k < |t| ==> t[k] == '0'
  {
    if |t| > 0 && t[|t| - 1] == '0' then
      var r := DropZeros(t[..|t| - 1]);
      assert forall k :: |r| <= k < |t| - 1 ==> t[k] == t[..|t| - 1][k];
      r
    else t
  }

  /** DRF's `re.sub(r'\.0*\s*$', '', t)` before `int()`: a '.' followed by
      nothing but zeros and then whitespace is dropped together with them,
      and any other text is left as it is. */
  function DropZeroFraction(t: string): (r: string)
    ensures r == t || (|r| < |t| && r == t[..|r|] && t[|r|] == '.')
  {
    var u := DropZeros(TrimEnd(t));
    if |u| > 0 && u[|u| - 1] == '.' then u[..|u| - 1] else t
  }

  /** A required `PositiveIntegerField` as a DRF serializer reads it: an
      integer as it is, a string through `int()` once a zero fraction is
      dropped (so "5", " 5 " and "5.00" are all 5), and then the bound at
      zero. Null, any other value, a text `int()` refuses and a negative
      number are 400; a missing key is skipped (`None`) in a partial update
      and refused otherwise. */
  function NatInput(v: Json, partial: bool): (r: Result<Option<nat>, Error>)
    ensures r.Err? ==> r.error == BadRequest
    ensures r == Ok(None) <==> v.Missing? && partial
    ensures (v.Missing? && !partial) || v.Null? || v.Other? ==> r.Err?
    ensures v.Int? ==> r == if v.i >= 0 then Ok(Some(v.i)) else Err(BadRequest)
    ensures v.Str? ==> (r.Ok? <==> ParseInt(DropZeroFraction(v.text)).Some?
                                   && ParseInt(DropZeroFraction(v.text)).value >= 0)
    ensures v.Str? && r.Ok? ==> r.value == Some(ParseInt(DropZeroFraction(v.text)).value)
  {
    match v
    case Missing => if partial then Ok(None) else Err(BadRequest)
    case Int(i) => if i >= 0 then Ok(Some(i)) else Err(BadRequest)
    case Str(t) =>
      var n := ParseInt(DropZeroFraction(t));
      if n.None? || n.value < 0 then Err(BadRequest) else Ok(Some(n.value))
    case _ => Err(BadRequest)
  }

  /** `decimal_places=2` with `max_digits=10` leaves eight whole digits:
      amounts in hundredths stay strictly between these bounds. */
  const PriceBound: int := 10_000_000_000

  /** A required `DecimalField(max_digits=10, decimal_places=2)` as a DRF
      serializer reads it, in hundredths: an integer is that many units, a
      string is read by `Decimal()` once trimmed, and the amount must fit
      in eight whole digits. Null, any other value, a text that is no
      numeral or has a third fraction digit, and an amount too large are
      400; a missing key is skipped (`None`) in a partial update and
      refused otherwise. */
  function PriceInput(v: Json, partial: bool): (r: Result<Option<int>, Error>)
    ensures r.Err? ==> r.error == BadRequest
    ensures r == Ok(None) <==> v.Missing? && partial
    ensures (v.Missing? && !partial) || v.Null? || v.Other? ==> r.Err?
    ensures r.Ok? && r.value.Some? ==> -PriceBound < r.value.value < PriceBound
    ensures v.Int? ==> r == if -PriceBound < v.i * 100 < PriceBound then Ok(Some(v.i * 100)) else Err(BadRequest)
    ensures v.Str? ==> (r.Ok? <==> ParseCents(Strip(v.text)).Some?
                                   && -PriceBound < ParseCents(Strip(v.text)).value < PriceBound)
    ensures v.Str? && r.Ok? ==> r.value == Some(ParseCents(Strip(v.text)).value)
  {
    match v
    case Missing => if partial then Ok(None) else Err(BadRequest)
    case Int(i) => Bounded(Some(i * 100))
    case Str(t) => Bounded(ParseCents(Strip(t)))
    case _ => Err(BadRequest)
  }

  function Bounded(c: Option<int>): (r: Result<Option<int>, Error>)
    ensures r.Ok? <==> c.Some? && -PriceBound < c.value < PriceBound
    ensures r.Ok? ==> r.value == c
    ensures r.Err? ==> r.error == BadRequest
  {
    if c.Some? && -PriceBound < c.value < PriceBound then Ok(c) else Err(BadRequest)
  }

  /** Sending an amount as its decimal text, with or without surrounding
      whitespace, gives the same price as sending the number. */
  lemma PriceOfText(i: int, pad: string, partial: bool)
    requires forall k :: 0 <= k < |pad| ==> IsSpace(pad[k])
    ensures PriceInput(Str(pad + ShowInt(i) + pad), partial) == PriceInput(Int(i), partial)
  {
    ShowIntStripped(i);
    StripPadded(ShowInt(i), pad);
    ParseShowIntCents(i);
  }

  /** A price shown with two places reads back as the same amount. */
  lemma PriceShown(c: nat, partial: bool)
    requires c < PriceBound
    ensures PriceInput(Str(ShowCents(c)), partial) == Ok(Some(c))
  {
    ShowCentsStripped(c);
    ParseShowCents(c);
  }

  /** A shown amount starts and ends with a digit, so `strip()` keeps it. */
  lemma ShowCentsStripped(c: nat)
    ensures Strip(ShowCents(c)) == ShowCents(c)
  {
    var s := ShowCents(c);
    var w := ShowNat(c / 100);
    assert s[0] == w[0] && IsDigit(w[0]);
    assert IsDigit(s[|s| - 1]);
    StripPadded(s, "");
    assert "" + s + "" == s;
  }

  /** Sending a whole number as its decimal text, with or without a
      zero fraction and trailing whitespace, gives the same stock as
      sending the number. */
  lemma NatOfText(i: int, zeros: nat, pad: string, partial: bool)
    requires forall k :: 0 <= k < |pad| ==> IsSpace(pad[k])
    ensures NatInput(Str(ShowInt(i)), partial) == NatInput(Int(i), partial)
    ensures NatInput(Str(ShowInt(i) + "." + Zeros(zeros) + pad), partial) == NatInput(Int(i), partial)
  {
    ParseShowInt(i);
    PlainKept(i);
    NatOfReadable(Str(ShowInt(i)), i, partial);
    DottedDropped(i, zeros, pad);
    NatOfReadable(Str(ShowInt(i) + "." + Zeros(zeros) + pad), i, partial);
  }

  /** A text that `int()` reads as `i` once its zero fraction is dropped
      fills the field as `i` itself does. */
  lemma NatOfReadable(v: Json, i: int, partial: bool)
    requires v.Str? && ParseInt(DropZeroFraction(v.text)) == Some(i)
    ensures NatInput(v, partial) == NatInput(Int(i), partial)
  {
  }

  function Zeros(n: nat): (r: string)
    ensures |r| == n && forall k :: 0 <= k < n ==> r[k] == '0'
  {
    seq(n, _ => '0')
  }

  /** A number's decimal text has no zero fraction to drop. */
  lemma PlainKept(i: int)
    ensures DropZeroFraction(ShowInt(i)) == ShowInt(i)
  {
    var t := ShowInt(i);
    var d := ShowNat(if i >= 0 then i else -i);
    NotInDigits(d, '.');
    assert IsDigit(t[|t| - 1]) by { assert t[|t| - 1] == d[|d| - 1]; }
    assert '.' !in t;
  }

  /** A '.', zeros and whitespace after a number's text are dropped. */
  lemma DottedDropped(i: int, zeros: nat, pad: string)
    requires forall k :: 0 <= k < |pad| ==> IsSpace(pad[k])
    ensures DropZeroFraction(ShowInt(i) + "." + Zeros(zeros) + pad) == ShowInt(i)
  {
    var x := ShowInt(i) + ".";
    var y := x + Zeros(zeros);
    TrimEndPadded(y, pad);
    ZerosDropped(x, zeros);
  }

  lemma TrimEndPadded(y: string, pad: string)
    requires |y| > 0 && !IsSpace(y[|y| - 1])
    requires forall k :: 0 <= k < |pad| ==> IsSpace(pad[k])
    ensures TrimEnd(y + pad) == y
  {
    var s := y + pad;
    assert s[..|y|] == y;
    assert forall k :: |y| <= k < |s| ==> s[k] == pad[k - |y|];
    assert !IsSpace(s[|y| - 1]);
  }

  lemma {:induction false} ZerosDropped(x: string, zeros: nat)
    requires |x| > 0 && x[|x| - 1] == '.'
    ensures DropZeros(x + Zeros(zeros)) == x
    decreases zeros
  {
    if zeros == 0 {
      assert x + Zeros(0) == x;
    } else {
      var s := x + Zeros(zeros);
      assert s[..|s| - 1] == x + Zeros(zeros - 1);
      ZerosDropped(x, zeros - 1);
    }
  }

  /** Whitespace around a text with no whitespace at its ends is what
      `strip()` removes. */
  lemma StripPadded(d: string, pad: string)
    requires |d| > 0 && !IsSpace(d[0]) && !IsSpace(d[|d| - 1])
    requires forall k :: 0 <= k < |pad| ==> IsSpace(pad[k])
    ensures Strip(pad + d + pad) == d
  {
    var s := pad + d + pad;
    assert StrippedAt(s, d, |pad|, |pad| + |d|) by {
      assert s[|pad|..|pad| + |d|] == d;
      forall k | |pad| + |d| <= k < |s| ensures IsSpace(s[k]) {
        assert s[k] == pad[k - |pad| - |d|];
      }
      forall k | 0 <= k < |pad| ensures IsSpace(s[k]) {
        assert s[k] == pad[k];
      }
    }
    StripUnique(s, d, |pad|, |pad| + |d|);
  }
}

=== FILE: room_names.dfy ===
/** Two-party chat room addressing: a room label is "<id>-<id>", the two
    user ids may come in either order, and the canonical room name puts the
    smaller id first. */
module RoomNames {
  import opened Wrappers
  import opened PyText

  const Separator: char := '-'

  /** A label of exactly two separator-free pieces splits back into them. */
  lemma SplitTwo(x: string, y: string)
    requires Separator !in x && Separator !in y
    ensures Split(x + [Separator] + y, Separator) == [x, y]
  {
    var parts := [x, y];
    assert parts[1..] == [y];
    assert Join(parts, Separator) == x + [Separator] + y;
    SplitJoin(parts, Separator);
  }

  /** The two ids a label names, in the order written: `split("-")` must
      give exactly two pieces and both must pass `int()`. */
  function Participants(name: string): (r: Option<(nat, nat)>)
    ensures r.Some? <==>
              |Split(name, Separator)| == 2
              && ParseInt(Split(name, Separator)[0]).Some?
              && ParseInt(Split(name, Separator)[1]).Some?
  {
    var parts := Split(name, Separator);
    if |parts| != 2 then None
    else
      match (ParseInt(parts[0]), ParseInt(parts[1]))
      case (Some(a), Some(b)) => Some((a, b))
      case _ => None
  }

  /** The canonical room name of two users: "min-max". */
  function Key(a: nat, b: nat): string {
    if a <= b then Decimal(a, b) else Decimal(b, a)
  }

  /** `ChatConsumer.format_room_name`: None for a malformed label, else the
      canonical name of the two ids it names. */
  function FormatRoomName(name: string): (r: Option<string>)
    ensures r.None? <==> Participants(name).None?
  {
    match Participants(name)
    case None => None
    case Some((a, b)) => Some(Key(a, b))
  }

  /** A canonical name reads back as its two ids, smaller first. */
  lemma KeyRoundTrip(a: nat, b: nat)
    ensures Participants(Key(a, b)) == Some(if a <= b then (a, b) else (b, a))
  {
    if a <= b {
      assert Key(a, b) == Decimal(a, b);
      DecimalRoundTrip(a, b);
    } else {
      assert Key(a, b) == Decimal(b, a);
      DecimalRoundTrip(b, a);
    }
  }

  /** The label "x-y" written with both ids in decimal. */
  function Decimal(x: nat, y: nat): string {
    ShowNat(x) + [Separator] + ShowNat(y)
  }

  /** "x-y" in decimal reads back as (x, y), in the order written. */
  lemma DecimalRoundTrip(x: nat, y: nat)
    ensures Participants(Decimal(x, y)) == Some((x, y))
  {
    var l, r := ShowNat(x), ShowNat(y);
    NotInDigits(l, Separator);
    NotInDigits(r, Separator);
    SplitTwo(l, r);
    assert Split(Decimal(x, y), Separator) == [l, r];
    ParseShow(x);
    ParseShow(y);
  }

  /** "A-B" and "B-A" name the same room. */
  lemma FormatCommutes(x: string, y: string)
    requires Separator !in x && Separator !in y
    ensures FormatRoomName(x + [Separator] + y) == FormatRoomName(y + [Separator] + x)
  {
    SplitTwo(x, y);
    SplitTwo(y, x);
    var p, q := Participants(x + [Separator] + y), Participants(y + [Separator] + x);
    assert p.Some? <==> q.Some?;
    if p.Some? {
      assert q.value == (p.value.1, p.value.0);
      assert Key(p.value.0, p.value.1) == Key(q.value.0, q.value.1);
    }
  }

  /** A formatted name is "a-b" with a <= b, naming the same two ids as the
      label it came from. */
  lemma FormatIsSortedPair(name: string)
    requires FormatRoomName(name).Some?
    ensures Participants(FormatRoomName(name).value).Some?
    ensures Participants(FormatRoomName(name).value).value.0
              <= Participants(FormatRoomName(name).value).value.1
    ensures {Participants(FormatRoomName(name).value).value.0,
             Participants(FormatRoomName(name).value).value.1}
            == {Participants(name).value.0, Participants(name).value.1}
    ensures FormatRoomName(name).value
            == ShowNat(Participants(FormatRoomName(name).value).value.0) + [Separator]
               + ShowNat(Participants(FormatRoomName(name).value).value.1)
  {
    var p := Participants(name).value;
    KeyRoundTrip(p.0, p.1);
    assert FormatRoomName(name).value == Key(p.0, p.1);
  }

  /** Formatting a formatted name changes nothing. */
  lemma FormatIdempotent(name: string)
    requires FormatRoomName(name).Some?
    ensures FormatRoomName(FormatRoomName(name).value) == FormatRoomName(name)
  {
    var (x, y) := Participants(name).value;
    KeyRoundTrip(x, y);
  }

  /** A negative id brings a third piece, so the label is rejected. */
  lemma NegativeIdRejected()
    ensures FormatRoomName("-1-2") == None
  {
    assert "-1-2"[1..] == "1-2";
    assert "1-2"[1..] == "-2";
    assert "-2"[1..] == "2";
    assert "2"[1..] == "";
    assert |Split("-1-2", Separator)| == 3;
  }

  /** `ChatConsumer.is_valid_room`: the name splits into two ids, both are
      existing users, and the caller is one of them. */
  function IsValidRoom(name: string, users: set<nat>, caller: nat): (ok: bool)
    ensures ok ==> Participants(name).Some?
  {
    match Participants(name)
    case None => false
    case Some((a, b)) => a in users && b in users && (caller == a || caller == b)
  }

  /** For a canonical name, validity depends only on the two ids of the
      original label, whichever order they were written in. */
  lemma ValidRoomIff(requested: string, users: set<nat>, caller: nat)
    requires FormatRoomName(requested).Some?
    ensures IsValidRoom(FormatRoomName(requested).value, users, caller)
            <==> (&& Participants(requested).value.0 in users
                  && Participants(requested).value.1 in users
                  && (caller == Participants(requested).value.0
                      || caller == Participants(requested).value.1))
  {
    var p := Participants(requested).value;
    KeyRoundTrip(p.0, p.1);
    assert FormatRoomName(requested).value == Key(p.0, p.1);
  }
}

=== FILE: seqs.dfy ===
/** Facts about sequences that several parts of the model share. */
module Seqs {

  /** No element occurs twice. */
  predicate NoDup<T(==)>(xs: seq<T>) {
    forall i, j :: 0 <= i < j < |xs| ==> xs[i] != xs[j]
  }
}

=== FILE: users.dfy ===
/** Accounts, roles and the rules around them: role switching, the
    registration and social-link validators, the role-dependent profile, and
    the provisioning of a user's companion records. */
module Users {
  import opened Wrappers

  datatype Role = Farmer | Buyer | Admin

  /** The value stored in the `role` column. */
  function RoleValue(r: Role): string {
    match r
    case Farmer => "Farmer"
    case Buyer => "Buyer"
    case Admin => "Admin"
  }

  datatype User = User(
    id: nat,
    email: string,
    firstName: string,
    lastName: string,
    phone: Option<string>,
    role: Role,
    avatar: Option<string>)

  /** A freshly registered account: no phone, no avatar, and the Buyer role
      unless another is given. */
  function NewUser(id: nat, email: string, firstName: string, lastName: string): (u: User)
    ensures u.role == Buyer
    ensures u.id == id && u.email == email
    ensures u.phone.None? && u.avatar.None?
  {
    User(id, email, firstName, lastName, None, Buyer, None)
  }

  /** The first user with the given id, if any (ids are unique). */
  function FindById(users: seq<User>, id: nat): (r: Option<User>)
    ensures r.Some? ==> r.value in users && r.value.id == id
    ensures r.None? <==> forall i :: 0 <= i < |users| ==> users[i].id != id
  {
    if |users| == 0 then None
    else if users[0].id == id then Some(users[0])
    else FindById(users[1..], id)
  }

  /** The first user with the given email, if any (emails are unique). */
  function FindByEmail(users: seq<User>, email: string): (r: Option<User>)
    ensures r.Some? ==> r.value in users && r.value.email == email
    ensures r.None? <==> forall i :: 0 <= i < |users| ==> users[i].email != email
  {
    if |users| == 0 then None
    else if users[0].email == email then Some(users[0])
    else FindByEmail(users[1..], email)
  }

  function Ids(users: seq<User>): (ids: set<nat>)
    ensures forall id :: id in ids <==> FindById(users, id).Some?
  {
    set i | 0 <= i < |users| :: users[i].id
  }

  // ---------------------------------------------------------------------
  // Role switching
  // ---------------------------------------------------------------------

  /** `User.switch_role`: a Buyer becomes a Farmer, a Farmer a Buyer, and an
      Admin is refused with a ValueError. */
  function SwitchRole(r: Role): (res: Result<Role, Error>)
    ensures res.Err? <==> r == Admin
    ensures res.Err? ==> res.error == ValueError
    ensures res.Ok? ==> res.value != Admin && res.value != r
  {
    match r
    case Admin => Err(ValueError)
    case Buyer => Ok(Farmer)
    case Farmer => Ok(Buyer)
  }

  /** Switching twice restores a Buyer or a Farmer. */
  lemma SwitchTwice(r: Role)
    requires r != Admin
    ensures SwitchRole(r).Ok? && SwitchRole(SwitchRole(r).value) == Ok(r)
  {
  }

  /** The account after `switch_role`: only the role changes, and an Admin
      account is left as it was. */
  function SwitchUserRole(u: User): (r: Result<User, Error>)
    ensures r.Err? <==> u.role == Admin
    ensures r.Ok? ==> r.value == u.(role := r.value.role) && r.value.role != u.role
    ensures r.Ok? ==> r.value.role in {Farmer, Buyer}
  {
    match SwitchRole(u.role)
    case Err(e) => Err(e)
    case Ok(role) => Ok(u.(role := role))
  }

  // ---------------------------------------------------------------------
  // Validators
  // ---------------------------------------------------------------------

  /** `RegistrationSerializer.validate_role`: only "Admin" is refused. */
  function ValidateRole(value: string): (r: Result<string, Error>)
    ensures r.Err? <==> value == RoleValue(Admin)
    ensures r.Ok? ==> r.value == value
  {
    if value == "Admin" then Err(FieldError("role")) else Ok(value)
  }

  /** `RegistrationSerializer.validate_email`: refused iff some account
      already holds that email. */
  function ValidateEmail(users: seq<User>, value: string): (r: Result<string, Error>)
    ensures r.Err? <==> exists i :: 0 <= i < |users| && users[i].email == value
    ensures r.Ok? ==> r.value == value
  {
    if FindByEmail(users, value).Some? then Err(FieldError("email")) else Ok(value)
  }

  /** `SocialSerializer.validate_url`: accepted iff it starts with "http". */
  function ValidateUrl(value: string): (r: Result<string, Error>)
    ensures r.Ok? <==> |value| >= 4 && value[..4] == "http"
    ensures r.Ok? ==> r.value == value
  {
    if |value| >= 4 && value[..4] == "http" then Ok(value) else Err(FieldError("url"))
  }

  /** The prefix test is not a scheme test. */
  lemma UrlPrefixOnly()
    ensures ValidateUrl("httpfoo").Ok?
    ensures ValidateUrl("ftp://x").Err?
  {
    assert "httpfoo"[..4] == "http";
    assert "ftp://x"[..4] != "http" by { assert "ftp://x"[0] == 'f'; }
  }

  // ---------------------------------------------------------------------
  // Profile shaping
  // ---------------------------------------------------------------------

  datatype FarmerInfo = FarmerInfo(rating: string, experience: string, bio: string)
  datatype BuyerInfo = BuyerInfo(deliveryAddress: string, paymentMethod: string)
  datatype Social = Social(id: nat, platform: string, url: string)

  datatype Info =
    | FarmerDetails(rating: string, experience: string, bio: string)
    | BuyerDetails(deliveryAddress: string, paymentMethod: string)

  /** `UserSerializer.get_info`: the role's own companion record, when the
      user has one; nothing for an Admin. */
  function GetInfo(u: User, farmer: Option<FarmerInfo>, buyer: Option<BuyerInfo>): (r: Option<Info>)
    ensures r.Some? <==> (u.role == Farmer && farmer.Some?) || (u.role == Buyer && buyer.Some?)
    ensures r.Some? && u.role == Farmer ==>
              r.value == FarmerDetails(farmer.value.rating, farmer.value.experience, farmer.value.bio)
    ensures r.Some? && u.role == Buyer ==>
              r.value == BuyerDetails(buyer.value.deliveryAddress, buyer.value.paymentMethod)
  {
    match u.role
    case Farmer =>
      (match farmer
       case Some(f) => Some(FarmerDetails(f.rating, f.experience, f.bio))
       case None => None)
    case Buyer =>
      (match buyer
       case Some(b) => Some(BuyerDetails(b.deliveryAddress, b.paymentMethod))
       case None => None)
    case Admin => None
  }

  datatype Profile = Profile(
    id: nat,
    email: string,
    firstName: string,
    lastName: string,
    phone: Option<string>,
    avatar: Option<string>,
    role: Role,
    info: Option<Info>,
    socials: Option<seq<Social>>)

  /** `UserSerializer.to_representation`: the account's fields and info, with
      the "socials" key dropped for a Buyer only. */
  function Represent(u: User, farmer: Option<FarmerInfo>, buyer: Option<BuyerInfo>,
                     socials: seq<Social>): (p: Profile)
    ensures p.socials.None? <==> u.role == Buyer
    ensures p.socials.Some? ==> p.socials.value == socials
    ensures p.info == GetInfo(u, farmer, buyer)
    ensures p.id == u.id && p.email == u.email && p.role == u.role
  {
    Profile(u.id, u.email, u.firstName, u.lastName, u.phone, u.avatar, u.role,
            GetInfo(u, farmer, buyer),
            if u.role == Buyer then None else Some(socials))
  }

  /** The fields a profile update may carry; an absent key is `None`.
      Phone and avatar may be explicitly cleared (`Some(None)`). */
  datatype ProfileUpdate = ProfileUpdate(
    firstName: Option<string>,
    lastName: Option<string>,
    phone: Option<Option<string>>,
    avatar: Option<Option<string>>)

  /** `UpdateUserSerializer.update`: supplied fields replace the old ones,
      absent fields keep their values, and nothing else changes. */
  function UpdateProfile(u: User, d: ProfileUpdate): (r: User)
    ensures r.firstName == (if d.firstName.Some? then d.firstName.value else u.firstName)
    ensures r.lastName == (if d.lastName.Some? then d.lastName.value else u.lastName)
    ensures r.phone == (if d.phone.Some? then d.phone.value else u.phone)
    ensures r.avatar == (if d.avatar.Some? then d.avatar.value else u.avatar)
    ensures r.id == u.id && r.email == u.email && r.role == u.role
  {
    u.(firstName := d.firstName.GetOr(u.firstName),
       lastName := d.lastName.GetOr(u.lastName),
       phone := d.phone.GetOr(u.phone),
       avatar := d.avatar.GetOr(u.avatar))
  }

  /** Applying the same update twice is the same as once, and an empty
      update changes nothing. */
  lemma UpdateProfileIdempotent(u: User, d: ProfileUpdate)
    ensures UpdateProfile(UpdateProfile(u, d), d) == UpdateProfile(u, d)
    ensures UpdateProfile(u, ProfileUpdate(None, None, None, None)) == u
  {
  }

  // ---------------------------------------------------------------------
  // Provisioning (users/service.py)
  // ---------------------------------------------------------------------

  /** The records every Farmer and Buyer owns besides the account: farmer
      info, buyer info, and a basket (identified by its buyer). */
  datatype Companions = Companions(
    farmerInfo: map<nat, FarmerInfo>,
    buyerInfo: map<nat, BuyerInfo>,
    baskets: set<nat>)

  const BlankFarmerInfo := FarmerInfo("", "", "")
  const BlankBuyerInfo := BuyerInfo("", "")

  /** `create_if_not_exists`: `get_or_create` of all three records for a
      Farmer or a Buyer; a ValueError and nothing created for any other role. */
  function Provision(c: Companions, u: User): (r: Result<Companions, Error>)
    ensures r.Err? <==> u.role == Admin
    ensures r.Err? ==> r.error == ValueError
    ensures r.Ok? ==> u.id in r.value.farmerInfo && u.id in r.value.buyerInfo && u.id in r.value.baskets
    // records that already existed are kept as they were
    ensures r.Ok? ==> forall k :: k in c.farmerInfo ==> k in r.value.farmerInfo && r.value.farmerInfo[k] == c.farmerInfo[k]
    ensures r.Ok? ==> forall k :: k in c.buyerInfo ==> k in r.value.buyerInfo && r.value.buyerInfo[k] == c.buyerInfo[k]
    // only the user's own records are added
    ensures r.Ok? ==> r.value.farmerInfo.Keys == c.farmerInfo.Keys + {u.id}
    ensures r.Ok? ==> r.value.buyerInfo.Keys == c.buyerInfo.Keys + {u.id}
    ensures r.Ok? ==> r.value.baskets == c.baskets + {u.id}
  {
    if u.role.Admin? then Err(ValueError)
    else
      var farmers := if u.id in c.farmerInfo then c.farmerInfo else c.farmerInfo[u.id := BlankFarmerInfo];
      var buyers := if u.id in c.buyerInfo then c.buyerInfo else c.buyerInfo[u.id := BlankBuyerInfo];
      Ok(Companions(farmers, buyers, c.baskets + {u.id}))
  }

  /** A second provisioning run creates nothing new. */
  lemma ProvisionIdempotent(c: Companions, u: User)
    requires u.role != Admin
    ensures Provision(c, u).Ok?
    ensures Provision(Provision(c, u).value, u) == Provision(c, u)
  {
  }
}

=== FILE: wrappers.dfy ===
/** Failure-compatible wrappers shared by every module of the model, and the
    error kinds the marketplace's views and helpers report. */
module Wrappers {

  datatype Option<+T> = None | Some(value: T) {
    predicate IsFailure() { None? }

    function PropagateFailure<U>(): Option<U>
      requires None?
    {
      None
    }

    function Extract(): T
      requires Some?
    {
      value
    }

    function GetOr(default: T): T {
      match this
      case Some(v) => v
      case None => default
    }
  }

  datatype Result<+T, +E> = Ok(value: T) | Err(error: E) {
    predicate IsFailure() { Err? }

    function PropagateFailure<U>(): Result<U, E>
      requires Err?
    {
      Err(error)
    }

    function Extract(): T
      requires Ok?
    {
      value
    }
  }

  /** What a request handler reports instead of a success: the HTTP error
      responses, the exceptions a view lets escape (a 500), and the two
      structured validation failures the core produces. */
  datatype Error =
    | BadRequest                          // 400
    | Forbidden                           // 403, PermissionDenied
    | NotFound                            // 404
    | ServerError                         // 500, an exception the view does not catch
    | InsufficientStock(products: seq<string>)  // 400 naming every short product
    | FieldError(field: string)           // serializer ValidationError keyed on a field
    | ValueError                          // Python ValueError raised by a model helper
}
